=== FILE: README.md ===
# Robotics admin dashboard: the list, form and sign-in logic

This project models the pure logic of the Lunar Enterprises robotics admin dashboard, a React single-page app. What it covers:

- **The list screens.** These are the order (quote) history, the rent-quote inbox, the contact-us leads, the two robot catalogues, the blog, behind-the-scenes posts, testimonials, banners and current projects. Each screen models:
  - how fetched server records are mapped to rows;
  - the search and filters;
  - the client-side pagination and its button bar;
  - what a delete or a refetch does to the list.
- **The forms.** For each modal this covers:
  - how opening it for editing fills the inputs;
  - the validation that decides whether anything is sent;
  - the exact multipart body (`FormData`) it builds: keys in append order, text values, numbers parsed from text, and files.
- **The authentication context.** It holds:
  - the signed-in user, who is restored from browser storage;
  - the password-reset state shared between steps;
  - the forgot-password wizard that drives that state through its four steps: e-mail, code, new password and done.

Each screen is a state machine. A `Screen` datatype holds what the component keeps in React state. An `Event` datatype names a user action together with the server replies it leads to. `Step` computes the next screen. Server replies, browser storage and picked files are parameters. Nothing here performs I/O.

Shared modules model the JavaScript built-ins the screens depend on:

- `Text`: ASCII `toLowerCase`, `includes`, `trim`, `split`/`join` on one character, `toString` of integers, and string `<`.
- `Lists`: `filter` and its order, counting and partition facts.
- `Paging`: `slice` and `Math.ceil` pagination.
- `JsNumber`: `isNaN` and `Number` on plain decimal numerals.
- `Js`: truthiness, `||` fallbacks and server replies.
- `Multipart`: `FormData` bodies.

## Model

| member | source | states |
|---|---|---|
| Text.Lower | src/components/Pages/Leads.tsx:69-75 | the lower-cased text keeps its length, maps each character on its own and has no upper-case letter left |
| Text.LowerIdempotent | src/components/Pages/Rent_Robot/Rent_Robot.tsx:70-75 | lower-casing an already lower-cased search term changes nothing |
| Text.Contains | src/components/Pages/Leads.tsx:71-75 | `includes` is true exactly when the needle occurs at some index of the text |
| Text.ContainsInfix | src/components/Pages/BlogPost/BlogPost.tsx:64-68 | a needle found in one part of a joined search text is found in the whole |
| Text.Trim | src/components/Pages/Robots.tsx:158-162 | the trimmed text neither starts nor ends with white space, uses only characters of the input, and is empty exactly for blank input |
| Text.TrimIdempotent | src/components/Pages/Robots.tsx:190-205 | trimming twice is trimming once |
| Text.Split | src/components/Pages/Robots.tsx:190-205 | the pieces of a split hold no separator and join back to the original text |
| Text.SplitJoin | src/components/Pages/Robots.tsx:190-205 | splitting a join of separator-free pieces gives the pieces back |
| Text.NormalizeList | src/components/Pages/Robots.tsx:190-205 | the comma list sent for highlights, product_used_places and sensors splits into exactly the trimmed items of what was typed |
| Text.NormalizeListKeepsCount | src/components/Pages/Robots.tsx:190-205 | normalising a comma list never adds or loses an item |
| Text.NormalizeListItemsTrimmed | src/components/Pages/Robots.tsx:190-205 | every item of a normalised list is already trimmed |
| Text.NormalizeListIdempotent | src/components/Pages/jjhbjh.jsx:247-253 | normalising a list that was already normalised sends it unchanged |
| Text.NatToString | src/components/Pages/Robots.tsx:177 | the decimal text of a natural number is all digits, has no leading zero, and denotes the number |
| Text.IntToString | src/components/Pages/Leads.tsx:74 | a minus sign appears exactly for negatives, the rest is digits, and a non-negative number is denoted by its text |
| Text.IntToStringInjective | src/components/Pages/Orderlisttrack/AdminOrderHistory.tsx:69 | two different ids never have the same decimal text |
| Text.Utf16Length | src/components/Pages/Forgotpassword/Forgotpassword.tsx:74 | `length` counts UTF-16 code units: never fewer than the characters nor more than twice as many, and equal to them exactly when no character is astral |
| Text.DigitsOnly | src/components/Pages/Forgotpassword/Forgotpassword.tsx:200 | removing the non-digits leaves only digits from the input, and a text of digits is left as it is |
| Text.LexLessTrichotomy | src/components/Pages/Orderlisttrack/AdminOrderHistory.tsx:76-78 | any two date strings are equal or one sorts before the other |
| Text.LexLessAsymmetric | src/components/Pages/Orderlisttrack/AdminOrderHistory.tsx:76-78 | two dates never each sort before the other |
| Text.LexLessTransitive | src/components/Pages/Orderlisttrack/AdminOrderHistory.tsx:76-78 | the string order used for date bounds is transitive |
| Lists.Filter | src/components/Pages/Leads.tsx:68-77 | the kept rows satisfy the predicate, come from the list, and include every row of the list that satisfies it |
| Lists.FilterIsSubsequence | src/components/Pages/Leads.tsx:68-77 | filtering keeps the rows in their original order |
| Lists.FilterPartition | src/components/Pages/BlogPost/BlogPost.tsx:105 | for every row, its copies kept plus its copies dropped are all its copies in the list |
| Lists.FilterKeepsAllIff | src/components/Pages/Orderlisttrack/AdminOrderHistory.tsx:190-194 | a filter keeps the whole list exactly when every row satisfies its predicate |
| Lists.FilterLengthPartition | src/components/Pages/Orderlisttrack/AdminOrderHistory.tsx:190-200 | the rows a filter keeps and the rows the opposite filter keeps add up to the whole list |
| Lists.FilterEmptyIff | src/components/Pages/Orderlisttrack/AdminOrderHistory.tsx:200 | a filter keeps nothing exactly when no row satisfies its predicate |
| Lists.RemoveAt | src/components/Pages/Robots.tsx:152-154 | removing an index inside the list shifts the later entries down by one; an index outside changes nothing |
| Lists.Range | src/components/Pages/Rent_Robot/Rent_Robot.tsx:204 | the candidate page numbers are 1..n in order |
| Lists.FilterIncreasing | src/components/Pages/Rent_Robot/Rent_Robot.tsx:204-209 | filtering the rising page numbers leaves them rising |
| Paging.SliceIndex | src/components/Pages/Rent_Robot/Rent_Robot.tsx:80-85 | `slice` clamps a start or end index into the list, counting negatives from the end |
| Paging.PageCount | src/components/Pages/Rent_Robot/Rent_Robot.tsx:86 | the page count is the fewest pages that hold the list, and zero only for an empty list |
| Paging.PageShape | src/components/Pages/Orderlisttrack/AdminOrderHistory.tsx:88-92 | a page is the stretch of at most one page size starting at its offset, or empty past the end |
| Paging.PageNonEmpty | src/components/Pages/Orderlisttrack/AdminOrderHistory.tsx:87-92 | a page has rows exactly when its number lies between 1 and the page count |
| Paging.PageIndex | src/components/Pages/Orderlisttrack/AdminOrderHistory.tsx:88-92 | row j of page p is row (p - 1) * size + j of the filtered list |
| Paging.EntryOnPage | src/components/Pages/Rent_Robot/Rent_Robot.tsx:80-86 | every row of the filtered list shows on some existing page, at the expected position |
| Paging.PagesPrefix | src/components/Pages/Orderlisttrack/AdminOrderHistory.tsx:87-92 | the first k pages laid end to end are the first k page-sizes of the list |
| Paging.PagesCoverList | src/components/Pages/Orderlisttrack/AdminOrderHistory.tsx:87-92 | all pages laid end to end are exactly the filtered list: nothing is lost, repeated or reordered |
| Js.OrElse | src/components/Pages/Authcontext/Authcontext.tsx:41-43 | a string-or-fallback yields the value when it is a non-empty string and the fallback otherwise |
| Js.PrefixedOr | src/components/Pages/BlogPost/BlogPost.tsx:50-52 | a non-empty server path is prefixed with the origin; a missing or empty one yields the fallback |
| Multipart.Keys | src/components/Pages/Robots.tsx:175-219 | a body's keys are its entries' keys in append order |
| Multipart.CountKey | src/components/Pages/Robots.tsx:210-216 | the count of entries under a key is zero exactly when the key is absent |
| Multipart.CountKeyAppend | src/components/Pages/Robots.tsx:210-216 | appending bodies adds their per-key counts |
| Multipart.Field | src/components/Pages/Robots.tsx:158-170 | a form field reads as typed, and as "" when it was never typed into |
| JsNumber.ParseDecimal | src/components/Pages/Robots.tsx:163-168 | a recognised numeral is well formed and is negative exactly when it starts with "-"; a leading "+" is dropped |
| JsNumber.ParseShow | src/components/Pages/Robots.tsx:163-168 | every well-formed decimal is recognised from its canonical spelling, sign and digits intact |
| JsNumber.ParseNegative | src/components/Pages/Robots.tsx:167-168 | a "-" before an unsigned numeral reads as the negative number |
| JsNumber.ParsePlain | src/components/Pages/Robots.tsx:163-164 | an unsigned numeral reads as it stands |
| JsNumber.ExceedsMeaning | src/components/Pages/Robots.tsx:167-168 | the digit-level test for "rating above 5" agrees with the exact numeric value |
| JsNumber.ShowTrimmed | src/components/Pages/Testimonials/Testimonials.tsx:265 | a canonically written number has no white space to trim |
| JsNumber.ShowConverts | src/components/Pages/Robots.tsx:163-168 | a canonically written number is no NaN, and compares with a bound as its value does |
| JsNumber.ValidFloatIsShown | src/components/Pages/Testimonials/Testimonials.tsx:258-266 | a number input takes a text exactly when it is the canonical spelling of a well-formed numeral |
| JsNumber.NumberInputValue | src/components/Pages/Testimonials/Testimonials.tsx:264-266 | a number input hands over what was typed or "": "" for any text that is no number, and otherwise a text that is neither blank nor NaN |
| OrderHistory.ToOrder | src/components/Pages/Orderlisttrack/AdminOrderHistory.tsx:40-52 | a row keeps the quote's id, name, status and amount, shows "N/A" for a missing e-mail, and keeps the date part before "T" |
| OrderHistory.MapOrders | src/components/Pages/Orderlisttrack/AdminOrderHistory.tsx:40 | every fetched quote becomes one row, in order |
| OrderHistory.FilterOrders | src/components/Pages/Orderlisttrack/AdminOrderHistory.tsx:66-84 | the shown orders are exactly the orders matching search, status and dates, and no others |
| OrderHistory.FilterOrdersIsSubsequence | src/components/Pages/Orderlisttrack/AdminOrderHistory.tsx:67-81 | filtering keeps the orders in their fetched order |
| OrderHistory.NoFiltersKeepAll | src/components/Pages/Orderlisttrack/AdminOrderHistory.tsx:161-166 | after "Clear Filters" every order is shown |
| OrderHistory.StatusFilterMeaning | src/components/Pages/Orderlisttrack/AdminOrderHistory.tsx:73-74 | a status filter other than "All" keeps exactly the orders with that status |
| OrderHistory.DateFilterMeaning | src/components/Pages/Orderlisttrack/AdminOrderHistory.tsx:76-78 | with both bounds set, an order passes exactly when it has a date between them |
| OrderHistory.DateBoundsInclusive | src/components/Pages/Orderlisttrack/AdminOrderHistory.tsx:76-78 | an order dated on a bound passes it |
| OrderHistory.MissingDateExcluded | src/components/Pages/Orderlisttrack/AdminOrderHistory.tsx:76-78 | once any date bound is set, an order without a date is hidden |
| OrderHistory.PageRows | src/components/Pages/Orderlisttrack/AdminOrderHistory.tsx:87-92 | the rows shown are at most one page, non-empty exactly for an existing page, and are the right stretch of the filtered list |
| OrderHistory.PagesPartitionFiltered | src/components/Pages/Orderlisttrack/AdminOrderHistory.tsx:87-92 | the pages together show every filtered order exactly once, in order |
| OrderHistory.WindowHoldsCurrentPage | src/components/Pages/Orderlisttrack/AdminOrderHistory.tsx:94-95 | the numbered buttons form a block of at most 20 that holds the current page |
| OrderHistory.Bar | src/components/Pages/Orderlisttrack/AdminOrderHistory.tsx:462-496 | the bar appears exactly when some order passes the filters, and each of its buttons names an existing page |
| OrderHistory.PrevNextStayInRange | src/components/Pages/Orderlisttrack/AdminOrderHistory.tsx:466-496 | Previous and Next move by one page and never leave 1..totalPages |
| OrderHistory.ChangeStatus | src/components/Pages/Orderlisttrack/AdminOrderHistory.tsx:107-111 | a status change rewrites the status of exactly the orders with that id and leaves everything else as it was |
| OrderHistory.DeleteOrder | src/components/Pages/Orderlisttrack/AdminOrderHistory.tsx:139 | after a delete no order has the id, and every other order stays |
| OrderHistory.DeleteOrderFacts | src/components/Pages/Orderlisttrack/AdminOrderHistory.tsx:139 | a delete keeps the others in order and removes exactly the orders with that id |
| OrderHistory.PendingCount | src/components/Pages/Orderlisttrack/AdminOrderHistory.tsx:190-194 | the "Pending" card is zero exactly when no order is pending, the total exactly when all are, and with the non-pending orders it adds up to the total |
| OrderHistory.ConfirmedCount | src/components/Pages/Orderlisttrack/AdminOrderHistory.tsx:200 | the "Confirmed" card is zero exactly when no order is "Confirmed", the total exactly when all are, and with the other orders it adds up to the total |
| OrderHistory.ChangeStatusKeepsTotals | src/components/Pages/Orderlisttrack/AdminOrderHistory.tsx:107-111 | a status change keeps the order count and the revenue |
| OrderHistory.Refilter | src/components/Pages/Orderlisttrack/AdminOrderHistory.tsx:82-83 | the filter effect shows the filtered orders and goes back to page 1 |
| OrderHistory.InitialValid | src/components/Pages/Orderlisttrack/AdminOrderHistory.tsx:61-84 | the screen starts with the shown list equal to the filter of the orders, on a real page |
| OrderHistory.Step | src/components/Pages/Orderlisttrack/AdminOrderHistory.tsx:61-139 | a change of the orders or a change of the filters refilters and returns to page 1; setting the filters they already hold changes nothing; the pager moves only the page; a failed or cancelled call changes nothing |
| OrderHistory.ClearFiltersKeepsPage | src/components/Pages/Orderlisttrack/AdminOrderHistory.tsx:161-166 | "Clear Filters" with no filter set keeps the page shown; otherwise it shows every order from page 1 |
| OrderHistory.StepPreservesValid | src/components/Pages/Orderlisttrack/AdminOrderHistory.tsx:66-139 | every action keeps the shown list the filter of the orders, and the current page a real page |
| OrderHistory.ValidScreenShowsCurrentPage | src/components/Pages/Orderlisttrack/AdminOrderHistory.tsx:462-490 | with orders to show, the current page has a button and non-empty rows |
| RentQuotes.LowerOr | src/components/Pages/Rent_Robot/Rent_Robot.tsx:72-75 | a missing field searches as "", a present one as its lower-cased text |
| RentQuotes.Filtered | src/components/Pages/Rent_Robot/Rent_Robot.tsx:69-77 | the quotes shown are exactly the quotes matching the search |
| RentQuotes.FilteredIsSubsequence | src/components/Pages/Rent_Robot/Rent_Robot.tsx:69-77 | the search keeps the quotes in their fetched order |
| RentQuotes.EmptySearchKeepsAll | src/components/Pages/Rent_Robot/Rent_Robot.tsx:69-77 | an empty search shows every quote |
| RentQuotes.SearchIgnoresTermCase | src/components/Pages/Rent_Robot/Rent_Robot.tsx:70 | a term and its lower-cased form match the same quotes |
| RentQuotes.NameMatchFound | src/components/Pages/Rent_Robot/Rent_Robot.tsx:72 | a quote whose name contains the term, in any case, is found |
| RentQuotes.PageRows | src/components/Pages/Rent_Robot/Rent_Robot.tsx:80-86 | the rows shown are at most 20, non-empty exactly for an existing page, and are the right stretch of the search result |
| RentQuotes.Buttons | src/components/Pages/Rent_Robot/Rent_Robot.tsx:204-209 | every numbered button is an existing page that passes the first/last/neighbour rule |
| RentQuotes.ButtonsExactly | src/components/Pages/Rent_Robot/Rent_Robot.tsx:204-209 | a page has a button exactly when it exists and passes the rule |
| RentQuotes.PageBar | src/components/Pages/Rent_Robot/Rent_Robot.tsx:188-238 | the bar appears exactly with more than one page, and Previous and Next are disabled exactly on the first and last page |
| RentQuotes.ButtonsShape | src/components/Pages/Rent_Robot/Rent_Robot.tsx:204-209 | the first, last and current pages always have buttons, and at most five buttons show, in rising order |
| RentQuotes.ButtonsFew | src/components/Pages/Rent_Robot/Rent_Robot.tsx:204-209 | the buttons rise strictly and are never more than five |
| RentQuotes.EllipsisMarksHiddenPages | src/components/Pages/Rent_Robot/Rent_Robot.tsx:223-230 | an ellipsis stands only for an inner page, and hidden pages lie beyond the current page's neighbours |
| RentQuotes.Step | src/components/Pages/Rent_Robot/Rent_Robot.tsx:20-60 | only a fetch or a delete changes the quotes, only the search box changes the term and resets the page, a fetch or delete keeps the page, and a cancelled or failed delete changes nothing |
| RentQuotes.DeleteCanStrandPage | src/components/Pages/Rent_Robot/Rent_Robot.tsx:44-47 | deleting the only quote on the last page leaves the current page past the end with no rows, and from page 2 removes the bar altogether |
| RentQuotes.ClampPage | src/components/Pages/Rent_Robot/Rent_Robot.tsx:80-86 | the clamped page is an existing page (or 1), and an existing current page is kept |
| RentQuotes.InitialValid | src/components/Pages/Rent_Robot/Rent_Robot.tsx:64-66 | the inbox starts on a real page |
| RentQuotes.StepClamped | src/components/Pages/Rent_Robot/Rent_Robot.tsx:44-47 | the corrected handler keeps the quotes and search of the handler as written, and after a fetch or delete leaves a page that exists, the same page whenever it still does |
| RentQuotes.StepClampedPreservesValid | src/components/Pages/Rent_Robot/Rent_Robot.tsx:41-108 | with the page clamped after a refetch, every action keeps the current page a real page |
| RentQuotes.ValidScreenShowsCurrentPage | src/components/Pages/Rent_Robot/Rent_Robot.tsx:188-238 | on a real page with quotes to show, the page has rows and its button is offered |
| Leads.Filtered | src/components/Pages/Leads.tsx:68-77 | the messages shown are exactly those matching the search |
| Leads.FilteredIsSubsequence | src/components/Pages/Leads.tsx:68-77 | the search keeps the messages in their fetched order |
| Leads.EmptySearchKeepsAll | src/components/Pages/Leads.tsx:68-77 | an empty search shows every message |
| Leads.EmailFound | src/components/Pages/Leads.tsx:73 | a full e-mail address typed in any case finds its sender |
| Leads.PhoneNumberFound | src/components/Pages/Leads.tsx:74 | a numeric phone number is found by its decimal digits |
| Leads.Step | src/components/Pages/Leads.tsx:17-49 | typing only changes the term; a declined or failed delete and a failed fetch change nothing |
| Leads.DeleteShowsRefetch | src/components/Pages/Leads.tsx:41-47 | an accepted delete shows exactly what the refetch returned |
| ProductForm.RecordText | src/components/Pages/Robots.tsx:77-95 | a record field reads as "" exactly when missing or falsy, and otherwise as its text |
| ProductForm.ToRobot | src/components/Pages/Robots.tsx:34-56 | a card keeps the product and name, falls back to category "pricing", has no industries, and shows the first image prefixed with the origin |
| ProductForm.FetchedRobots | src/components/Pages/Robots.tsx:34-56 | a reply with an array becomes its cards, one per product; anything else empties the grid |
| ProductForm.SearchReadsOnlyName | src/components/Pages/Robots.tsx:58-65 | because cards carry no industries, the search in effect reads only the name |
| ProductForm.NamedProductsMatchEmptySearch | src/components/Pages/Robots.tsx:58-65 | every named product shows under an empty search |
| ProductForm.ListEntry | src/components/Pages/Robots.tsx:190-205 | a list field is sent as the trimmed items of what was typed |
| ProductForm.IdEntry | src/components/Pages/Robots.tsx:177 | the product id is sent exactly when editing a product with a non-zero id |
| ProductForm.AddFiles | src/components/Pages/Robots.tsx:139-150 | picked files become new previews after the existing ones, one per file, in order |
| ProductForm.EditPreviews | src/components/Pages/Robots.tsx:98-111 | opening a product gives one kept preview per stored image |
| ProductForm.ImageEntry | src/components/Pages/Robots.tsx:210-216 | a new file is uploaded under "image"; a kept image is sent under its id; anything else sends nothing |
| ProductForm.ImageEntriesAppend | src/components/Pages/Robots.tsx:210-216 | the image entries of joined preview lists are the joined entries |
| ProductForm.NewFileEntries | src/components/Pages/Robots.tsx:139-150 | freshly picked files give one "image" entry each, in order |
| ProductForm.AddFilesUploadsEach | src/components/Pages/Robots.tsx:139-150 | picking files adds exactly one upload per file at the end of the image entries |
| ProductForm.ImageCountIsNewFiles | src/components/Pages/Robots.tsx:210-216 | the number of uploads is the number of new previews that carry a file |
| ProductForm.EditPreviewsUploadNoNewImage | src/components/Pages/Robots.tsx:98-111 | re-saving without picking files uploads nothing under "image" |
| ProductForm.RemoveImageDropsItsEntry | src/components/Pages/Robots.tsx:152-154 | removing a preview removes its entry from the body and leaves the others in order |
| Robots.EditForm | src/components/Pages/Robots.tsx:77-95 | the edit form holds exactly the modal's input keys |
| Robots.Validate | src/components/Pages/Robots.tsx:156-173 | each error key is reported exactly when its check fails: blank texts, a missing or non-numeric price, a non-numeric discount, a rating that is no number or above 5, no images |
| Robots.TextChecks | src/components/Pages/Robots.tsx:158-162 | each text field errs exactly when blank |
| Robots.NumberChecks | src/components/Pages/Robots.tsx:163-170 | the price, discount, rating and image checks err exactly under their conditions |
| Robots.ValidateAccepts | src/components/Pages/Robots.tsx:172 | a form passes exactly when every single check passes |
| Robots.RatingCheckMeaning | src/components/Pages/Robots.tsx:167-168 | for a decimal rating the check fails exactly when its exact value is above 5, so negative ratings pass |
| Robots.BlankPriceAccepted | src/components/Pages/Robots.tsx:163-164 | a price of blanks counts as a number and passes |
| Robots.FieldEntries | src/components/Pages/Robots.tsx:180-207 | the text fields are appended under exactly the payload's keys, in order |
| Robots.Payload | src/components/Pages/Robots.tsx:175-219 | the body is the id entry, then the fields, then the image entries, with keys in that order |
| Robots.PayloadFields | src/components/Pages/Robots.tsx:180-207 | each field travels as typed, as a parsed number, or as a normalised list |
| Robots.FieldEntriesCarry | src/components/Pages/Robots.tsx:180-207 | the named fields sit in the body with the coding the source gives them |
| Robots.PayloadImageCount | src/components/Pages/Robots.tsx:210-216 | the body uploads one "image" entry per newly picked file and no other |
| Robots.Save | src/components/Pages/Robots.tsx:221-241 | an invalid form sends nothing and reports its errors; a valid one sends the payload to the edit or the add endpoint |
| Robots.AfterSave | src/components/Pages/Robots.tsx:221-241 | the modal closes exactly for a form that validates and a request that resolved, then showing the refetch; otherwise the list and inputs stay and the errors are exactly those found |
| Robots.Step | src/components/Pages/Robots.tsx:34-241 | only a fetch, a save or a delete changes the cards, and a save shows either the old cards or the refetch; only the search box changes the term; a cancelled or failed delete changes nothing |
| Robots.AfterSaveCases | src/components/Pages/Robots.tsx:221-241 | a save either keeps the list and the modal, or closes the modal and shows the refetch |
| Robots.FetchedCardsMapped | src/components/Pages/Robots.tsx:34-56 | every fetched card is the mapping of its own product |
| Robots.AfterSaveRobots | src/components/Pages/Robots.tsx:233-234 | a save leaves the grid alone or replaces it with the refetch |
| Robots.StepKeepsCardsMapped | src/components/Pages/Robots.tsx:34-241 | no action ever puts a card on the grid that is not the mapping of its product |
| Robots.SaveKeepsCardsMapped | src/components/Pages/Robots.tsx:221-241 | a save keeps every card the mapping of its product |
| Robots.EditsKeepRobots | src/components/Pages/Robots.tsx:67-154 | search, the modal's inputs and closing it never touch the grid |
| Robots.SaveClosesOnlyValidForms | src/components/Pages/Robots.tsx:221-234 | the modal closes only for a valid form that the server accepted |
| Robots.EditThenSaveResends | src/components/Pages/Robots.tsx:75-241 | opening a product and saving it at once uploads no new "image" entry |
| RobotsVariant.Filtered | src/components/Pages/jjhbjh.jsx:58-69 | the cards shown are exactly those matching both the search and the kind filter, in order |
| RobotsVariant.AllKindsIsSearchOnly | src/components/Pages/jjhbjh.jsx:65-66 | with the filter on "all" the grid is the search result alone |
| RobotsVariant.KindlessHiddenByKindFilters | src/components/Pages/jjhbjh.jsx:44 | a product without a kind shows as "pricing", so both kind filters hide it, while its edit form says "buy" |
| RobotsVariant.ModalKindsMatchFilters | src/components/Pages/jjhbjh.jsx:370-379 | the kinds "Buy" and "Rent" the modal offers are found by the "buy" and "rent" filters |
| RobotsVariant.FormOf | src/components/Pages/jjhbjh.jsx:79-113 | every key of the built form comes from the object literal |
| RobotsVariant.FormOfLookup | src/components/Pages/jjhbjh.jsx:79-113 | a literal key that no later entry repeats holds the record's text |
| RobotsVariant.EditForm | src/components/Pages/jjhbjh.jsx:111 | the edit form's kind is the record's kind, or "buy" when it has none |
| RobotsVariant.VisibleFields | src/components/Pages/jjhbjh.jsx:533-589 | the rendered inputs keep the modal's order, and an input is rendered exactly when it is in the list and is not a discount input under the kind "Rent" |
| RobotsVariant.DiscountShownUnlessRent | src/components/Pages/jjhbjh.jsx:583-589 | the discount inputs show exactly when the kind is not "Rent"; a lower-case "rent" still shows them |
| RobotsVariant.Validate | src/components/Pages/jjhbjh.jsx:174-190 | only a missing image is reported; the field checks are switched off |
| RobotsVariant.FieldEntry | src/components/Pages/jjhbjh.jsx:192-262 | each field is sent as text, as a parsed number, as a normalised list, or with its "0"/"buy" fallback |
| RobotsVariant.FieldEntries | src/components/Pages/jjhbjh.jsx:192-262 | the twenty-eight fields are sent in order, each with its own coding |
| RobotsVariant.BrochureEntry | src/components/Pages/jjhbjh.jsx:258-260 | the brochure is sent exactly when one was picked |
| RobotsVariant.Payload | src/components/Pages/jjhbjh.jsx:192-272 | the body is the id, the fields, the brochure, then the images |
| RobotsVariant.PayloadFields | src/components/Pages/jjhbjh.jsx:192-262 | the discount fields are sent whatever the kind, even when the modal hides them |
| RobotsVariant.FieldEntriesCarry | src/components/Pages/jjhbjh.jsx:192-262 | the named fields sit in the body with the coding the source gives them |
| RobotsVariant.FieldsCountNoFile | src/components/Pages/jjhbjh.jsx:192-262 | the text fields carry no file key |
| RobotsVariant.PayloadFileCounts | src/components/Pages/jjhbjh.jsx:258-269 | one "brochure" entry exactly when a brochure was picked, and one "image" entry per new file |
| RobotsVariant.BrochureIsNoImageKey | src/components/Pages/jjhbjh.jsx:263-269 | no image entry is keyed "brochure" |
| RobotsVariant.Save | src/components/Pages/jjhbjh.jsx:312-332 | without an image nothing is sent; otherwise the payload goes to the edit or the add endpoint |
| RobotsVariant.AfterSave | src/components/Pages/jjhbjh.jsx:312-332 | the modal closes exactly when there are images and the request resolved, then showing the refetch; otherwise it keeps its inputs, with no error when images were there |
| RobotsVariant.FetchedCardsAreMapped | src/components/Pages/jjhbjh.jsx:39-49 | every fetched card is the mapping of its product under the buy-or-rent kind |
| RobotsVariant.InitialValid | src/components/Pages/jjhbjh.jsx:39-49 | the screen starts with every card mapped from its product |
| RobotsVariant.Step | src/components/Pages/jjhbjh.jsx:34-332 | only a fetch, a save or a delete changes the cards; the search box and the kind filter change only their own state; a cancelled or failed delete changes nothing |
| RobotsVariant.StepPreservesValid | src/components/Pages/jjhbjh.jsx:39-332 | no action puts an unmapped card on the grid |
| RobotsVariant.EditThenSave | src/components/Pages/jjhbjh.jsx:79-332 | editing and saving at once is sent, with the product's kind (or "buy"), no upload and no brochure |
| Blog.ToPost | src/components/Pages/BlogPost/BlogPost.tsx:44-56 | a post keeps the record's texts and shows its image prefixed with the origin, or "" |
| Blog.FetchedPosts | src/components/Pages/BlogPost/BlogPost.tsx:43-58 | a reply with an array becomes its posts; anything else leaves the list |
| Blog.Filtered | src/components/Pages/BlogPost/BlogPost.tsx:64-68 | the posts shown are exactly those matching title, client or location, in order |
| Blog.EmptySearchKeepsAll | src/components/Pages/BlogPost/BlogPost.tsx:64-68 | an empty search shows every post |
| Blog.ClientNameFound | src/components/Pages/BlogPost/BlogPost.tsx:65 | a client name typed in any case finds its post |
| Blog.EditForm | src/components/Pages/BlogPost/BlogPost.tsx:83-89 | the edit form holds the post's four texts |
| Blog.SaveRequest | src/components/Pages/BlogPost/BlogPost.tsx:125-155 | nothing is sent without a title and a client name; otherwise the id when editing, the type "blog", the texts and the picked image, to the right endpoint |
| Blog.EditSaveResendsPost | src/components/Pages/BlogPost/BlogPost.tsx:83-155 | opening a post and saving it unchanged sends the post back as it is |
| Blog.DeletePost | src/components/Pages/BlogPost/BlogPost.tsx:105 | after a delete no post has the id, and every other post stays in order |
| Blog.DeleteLosesOnlyThatId | src/components/Pages/BlogPost/BlogPost.tsx:105 | the delete removes exactly the posts with that id |
| Blog.Step | src/components/Pages/BlogPost/BlogPost.tsx:70-160 | the modal closes on save only for an accepted, sendable post; a delete changes the list only when confirmed and accepted |
| Blog.DeletedPostNotListed | src/components/Pages/BlogPost/BlogPost.tsx:64-105 | after an accepted delete no listed post has that id, whatever the search |
| BehindScenes.ToScene | src/components/Pages/Behindscenes/Behindscenes.tsx:44-53 | a scene keeps the record's texts and file type, and shows its media prefixed with the origin, or "" |
| BehindScenes.FetchedScenes | src/components/Pages/Behindscenes/Behindscenes.tsx:43-56 | a reply with an array becomes its scenes; anything else leaves the list |
| BehindScenes.PreviewOf | src/components/Pages/Behindscenes/Behindscenes.tsx:205-221 | "image" shows a picture, "mp4" or "video" a player, and anything else "N/A" |
| BehindScenes.FileTypeIsCaseSensitive | src/components/Pages/Behindscenes/Behindscenes.tsx:211 | an upper-case "MP4" gets no player |
| BehindScenes.Filtered | src/components/Pages/Behindscenes/Behindscenes.tsx:62-66 | the scenes shown are exactly those whose title matches, in order |
| BehindScenes.SpaceListsAll | src/components/Pages/Behindscenes/Behindscenes.tsx:63 | because of the trailing space, searching for one space lists every post |
| BehindScenes.TitleFound | src/components/Pages/Behindscenes/Behindscenes.tsx:62-66 | a title typed in any case finds its post |
| BehindScenes.EditForm | src/components/Pages/Behindscenes/Behindscenes.tsx:81-87 | the edit form holds the scene's title, description and tags |
| BehindScenes.SaveRequest | src/components/Pages/Behindscenes/Behindscenes.tsx:123-139 | nothing is sent without a title; otherwise the id, the fixed type, the texts with the tags under "category_tags", and the image |
| BehindScenes.EditSaveResendsScene | src/components/Pages/Behindscenes/Behindscenes.tsx:81-139 | saving an opened scene unchanged sends its tags under the request's key names |
| BehindScenes.DeleteScene | src/components/Pages/Behindscenes/Behindscenes.tsx:103 | after a delete no scene has the id, and every other scene stays |
| BehindScenes.DeleteLosesOnlyThatId | src/components/Pages/Behindscenes/Behindscenes.tsx:103 | the delete removes exactly the scenes with that id |
| BehindScenes.Step | src/components/Pages/Behindscenes/Behindscenes.tsx:68-145 | the modal closes on save only for an accepted request with a title; a delete acts only when confirmed and accepted |
| Testimonials.ToTestimonial | src/components/Pages/Testimonials/Testimonials.tsx:38-47 | a testimonial keeps the record's fields and shows its image prefixed with the origin, or "" |
| Testimonials.FetchedTestimonials | src/components/Pages/Testimonials/Testimonials.tsx:37-49 | a reply with an array becomes its testimonials; anything else leaves the list |
| Testimonials.Filtered | src/components/Pages/Testimonials/Testimonials.tsx:55-57 | the testimonials shown are exactly those matching name or company, in order |
| Testimonials.CompanyFound | src/components/Pages/Testimonials/Testimonials.tsx:56 | a company typed in any case finds its testimonial |
| Testimonials.RatingValue | src/components/Pages/Testimonials/Testimonials.tsx:125 | the rating is sent as stored, as the number typed when the number input takes it, and as "0" for blank text or text that is no number; a typed rating is never sent as "NaN" |
| Testimonials.EditForm | src/components/Pages/Testimonials/Testimonials.tsx:73-79 | the edit form holds the testimonial's texts |
| Testimonials.SaveRequest | src/components/Pages/Testimonials/Testimonials.tsx:117-145 | nothing is sent without a name and a company; otherwise the texts, the rating, the image, then the id when editing |
| Testimonials.AnyRatingIsSent | src/components/Pages/Testimonials/Testimonials.tsx:117-126 | a rating of any decimal value, above 5 or negative, is sent unchecked |
| Testimonials.NonNumberRatingSentAsZero | src/components/Pages/Testimonials/Testimonials.tsx:258-266 | text that is no number reaches the handler as "", so the rating is sent as "0" and never as "NaN" |
| Testimonials.RatingAppendedOnce | src/components/Pages/Testimonials/Testimonials.tsx:122-126 | the body holds exactly one rating entry, the third |
| Testimonials.DeleteTestimonial | src/components/Pages/Testimonials/Testimonials.tsx:97 | after a delete no testimonial has the id, and every other stays |
| Testimonials.DeleteLosesOnlyThatId | src/components/Pages/Testimonials/Testimonials.tsx:97 | the delete removes exactly the testimonials with that id |
| Testimonials.Step | src/components/Pages/Testimonials/Testimonials.tsx:81-105 | a delete changes the list only when confirmed and accepted, and then exactly by that id |
| Testimonials.EmptySearchKeepsAll | src/components/Pages/Testimonials/Testimonials.tsx:55-57 | an empty search shows every testimonial |
| Testimonials.AcceptedSaveReloads | src/components/Pages/Testimonials/Testimonials.tsx:146-149 | an accepted save reloads the page: modal gone, search cleared, the whole fetched list shown |
| Banner.ToCard | src/components/Pages/Banner/Banner.tsx:42-52 | type "image" gives an image, "video" a video, anything else neither, never both |
| Banner.FetchedBanners | src/components/Pages/Banner/Banner.tsx:41-59 | a reply with an array becomes its cards, any other reply empties the list, a failed request leaves it |
| Banner.PageName | src/components/Pages/Banner/Banner.tsx:80 | an unchosen page type is sent as "undefined" |
| Banner.SaveRequest | src/components/Pages/Banner/Banner.tsx:71-89 | nothing is sent without a file; otherwise image, video and page name, in that order |
| Banner.UnchosenTypeSentAsUndefined | src/components/Pages/Banner/Banner.tsx:72-80 | a banner saved before a type was chosen goes out with page name "undefined" |
| Banner.Step | src/components/Pages/Banner/Banner.tsx:71-126 | only the inputs change the form, and the modal closes on save only for an accepted request with a file |
| Banner.ReopenedModalResends | src/components/Pages/Banner/Banner.tsx:90-92 | the inputs survive a save, so reopening and saving sends the same request again |
| Banner.InitialValid | src/components/Pages/Banner/Banner.tsx:41-59 | the screen starts with no card showing two media |
| Banner.StepPreservesValid | src/components/Pages/Banner/Banner.tsx:41-126 | no action puts a card with both an image and a video on the screen |
| CurrentProject.ProjectText | src/components/Pages/Current_project/Current_project.tsx:42-55 | a project field reads as "" exactly when missing or falsy, and otherwise as its text |
| CurrentProject.CardImage | src/components/Pages/Current_project/Current_project.tsx:137 | a card shows the prefixed image, or the placeholder |
| CurrentProject.FetchedProjects | src/components/Pages/Current_project/Current_project.tsx:22-30 | a reply whose list is an array is shown whatever its result flag; anything else empties the list |
| CurrentProject.Lookup | src/components/Pages/Current_project/Current_project.tsx:173 | reading a form key fails exactly when the key was never written |
| CurrentProject.SetFound | src/components/Pages/Current_project/Current_project.tsx:174 | a key written reads back the written value |
| CurrentProject.SetOther | src/components/Pages/Current_project/Current_project.tsx:174 | writing a key leaves every other key reading as before |
| CurrentProject.SetKeys | src/components/Pages/Current_project/Current_project.tsx:174 | a rewritten key keeps its place, and a new key goes last |
| CurrentProject.SetKeepsDistinct | src/components/Pages/Current_project/Current_project.tsx:174 | writes never duplicate a key |
| CurrentProject.EditForm | src/components/Pages/Current_project/Current_project.tsx:41-56 | the edit form holds the fourteen keys in order, each with the project's text or "" |
| CurrentProject.EditPreviews | src/components/Pages/Current_project/Current_project.tsx:57-61 | opening a project previews its stored image exactly when it has one |
| CurrentProject.ImageChanged | src/components/Pages/Current_project/Current_project.tsx:83-89 | the first chosen file replaces the previews; an empty choice changes nothing |
| CurrentProject.FieldEntries | src/components/Pages/Current_project/Current_project.tsx:95 | every form entry is sent as text under its key, in property order |
| CurrentProject.FormBody | src/components/Pages/Current_project/Current_project.tsx:91-100 | the body is the id when truthy, the form in property order, then the picked file last |
| CurrentProject.LookupSent | src/components/Pages/Current_project/Current_project.tsx:95 | a value read from the form is in the body under its key |
| CurrentProject.ImageSentIffPicked | src/components/Pages/Current_project/Current_project.tsx:96-98 | the image is sent exactly once when a file was picked, and never otherwise |
| CurrentProject.SaveAsWritten | src/components/Pages/Current_project/Current_project.tsx:102-120 | as written, every save ends in the failure branch |
| CurrentProject.Save | src/components/Pages/Current_project/Current_project.tsx:102-114 | the intended save sends the form body to the edit endpoint when editing and to the add endpoint otherwise |
| CurrentProject.SaveNeverSends | src/components/Pages/Current_project/Current_project.tsx:107-110 | as written no form reaches the server, while the intended save always sends |
| CurrentProject.EditThenSaveBody | src/components/Pages/Current_project/Current_project.tsx:39-114 | saving an opened project sends its id when truthy, the fourteen fields in order, and no image |
| CurrentProject.Step | src/components/Pages/Current_project/Current_project.tsx:32-120 | an input shows what was typed; a save changes nothing as written; a declined or failed delete changes nothing |
| CurrentProject.ProjectKeysDistinct | src/components/Pages/Current_project/Current_project.tsx:164-167 | the fourteen input keys are distinct |
| CurrentProject.InitialValid | src/components/Pages/Current_project/Current_project.tsx:14 | the screen starts with an empty form |
| CurrentProject.StepPreservesValid | src/components/Pages/Current_project/Current_project.tsx:32-189 | the form's keys stay distinct and among the modal's inputs |
| CurrentProject.ValidSaveSendsForm | src/components/Pages/Current_project/Current_project.tsx:91-114 | on a valid screen the intended save sends every typed value, and the image exactly when picked |
| Auth.Mounted | src/components/Pages/Authcontext/Authcontext.tsx:21-25 | the provider starts with no user, no reset, and its children hidden |
| Auth.Restore | src/components/Pages/Authcontext/Authcontext.tsx:27-33 | the mount effect signs in the stored user, if any, and shows the children |
| Auth.RestoreShowsStoredUser | src/components/Pages/Authcontext/Authcontext.tsx:27-33 | the children appear only after restoring, with the stored user |
| Auth.LoggedUser | src/components/Pages/Authcontext/Authcontext.tsx:40-44 | each reply field is used when truthy, else id "1", the typed e-mail and "Admin" |
| Auth.Login | src/components/Pages/Authcontext/Authcontext.tsx:36-54 | a truthy result signs in and stores the user and returns true; anything else returns false and changes nothing |
| Auth.Logout | src/components/Pages/Authcontext/Authcontext.tsx:57-60 | logout clears the user and the stored record and nothing else |
| Auth.ForgotPassword | src/components/Pages/Authcontext/Authcontext.tsx:63-76 | an accepted request remembers the e-mail and marks the code sent; anything else returns false and changes nothing |
| Auth.VerifyOtp | src/components/Pages/Authcontext/Authcontext.tsx:79-90 | the code is checked for the remembered e-mail, and the server's verdict is returned with no state change |
| Auth.ResetPassword | src/components/Pages/Authcontext/Authcontext.tsx:93-113 | differing passwords return false without a request; an accepted reset forgets the reset state |
| Auth.ChangePassword | src/components/Pages/Authcontext/Authcontext.tsx:116-131 | sends the user's e-mail (none when signed out) and both passwords, and returns the reply's success field |
| Auth.ChangeIgnoresResult | src/components/Pages/Authcontext/Authcontext.tsx:103-126 | a reply with only "result: true" fails a change but passes a reset on the same endpoint |
| Auth.UseAuth | src/components/Pages/Authcontext/Authcontext.tsx:10-16 | the hook yields the context inside a provider and throws its message outside |
| Auth.Apply | src/components/Pages/Authcontext/Authcontext.tsx:36-131 | checking a code or changing a password never changes the state, and no action re-hides the children |
| Auth.RestoredValid | src/components/Pages/Authcontext/Authcontext.tsx:27-33 | after restoring, the user is what storage holds |
| Auth.ApplyPreservesValid | src/components/Pages/Authcontext/Authcontext.tsx:36-131 | every operation keeps the user equal to the stored record and the reset e-mail only while a code is out |
| Auth.OnlyLoginAndLogoutTouchUser | src/components/Pages/Authcontext/Authcontext.tsx:63-131 | only login and logout change who is signed in |
| Auth.ResetRunUsesOneEmail | src/components/Pages/Authcontext/Authcontext.tsx:63-113 | a full reset uses the same e-mail for code, check and new password, then forgets it |
| ForgotPassword.Start | src/components/Pages/Forgotpassword/Forgotpassword.tsx:11-23 | the wizard starts on the e-mail step with empty inputs and no error |
| ForgotPassword.Views | src/components/Pages/Forgotpassword/Forgotpassword.tsx:345-348 | exactly one view is rendered, the one of the current step |
| ForgotPassword.Take | src/components/Pages/Forgotpassword/Forgotpassword.tsx:198 | the input keeps a prefix of at most the maximum length |
| ForgotPassword.SanitizeOtp | src/components/Pages/Forgotpassword/Forgotpassword.tsx:198-200 | the code input holds at most six digits, and a code of up to six digits is kept as typed |
| ForgotPassword.SanitizeIdempotent | src/components/Pages/Forgotpassword/Forgotpassword.tsx:198-200 | sanitising a sanitised code changes nothing |
| ForgotPassword.SixDigitCodeNotSubmittable | src/components/Pages/Forgotpassword/Forgotpassword.tsx:198-209 | a six-digit code fits the input but can never be submitted |
| ForgotPassword.EmailSubmit | src/components/Pages/Forgotpassword/Forgotpassword.tsx:25-42 | an accepted e-mail moves to the code step with a code out for it; otherwise "Email address not found" |
| ForgotPassword.OtpSubmit | src/components/Pages/Forgotpassword/Forgotpassword.tsx:44-61 | an accepted code moves to the password step; otherwise the invalid-code message |
| ForgotPassword.ResetSubmit | src/components/Pages/Forgotpassword/Forgotpassword.tsx:63-92 | differing passwords, or ones shorter than six UTF-16 code units, are refused before any request; only an accepted reset reaches the last step |
| ForgotPassword.ResetCall | src/components/Pages/Forgotpassword/Forgotpassword.tsx:68-81 | a request goes out exactly when the passwords agree and are six UTF-16 code units or more |
| ForgotPassword.AstralPasswordLongEnough | src/components/Pages/Forgotpassword/Forgotpassword.tsx:74 | a password of three emoji, three characters but six code units, passes the length check and is sent |
| ForgotPassword.Next | src/components/Pages/Forgotpassword/Forgotpassword.tsx:162-222 | "Try again" clears code and error and returns to the e-mail step; any forward move clears the error |
| ForgotPassword.ForwardOnlyOnAcceptance | src/components/Pages/Forgotpassword/Forgotpassword.tsx:25-92 | each step is reached forward only through the server accepting the previous one |
| ForgotPassword.StartValid | src/components/Pages/Forgotpassword/Forgotpassword.tsx:11-13 | the wizard starts valid over a restored context |
| ForgotPassword.NextPreservesValid | src/components/Pages/Forgotpassword/Forgotpassword.tsx:25-222 | the code stays digits of at most six, a code is out for the typed e-mail between the code and password steps, and nothing is remembered after success |
| ForgotPassword.WizardKeepsUser | src/components/Pages/Forgotpassword/Forgotpassword.tsx:25-92 | the wizard never changes who is signed in |

## Left out

- Network calls (axios, and the service module `src/components/Pages/roboticsService.ts`) are not modelled. Every server reply is a parameter of the event that receives it, and a refetch is one more such reply.
- Rendering is not modelled: JSX, icons, badges, the Swal dialogs and their texts, and loading spinners. A dialog's answer is the `confirmed` flag of a delete event.
- Asynchrony and the `loading`/`submitting` flags are not modelled. Each handler runs to completion as one step, so those flags are false at every event boundary.
- Browser storage is a field of the auth state. A stored record that `JSON.parse` cannot read, and storage errors, are left out.
- Files, `FileReader`, `URL.createObjectURL` and downloads of existing images are not modelled. A file is an opaque `FileRef` and a preview's data URL is not kept.
- Upper- and lower-casing covers ASCII letters only. Unicode case mapping is not modelled.
- Number conversion covers plain decimal numerals only. Exponent, hexadecimal and "Infinity" numerals count as no number.
- `parseFloat(x) || 0` in the robot payloads is kept symbolic (`ParsedNumber`). Floating-point printing is not modelled.
- OrderHistory.Revenue: amounts are integers, so floating-point sums and rounding are not modelled.
- Js.Scalar: a number in a server record is a whole number. A fractional `p_rating`, `p_price` or `t_rating` such as 4.5 cannot be represented, so the record mappings and their printed texts are modelled for whole numbers only.
- Robots.RatingCheckMeaning: `formData.rating > 5` compares JavaScript doubles, but the model compares the exact decimal value (JsNumber.TextExceeds). A text such as "5.0000000000000001" rounds to the double 5 and passes in the browser, while the model reports a rating error for it.
- Testimonials.RatingValue: the number input's sanitisation is modelled for plain decimals only. A text with an exponent, such as "1e3", is a valid number to the browser, but the model treats it as no number and sends "0".
- Js.ApplyListReply: used by the rent-quote and leads screens. When a successful reply's `list` is truthy but not an array, the source stores it and the next `.filter` throws. The model keeps an empty list instead, because a reply's list is modelled as an array or absent.
- OrderHistory.Step: when the quote list's `list` is truthy but not an array, `ordersArray.map` throws inside the `try` and the `catch` only logs, so orders, filtered orders and page stay as they were. A reply's list is modelled as an array or absent, so this case is not represented. An absent or falsy list is modelled as the source handles it: the orders become empty.
- ForgotPassword.Take: `maxLength={6}` on the code input counts UTF-16 code units, while the model keeps six characters. Text holding astral characters, such as emoji, may be cut at a different point, so the digits kept can differ.
- Template literals that render a missing field as "undefined" are not modelled. Fields the search reads are present strings, except where the source guards them with `?.`.
- Browser constraint validation (`required`, `type="email"`, `minLength`) is not modelled. It stops a submit before the component's handler runs, so the model runs handlers on input the page would never hand them. For example, ForgotPassword.ResetSubmit reports "Password must be at least 6 characters long" for a short password that `minLength` would already have stopped. The code input's `maxLength` is modelled as truncation, and the number input's value sanitisation as JsNumber.NumberInputValue.
- Record fields that are mapped but never read by any modelled logic are dropped from the datatypes. Examples are phone, location and payment method in the order history, and dates and status in the blog.
- Several parts of the app are not part of this model: `src/components/Pages/BlogPosts.tsx`, `Dashboard.tsx`, the layout, the mock data, the shared types and `App.tsx`. These are static views, routing and sample data.
- The wizard's `catch` branches ("An error occurred") are not modelled. The context functions catch every failure themselves and return false, so the wizard's catch is never reached.
- The wizard's `onBack` navigation and the success view's "Back to Login" button leave the page, so they are not modelled.
- The password-visibility toggles are modelled only as flags.
- The leads detail modal ("view") only displays a record, so it is not modelled.

## Findings

| source | as written | input that shows it | evidently intended | confidence | as-written member | corrected member |
|---|---|---|---|---|---|---|
| src/components/Pages/Rent_Robot/Rent_Robot.tsx:44-47 | after a delete the list is refetched but the current page is kept, and only the search box resets it | 21 quotes with page 2 showing; delete the 21st | return to the last page that still exists | not executed | RentQuotes.DeleteCanStrandPage | RentQuotes.StepClampedPreservesValid |
| src/components/Pages/Current_project/Current_project.tsx:107-110 | `editProject` and `addProject` are called but never imported (only `deleteProject` and `listProjects` are), so every save throws and ends in "Save failed" | open "Add Project", type a name and press Add | send the form body to the add or edit endpoint | not executed | CurrentProject.SaveNeverSends | CurrentProject.ValidSaveSendsForm |

=== FILE: auth.dfy ===
/** The authentication context: the signed-in user (restored from and
    persisted to browser storage), and the state the password reset carries
    between its steps: the e-mail the code was sent to and whether it was
    sent. Each operation takes the server's reply as a parameter and yields
    the new state, the request it sends (if any) and the value it returns to
    its caller. */
module Auth {
  import opened Js

  const API_BASE: string := BASE_URL + "/robotics"

  /** A signed-in user as the context holds it and stores it. */
  datatype User = User(id: Scalar, email: string, name: string)

  /** The context's state. `stored` is the "adminUser" record of browser
      storage; `restoring` holds until the stored record has been read, and
      the children are hidden while it does. */
  datatype AuthState = AuthState(
    user: Option<User>, stored: Option<User>, resetEmail: string, otpSent: bool, restoring: bool)

  /** A JSON request: the endpoint and the body's fields. A field whose value
      is `undefined` is dropped by `JSON.stringify`, so it is simply absent. */
  datatype Call = Call(endpoint: string, body: map<string, string>)

  /** What an operation comes to: the new state, the request it sent, and what
      its promise resolves to. */
  datatype Outcome = Outcome(state: AuthState, call: Option<Call>, returned: bool)

  /** The provider as first rendered, over whatever browser storage holds. */
  function Mounted(stored: Option<User>): (s: AuthState)
    ensures s.user.None? && s.restoring && s.resetEmail == "" && !s.otpSent
  {
    AuthState(None, stored, "", false, true)
  }

  /** The mount effect: a stored user becomes the current user, and the
      children are shown from then on. */
  function Restore(s: AuthState): (t: AuthState)
    ensures !t.restoring
    ensures s.stored.Some? ==> t.user == s.stored
    ensures s.stored.None? ==> t.user == s.user
    ensures t.stored == s.stored && t.resetEmail == s.resetEmail && t.otpSent == s.otpSent
  {
    if s.stored.Some? then s.(user := s.stored, restoring := false) else s.(restoring := false)
  }

  /** Whether the children are rendered: only once restoring is over. */
  predicate ChildrenShown(s: AuthState)
  {
    !s.restoring
  }

  /** A freshly mounted provider shows its children with the stored user (or
      none) once it has restored. */
  lemma RestoreShowsStoredUser(stored: Option<User>)
    ensures !ChildrenShown(Mounted(stored))
    ensures ChildrenShown(Restore(Mounted(stored)))
    ensures Restore(Mounted(stored)).user == stored
  {
  }

  // ---------------------------------------------------------------------------
  // Login and logout
  // ---------------------------------------------------------------------------

  /** The `user` object of a login reply; each field may be missing. */
  datatype UserReply = UserReply(id: Option<Scalar>, email: Option<string>, name: Option<string>)

  /** A login reply: the request failed, or the reply's `result` flag and its
      optional `user`. */
  datatype LoginReply = LoginRejected | LoginResolved(result: bool, user: Option<UserReply>)

  /** The user a successful login records: each reply field when truthy,
      otherwise id "1", the e-mail typed, and the name "Admin". */
  function LoggedUser(email: string, reply: Option<UserReply>): (u: User)
    ensures reply.Some? && reply.value.id.Some? && Truthy(reply.value.id.value) ==> u.id == reply.value.id.value
    ensures !(reply.Some? && reply.value.id.Some? && Truthy(reply.value.id.value)) ==> u.id == Str("1")
    ensures reply.Some? && reply.value.email.Some? && reply.value.email.value != "" ==> u.email == reply.value.email.value
    ensures !(reply.Some? && reply.value.email.Some? && reply.value.email.value != "") ==> u.email == email
    ensures u.name != "" && u.id != Str("")
  {
    var fields := reply.GetOr(UserReply(None, None, None));
    var id := if fields.id.Some? && Truthy(fields.id.value) then fields.id.value else Str("1");
    User(id, OrElse(fields.email, email), OrElse(fields.name, "Admin"))
  }

  /** `login`: a reply with a truthy result signs the user in and stores the
      record; anything else returns false and changes nothing. */
  function Login(s: AuthState, email: string, password: string, reply: LoginReply): (o: Outcome)
    ensures o.call == Some(Call(API_BASE + "/login", map["email" := email, "password" := password]))
    ensures o.returned <==> reply.LoginResolved? && reply.result
    ensures o.returned ==> o.state == s.(user := Some(LoggedUser(email, reply.user)), stored := Some(LoggedUser(email, reply.user)))
    ensures !o.returned ==> o.state == s
  {
    var call := Call(API_BASE + "/login", map["email" := email, "password" := password]);
    if reply.LoginResolved? && reply.result then
      var u := LoggedUser(email, reply.user);
      Outcome(s.(user := Some(u), stored := Some(u)), Some(call), true)
    else Outcome(s, Some(call), false)
  }

  /** `logout`: no user, and no stored record. */
  function Logout(s: AuthState): (t: AuthState)
    ensures t.user.None? && t.stored.None?
    ensures t.resetEmail == s.resetEmail && t.otpSent == s.otpSent && t.restoring == s.restoring
  {
    s.(user := None, stored := None)
  }

  // ---------------------------------------------------------------------------
  // The password reset
  // ---------------------------------------------------------------------------

  /** `forgotPassword`: an accepted request remembers the e-mail and marks
      the code as sent; anything else returns false and changes nothing. */
  function ForgotPassword(s: AuthState, email: string, reply: AckReply): (o: Outcome)
    ensures o.call == Some(Call(API_BASE + "/forgotpassword", map["email" := email]))
    ensures o.returned <==> reply.Succeeded()
    ensures o.returned ==> o.state == s.(resetEmail := email, otpSent := true)
    ensures !o.returned ==> o.state == s
  {
    var call := Call(API_BASE + "/forgotpassword", map["email" := email]);
    if reply.Succeeded() then Outcome(s.(resetEmail := email, otpSent := true), Some(call), true)
    else Outcome(s, Some(call), false)
  }

  /** `verifyOTP`: sends the remembered e-mail with the code and hands back
      the server's verdict; the state is untouched either way. */
  function VerifyOtp(s: AuthState, otp: string, reply: AckReply): (o: Outcome)
    ensures o.state == s
    ensures o.call == Some(Call(API_BASE + "/verify-otp", map["email" := s.resetEmail, "otp" := otp]))
    ensures o.returned <==> reply.Succeeded()
  {
    Outcome(s, Some(Call(API_BASE + "/verify-otp", map["email" := s.resetEmail, "otp" := otp])), reply.Succeeded())
  }

  /** `resetPassword`: two different passwords return false before any
      request; otherwise the new password goes out for the remembered e-mail,
      and an accepted request forgets the reset. */
  function ResetPassword(s: AuthState, newPassword: string, confirmPassword: string, reply: AckReply): (o: Outcome)
    ensures newPassword != confirmPassword ==> o == Outcome(s, None, false)
    ensures newPassword == confirmPassword ==>
      o.call == Some(Call(API_BASE + "/change/password", map["email" := s.resetEmail, "password" := newPassword]))
    ensures o.returned <==> newPassword == confirmPassword && reply.Succeeded()
    ensures o.returned ==> o.state == s.(resetEmail := "", otpSent := false)
    ensures !o.returned ==> o.state == s
  {
    if newPassword != confirmPassword then Outcome(s, None, false)
    else
      var call := Call(API_BASE + "/change/password", map["email" := s.resetEmail, "password" := newPassword]);
      if reply.Succeeded() then Outcome(s.(resetEmail := "", otpSent := false), Some(call), true)
      else Outcome(s, Some(call), false)
  }

  /** A change-password reply: the request failed, or the reply's `result`
      flag and its `success` field, which may be missing. */
  datatype ChangeReply = ChangeRejected | ChangeResolved(result: bool, success: Option<bool>)

  /** `changePassword`: sends the signed-in user's e-mail (none when signed
      out), the new and the old password, and returns the reply's `success`
      field; the state is untouched. */
  function ChangePassword(s: AuthState, oldPassword: string, newPassword: string, reply: ChangeReply): (o: Outcome)
    ensures o.state == s
    ensures o.call.Some? && o.call.value.endpoint == API_BASE + "/change/password"
    ensures o.call.value.body.Keys == (if s.user.Some? then {"email"} else {}) + {"password", "oldPassword"}
    ensures s.user.Some? ==> o.call.value.body["email"] == s.user.value.email
    ensures o.returned <==> reply.ChangeResolved? && reply.success == Some(true)
  {
    var secrets := map["password" := newPassword, "oldPassword" := oldPassword];
    var body := if s.user.Some? then secrets["email" := s.user.value.email] else secrets;
    Outcome(s, Some(Call(API_BASE + "/change/password", body)),
            reply.ChangeResolved? && reply.success == Some(true))
  }

  /** The change reads `success` where the reset, on the same endpoint, reads
      `result`: a reply carrying only `result: true` is reported as a failure
      by the one and a success by the other. */
  lemma ChangeIgnoresResult(s: AuthState, password: string)
    ensures !ChangePassword(s, password, password, ChangeResolved(true, None)).returned
    ensures ResetPassword(s, password, password, Resolved(true)).returned
  {
  }

  // ---------------------------------------------------------------------------
  // The context hook and the state invariant
  // ---------------------------------------------------------------------------

  /** What `useAuth` yields: the context, or the error it throws outside a
      provider. */
  datatype Hook = Context(state: AuthState) | Thrown(message: string)

  function UseAuth(provided: Option<AuthState>): (h: Hook)
    ensures provided.Some? <==> h.Context?
    ensures provided.Some? ==> h.state == provided.value
    ensures provided.None? ==> h.message == "useAuth must be used within an AuthProvider"
  {
    if provided.Some? then Context(provided.value) else Thrown("useAuth must be used within an AuthProvider")
  }

  /** Every operation of the context, with the server's reply. */
  datatype Action =
    | LoginAction(email: string, password: string, login: LoginReply)
    | LogoutAction
    | ForgotAction(email: string, ack: AckReply)
    | VerifyAction(otp: string, ack: AckReply)
    | ResetAction(newPassword: string, confirmPassword: string, ack: AckReply)
    | ChangeAction(oldPassword: string, newPassword: string, change: ChangeReply)

  function Apply(s: AuthState, a: Action): (o: Outcome)
    ensures a.VerifyAction? || a.ChangeAction? ==> o.state == s
    ensures o.state.restoring == s.restoring
  {
    match a
    case LoginAction(email, password, reply) => Login(s, email, password, reply)
    case LogoutAction => Outcome(Logout(s), None, false)
    case ForgotAction(email, ack) => ForgotPassword(s, email, ack)
    case VerifyAction(otp, ack) => VerifyOtp(s, otp, ack)
    case ResetAction(newPassword, confirmPassword, ack) => ResetPassword(s, newPassword, confirmPassword, ack)
    case ChangeAction(oldPassword, newPassword, reply) => ChangePassword(s, oldPassword, newPassword, reply)
  }

  /** Once restored, the current user is exactly what browser storage holds,
      and a remembered reset e-mail only exists while a code is out. */
  ghost predicate Valid(s: AuthState)
  {
    && !s.restoring
    && s.user == s.stored
    && (s.resetEmail != "" ==> s.otpSent)
  }

  lemma RestoredValid(stored: Option<User>)
    ensures Valid(Restore(Mounted(stored)))
  {
  }

  lemma ApplyPreservesValid(s: AuthState, a: Action)
    requires Valid(s)
    ensures Valid(Apply(s, a).state)
  {
  }

  /** Only a login changes who is signed in, and only a logout signs out. */
  lemma OnlyLoginAndLogoutTouchUser(s: AuthState, a: Action)
    requires !a.LoginAction? && !a.LogoutAction?
    ensures Apply(s, a).state.user == s.user && Apply(s, a).state.stored == s.stored
  {
  }

  /** A full reset: the code is sent to `email`, checked against that same
      e-mail, and the new password is set for it; afterwards nothing of the
      reset is remembered and the user is unchanged. */
  lemma ResetRunUsesOneEmail(s: AuthState, email: string, otp: string, password: string)
    ensures var s1 := ForgotPassword(s, email, Resolved(true)).state;
      && VerifyOtp(s1, otp, Resolved(true)).call.value.body["email"] == email
      && var o := ResetPassword(VerifyOtp(s1, otp, Resolved(true)).state, password, password, Resolved(true));
      && o.call.value.body["email"] == email
      && o.state.resetEmail == "" && !o.state.otpSent && o.state.user == s.user
  {
  }
}

=== FILE: banner.dfy ===
/** The banner screen: banners fetched from the server, each an image or a
    video, an "add banner" modal with a page type and two file inputs, and a
    delete followed by a refetch. The modal's inputs are never cleared. */
module Banner {
  import opened Js
  import opened Multipart

  const API_ROOT: string := BASE_URL + "/robotics"

  /** A banner as the list endpoint sends it: its id, its type and the path
      of its file. */
  datatype BannerRecord = BannerRecord(bId: Scalar, bType: string, bFile: string)

  /** A card: the image or the video URL, whichever the type names. */
  datatype BannerCard = BannerCard(id: string, image: Option<string>, video: Option<string>)

  /** The card mapping: type "image" gives an image, "video" a video, any
      other type neither. */
  function ToCard(r: BannerRecord): (c: BannerCard)
    ensures c.id == ScalarText(r.bId)
    ensures c.image.Some? <==> r.bType == "image"
    ensures c.video.Some? <==> r.bType == "video"
    ensures !(c.image.Some? && c.video.Some?)
    ensures c.image.Some? ==> c.image.value == BASE_URL + r.bFile
    ensures c.video.Some? ==> c.video.value == BASE_URL + r.bFile
  {
    BannerCard(ScalarText(r.bId),
      if r.bType == "image" then Some(BASE_URL + r.bFile) else None,
      if r.bType == "video" then Some(BASE_URL + r.bFile) else None)
  }

  /** `fetchBanners`: a successful reply with an array shows its mapping; any
      other reply empties the list; a failed request leaves it alone. */
  function FetchedBanners(current: seq<BannerCard>, reply: ListReply<BannerRecord>): (r: seq<BannerCard>)
    ensures reply.ListRejected? ==> r == current
    ensures reply.ListResolved? && reply.result && reply.list.Some? ==>
      |r| == |reply.list.value| && forall i :: 0 <= i < |r| ==> r[i] == ToCard(reply.list.value[i])
    ensures reply.ListResolved? && !(reply.result && reply.list.Some?) ==> r == []
  {
    if reply.ListRejected? then current
    else if reply.result && reply.list.Some? then
      var list := reply.list.value;
      seq(|list|, i requires 0 <= i < |list| => ToCard(list[i]))
    else []
  }

  /** The modal's inputs: the chosen page type (none before the first choice)
      and the two files. */
  datatype BannerForm = BannerForm(pageType: Option<string>, image: Option<FileRef>, video: Option<FileRef>)

  /** `String(formData.type)`: a type never chosen is sent as "undefined". */
  function PageName(form: BannerForm): (name: string)
    ensures form.pageType.Some? ==> name == form.pageType.value
    ensures form.pageType.None? ==> name == "undefined"
  {
    if form.pageType.Some? then form.pageType.value else "undefined"
  }

  /** `handleSave`'s request: none without a file; otherwise the image, the
      video and the page name, in that order. The page type is not checked. */
  function SaveRequest(form: BannerForm): (r: Option<Request>)
    ensures r.Some? <==> form.image.Some? || form.video.Some?
    ensures r.Some? ==> r.value.endpoint == API_ROOT + "/add/banner"
    ensures r.Some? ==> (Keys(r.value.body) ==
      (if form.image.Some? then ["image"] else []) + (if form.video.Some? then ["video"] else []) + ["page_name"])
    ensures r.Some? ==> r.value.body[|r.value.body| - 1] == Entry("page_name", TextValue(PageName(form)))
  {
    if form.image.None? && form.video.None? then None
    else
      var image := if form.image.Some? then [Entry("image", FileValue(form.image.value))] else [];
      var video := if form.video.Some? then [Entry("video", FileValue(form.video.value))] else [];
      Some(Request(API_ROOT + "/add/banner", image + video + [Entry("page_name", TextValue(PageName(form)))]))
  }

  /** A banner saved before a page type was chosen goes out with the page
      name "undefined". */
  lemma UnchosenTypeSentAsUndefined(form: BannerForm)
    requires form.pageType.None? && form.image.Some?
    ensures SaveRequest(form).Some?
    ensures Entry("page_name", TextValue("undefined")) in SaveRequest(form).value.body
  {
    var body := SaveRequest(form).value.body;
    assert body[|body| - 1] == Entry("page_name", TextValue("undefined"));
  }

  // ---------------------------------------------------------------------------
  // The screen
  // ---------------------------------------------------------------------------

  datatype Screen = Screen(banners: seq<BannerCard>, form: BannerForm, modalOpen: bool)

  const INITIAL: Screen := Screen([], BannerForm(None, None, None), false)

  datatype Event =
    | Fetched(reply: ListReply<BannerRecord>)
    | AddClicked
    | TypeChosen(pageType: string)
      /** A file input changed; `None` when the choice was cancelled. */
    | ImagePicked(file: Option<FileRef>)
    | VideoPicked(file: Option<FileRef>)
    | SaveClicked(ack: AckReply, refetch: ListReply<BannerRecord>)
    | Closed
    | DeleteRequested(confirmed: bool, ack: AckReply, refetch: ListReply<BannerRecord>)

  function Step(s: Screen, e: Event): (t: Screen)
    ensures !e.TypeChosen? && !e.ImagePicked? && !e.VideoPicked? ==> t.form == s.form
    ensures e.SaveClicked? && s.modalOpen && !t.modalOpen ==> SaveRequest(s.form).Some? && e.ack.Resolved?
  {
    match e
    case Fetched(reply) => s.(banners := FetchedBanners(s.banners, reply))
    case AddClicked => s.(modalOpen := true)
    case TypeChosen(pageType) => s.(form := s.form.(pageType := Some(pageType)))
    case ImagePicked(file) => s.(form := s.form.(image := file))
    case VideoPicked(file) => s.(form := s.form.(video := file))
    case SaveClicked(ack, refetch) =>
      if SaveRequest(s.form).None? || ack.Rejected? then s
      else s.(banners := FetchedBanners(s.banners, refetch), modalOpen := false)
    case Closed => s.(modalOpen := false)
    case DeleteRequested(confirmed, ack, refetch) =>
      if confirmed && ack.Resolved? then s.(banners := FetchedBanners(s.banners, refetch)) else s
  }

  /** The inputs survive a save: opening the modal again and saving at once
      sends the very same request a second time. */
  lemma ReopenedModalResends(s: Screen, ack: AckReply, refetch: ListReply<BannerRecord>, ack2: AckReply, refetch2: ListReply<BannerRecord>)
    requires SaveRequest(s.form).Some? && ack.Resolved?
    ensures var t := Step(Step(s, SaveClicked(ack, refetch)), AddClicked);
      t.modalOpen && SaveRequest(t.form) == SaveRequest(s.form)
  {
  }

  /** Every card on the screen shows at most one medium. */
  ghost predicate Valid(s: Screen)
  {
    forall i :: 0 <= i < |s.banners| ==> !(s.banners[i].image.Some? && s.banners[i].video.Some?)
  }

  lemma InitialValid()
    ensures Valid(INITIAL)
  {
  }

  lemma StepPreservesValid(s: Screen, e: Event)
    requires Valid(s)
    ensures Valid(Step(s, e))
  {
  }
}

=== FILE: behind_scenes.dfy ===
/** The behind-the-scenes screen: the same blog endpoints as the blog screen
    under the type "behind_the_scenes", with category tags instead of a
    client, a search over the title only, and a preview that shows an image, a
    video or "N/A" depending on the stored file type. */
module BehindScenes {
  import opened Text
  import opened Js
  import opened Lists
  import opened Multipart

  const API_ROOT: string := BASE_URL + "/robotics"

  datatype SceneRecord = SceneRecord(
    blId: Scalar, blTitle: string, blDescription: string, blCategoryTags: string,
    blImage: Option<string>, blFileType: Option<string>)

  /** A post on the screen; `media` is the prefixed file path or "". */
  datatype Scene = Scene(
    id: string, title: string, description: string, categoryTags: string,
    media: string, fileType: Option<string>)

  function ToScene(r: SceneRecord): (s: Scene)
    ensures s.id == ScalarText(r.blId) && s.title == r.blTitle && s.description == r.blDescription
    ensures s.categoryTags == r.blCategoryTags && s.fileType == r.blFileType
    ensures s.media == "" <==> r.blImage.None? || r.blImage.value == ""
    ensures s.media != "" ==> s.media == BASE_URL + r.blImage.value
  {
    Scene(ScalarText(r.blId), r.blTitle, r.blDescription, r.blCategoryTags,
          PrefixedOr(r.blImage, ""), r.blFileType)
  }

  /** `fetchBlogs`: a successful reply carrying an array replaces the list by
      its mapping; anything else leaves the list alone. */
  function FetchedScenes(current: seq<Scene>, reply: ListReply<SceneRecord>): (r: seq<Scene>)
    ensures reply.ListResolved? && reply.result && reply.list.Some? ==>
      |r| == |reply.list.value| && forall i :: 0 <= i < |r| ==> r[i] == ToScene(reply.list.value[i])
    ensures !(reply.ListResolved? && reply.result && reply.list.Some?) ==> r == current
  {
    if reply.ListResolved? && reply.result && reply.list.Some? then
      var list := reply.list.value;
      seq(|list|, i requires 0 <= i < |list| => ToScene(list[i]))
    else current
  }

  /** What the preview cell renders. */
  datatype Preview = Picture | Clip | NotAvailable

  /** The preview is chosen by the exact file type: "image" is a picture,
      "mp4" or "video" a clip, anything else (also "MP4" or none) "N/A". */
  function PreviewOf(s: Scene): (p: Preview)
    ensures p.Picture? <==> s.fileType == Some("image")
    ensures p.Clip? <==> s.fileType == Some("mp4") || s.fileType == Some("video")
    ensures p.NotAvailable? <==> !(s.fileType.Some? && s.fileType.value in {"image", "mp4", "video"})
  {
    if s.fileType == Some("image") then Picture
    else if s.fileType == Some("mp4") || s.fileType == Some("video") then Clip
    else NotAvailable
  }

  /** The file type is compared as sent: an upper-case "MP4" gets no player. */
  lemma FileTypeIsCaseSensitive(s: Scene)
    requires s.fileType == Some("MP4")
    ensures PreviewOf(s) == NotAvailable
  {
  }

  // ---------------------------------------------------------------------------
  // Search
  // ---------------------------------------------------------------------------

  /** The text the search looks in: the title followed by one space. */
  function Haystack(s: Scene): string
  {
    s.title + " "
  }

  predicate MatchesSearch(s: Scene, term: string)
  {
    Contains(Lower(Haystack(s)), Lower(term))
  }

  function Matching(term: string): Scene -> bool
  {
    (s: Scene) => MatchesSearch(s, term)
  }

  function Filtered(scenes: seq<Scene>, term: string): (r: seq<Scene>)
    ensures IsSubsequence(r, scenes)
    ensures forall i :: 0 <= i < |r| ==> MatchesSearch(r[i], term)
    ensures forall i :: 0 <= i < |scenes| && MatchesSearch(scenes[i], term) ==> scenes[i] in r
  {
    FilterIsSubsequence(scenes, Matching(term));
    Filter(scenes, Matching(term))
  }

  /** Because of the trailing space, searching for a single space lists every
      post. */
  lemma SpaceListsAll(scenes: seq<Scene>)
    ensures Filtered(scenes, " ") == scenes
  {
    forall i | 0 <= i < |scenes|
      ensures MatchesSearch(scenes[i], " ")
    {
      var hay := Lower(Haystack(scenes[i]));
      assert Lower(" ") == " ";
      assert OccursAt(hay, " ", |hay| - 1);
    }
    FilterAll(scenes, Matching(" "));
  }

  /** The title, typed in any case and with or without the space after it,
      finds its post. */
  lemma TitleFound(s: Scene, typed: string)
    requires Lower(typed) == Lower(s.title) || Lower(typed) == Lower(s.title + " ")
    ensures MatchesSearch(s, typed)
  {
    if Lower(typed) == Lower(s.title) {
      LowerAppend(s.title, " ");
      ContainsSelf(Lower(s.title));
      ContainsInfix([], Lower(s.title), Lower(" "), Lower(typed));
      assert [] + Lower(s.title) + Lower(" ") == Lower(Haystack(s));
    } else {
      ContainsSelf(Lower(Haystack(s)));
    }
  }

  // ---------------------------------------------------------------------------
  // The modal
  // ---------------------------------------------------------------------------

  const ADD_FORM: Form := map["title" := "", "description" := "", "bl_category_tags" := ""]

  function EditForm(s: Scene): (form: Form)
    ensures Field(form, "title") == s.title && Field(form, "description") == s.description
    ensures Field(form, "bl_category_tags") == s.categoryTags
  {
    map["title" := s.title, "description" := s.description, "bl_category_tags" := s.categoryTags]
  }

  /** `handleSave`'s request: none when the title is empty; otherwise the id
      when editing, the fixed type, the title, description and category tags
      (sent as `category_tags`), and the picked image if any. */
  function SaveRequest(editing: Option<Scene>, form: Form, file: Option<FileRef>): (r: Option<Request>)
    ensures r.Some? <==> Field(form, "title") != ""
    ensures r.Some? ==> r.value.endpoint == API_ROOT + (if editing.Some? then "/edit/blog" else "/add/blog")
    ensures r.Some? ==> (Keys(r.value.body) == (if editing.Some? then ["bl_id"] else [])
      + ["type", "title", "description", "category_tags"] + (if file.Some? then ["image"] else []))
    ensures r.Some? ==> Entry("type", TextValue("behind_the_scenes")) in r.value.body
    ensures r.Some? ==> Entry("category_tags", TextValue(Field(form, "bl_category_tags"))) in r.value.body
  {
    if Field(form, "title") == "" then None
    else
      var id := if editing.Some? then [Entry("bl_id", TextValue(editing.value.id))] else [];
      var texts := [Entry("type", TextValue("behind_the_scenes")), TextEntry(form, "title"),
                    TextEntry(form, "description"),
                    Entry("category_tags", TextValue(Field(form, "bl_category_tags")))];
      var image := if file.Some? then [Entry("image", FileValue(file.value))] else [];
      assert (id + texts + image)[|id|] == texts[0];
      assert (id + texts + image)[|id| + 3] == texts[3];
      Some(Request(API_ROOT + (if editing.Some? then "/edit/blog" else "/add/blog"), id + texts + image))
  }

  /** Opening a post and saving it unchanged sends its title, description and
      tags back under the request's key names. */
  lemma EditSaveResendsScene(s: Scene)
    requires s.title != ""
    ensures var r := SaveRequest(Some(s), EditForm(s), None);
      && r.Some?
      && Entry("category_tags", TextValue(s.categoryTags)) in r.value.body
      && Keys(r.value.body) == ["bl_id", "type", "title", "description", "category_tags"]
  {
  }

  // ---------------------------------------------------------------------------
  // Delete and the screen
  // ---------------------------------------------------------------------------

  function WithId(id: string): Scene -> bool { Not(WithoutId(id)) }
  function WithoutId(id: string): Scene -> bool { (s: Scene) => s.id != id }

  function DeleteScene(scenes: seq<Scene>, id: string): (r: seq<Scene>)
    ensures IsSubsequence(r, scenes)
    ensures forall i :: 0 <= i < |r| ==> r[i].id != id
    ensures forall i :: 0 <= i < |scenes| && scenes[i].id != id ==> scenes[i] in r
  {
    FilterIsSubsequence(scenes, WithoutId(id));
    Filter(scenes, WithoutId(id))
  }

  lemma DeleteLosesOnlyThatId(scenes: seq<Scene>, id: string)
    ensures forall x :: Count(DeleteScene(scenes, id), x) + Count(Filter(scenes, WithId(id)), x) == Count(scenes, x)
  {
    forall x
      ensures Count(Filter(scenes, WithoutId(id)), x) + Count(Filter(scenes, WithId(id)), x) == Count(scenes, x)
    {
      FilterPartition(scenes, WithoutId(id), x);
    }
  }

  datatype Modal = Modal(editing: Option<Scene>, form: Form, file: Option<FileRef>)

  datatype Screen = Screen(scenes: seq<Scene>, searchTerm: string, modal: Option<Modal>)

  const INITIAL: Screen := Screen([], "", None)

  datatype Event =
    | Fetched(reply: ListReply<SceneRecord>)
    | SearchEdited(term: string)
    | AddClicked
    | EditClicked(scene: Scene)
    | FieldTyped(key: string, text: string)
    | ImagePicked(file: FileRef)
    | SaveClicked(ack: AckReply, refetch: ListReply<SceneRecord>)
    | Closed
    | DeleteRequested(id: string, confirmed: bool, ack: AckReply)

  function Step(s: Screen, e: Event): (t: Screen)
    ensures e.SaveClicked? && t.modal.None? && s.modal.Some? ==>
      Field(s.modal.value.form, "title") != "" && e.ack.Resolved?
    ensures e.DeleteRequested? && e.confirmed && e.ack.Resolved? ==> t.scenes == DeleteScene(s.scenes, e.id)
    ensures e.DeleteRequested? && !(e.confirmed && e.ack.Resolved?) ==> t == s
  {
    match e
    case Fetched(reply) => s.(scenes := FetchedScenes(s.scenes, reply))
    case SearchEdited(term) => s.(searchTerm := term)
    case AddClicked => s.(modal := Some(Modal(None, ADD_FORM, None)))
    case EditClicked(sc) => s.(modal := Some(Modal(Some(sc), EditForm(sc), None)))
    case FieldTyped(key, text) =>
      if s.modal.Some? then s.(modal := Some(s.modal.value.(form := s.modal.value.form[key := text]))) else s
    case ImagePicked(file) =>
      if s.modal.Some? then s.(modal := Some(s.modal.value.(file := Some(file)))) else s
    case SaveClicked(ack, refetch) =>
      if s.modal.None? then s
      else
        var m := s.modal.value;
        if SaveRequest(m.editing, m.form, m.file).None? || ack.Rejected? then s
        else s.(scenes := FetchedScenes(s.scenes, refetch), modal := None)
    case Closed => s.(modal := None)
    case DeleteRequested(id, confirmed, ack) =>
      if confirmed && ack.Resolved? then s.(scenes := DeleteScene(s.scenes, id)) else s
  }
}

=== FILE: blog.dfy ===
/** The blog screen: posts fetched from the server, a case-insensitive search
    over title, client name and client location, a modal that adds or edits a
    post, and a delete that drops the post from the list without a refetch. */
module Blog {
  import opened Text
  import opened Js
  import opened Lists
  import opened Multipart

  const API_ROOT: string := BASE_URL + "/robotics"

  /** A post as the list endpoint sends it. */
  datatype BlogRecord = BlogRecord(
    blId: Scalar, blTitle: string, blDescription: string,
    blClientName: string, blClientLocation: string, blImage: Option<string>)

  /** A post on the screen; `image` is "" when the post has none. */
  datatype Post = Post(
    id: string, title: string, description: string,
    clientName: string, clientLocation: string, image: string)

  /** The mapping of a record: the id as text, the texts as sent, the image
      path prefixed with the server origin. */
  function ToPost(r: BlogRecord): (p: Post)
    ensures p.id == ScalarText(r.blId) && p.title == r.blTitle && p.description == r.blDescription
    ensures p.clientName == r.blClientName && p.clientLocation == r.blClientLocation
    ensures p.image == "" <==> r.blImage.None? || r.blImage.value == ""
    ensures p.image != "" ==> p.image == BASE_URL + r.blImage.value
  {
    Post(ScalarText(r.blId), r.blTitle, r.blDescription, r.blClientName, r.blClientLocation,
         PrefixedOr(r.blImage, ""))
  }

  /** `fetchBlogs`: a successful reply carrying an array replaces the list by
      its mapping; anything else leaves the list alone. */
  function FetchedPosts(current: seq<Post>, reply: ListReply<BlogRecord>): (r: seq<Post>)
    ensures reply.ListResolved? && reply.result && reply.list.Some? ==>
      |r| == |reply.list.value| && forall i :: 0 <= i < |r| ==> r[i] == ToPost(reply.list.value[i])
    ensures !(reply.ListResolved? && reply.result && reply.list.Some?) ==> r == current
  {
    if reply.ListResolved? && reply.result && reply.list.Some? then
      var list := reply.list.value;
      seq(|list|, i requires 0 <= i < |list| => ToPost(list[i]))
    else current
  }

  // ---------------------------------------------------------------------------
  // Search
  // ---------------------------------------------------------------------------

  /** The text the search looks in: title, client name and location joined
      by single spaces. */
  function Haystack(p: Post): string
  {
    p.title + " " + p.clientName + " " + p.clientLocation
  }

  predicate MatchesSearch(p: Post, term: string)
  {
    Contains(Lower(Haystack(p)), Lower(term))
  }

  function Matching(term: string): Post -> bool
  {
    (p: Post) => MatchesSearch(p, term)
  }

  /** The posts shown: `Lists.Filter` specialised to posts and this screen's
      search. */
  function Filtered(posts: seq<Post>, term: string): (r: seq<Post>)
    ensures IsSubsequence(r, posts)
    ensures forall i :: 0 <= i < |r| ==> MatchesSearch(r[i], term)
    ensures forall i :: 0 <= i < |posts| && MatchesSearch(posts[i], term) ==> posts[i] in r
  {
    FilterIsSubsequence(posts, Matching(term));
    Filter(posts, Matching(term))
  }

  lemma EmptySearchKeepsAll(posts: seq<Post>)
    ensures Filtered(posts, "") == posts
  {
    forall i | 0 <= i < |posts|
      ensures MatchesSearch(posts[i], "")
    {
      ContainsEmpty(Lower(Haystack(posts[i])));
    }
    FilterAll(posts, Matching(""));
  }

  /** A post is found by its client's name, typed in any case. */
  lemma ClientNameFound(p: Post, typed: string)
    requires Lower(typed) == Lower(p.clientName)
    ensures MatchesSearch(p, typed)
  {
    var a, b, c := p.title + " ", p.clientName, " " + p.clientLocation;
    assert Haystack(p) == a + b + c;
    LowerJoin(a, b, c);
    ContainsSelf(Lower(b));
    ContainsInfix(Lower(a), Lower(b), Lower(c), Lower(typed));
  }

  // ---------------------------------------------------------------------------
  // The modal
  // ---------------------------------------------------------------------------

  /** `handleAdd`: the four inputs, empty. */
  const ADD_FORM: Form := map["title" := "", "description" := "", "client_name" := "", "client_location" := ""]

  /** `handleEdit`: the inputs hold the post's own texts. */
  function EditForm(p: Post): (form: Form)
    ensures Field(form, "title") == p.title && Field(form, "description") == p.description
    ensures Field(form, "client_name") == p.clientName && Field(form, "client_location") == p.clientLocation
  {
    map["title" := p.title, "description" := p.description,
        "client_name" := p.clientName, "client_location" := p.clientLocation]
  }

  /** `handleSave`'s request: none when the title or the client name is empty
      (a title of blanks is accepted); otherwise the post id when editing, the
      fixed type "blog", the four texts, and the picked image if any. */
  function SaveRequest(editing: Option<Post>, form: Form, file: Option<FileRef>): (r: Option<Request>)
    ensures r.Some? <==> Field(form, "title") != "" && Field(form, "client_name") != ""
    ensures r.Some? ==> r.value.endpoint == API_ROOT + (if editing.Some? then "/edit/blog" else "/add/blog")
    ensures r.Some? ==> (Keys(r.value.body) == (if editing.Some? then ["bl_id"] else [])
      + ["type", "title", "description", "client_name", "client_location"] + (if file.Some? then ["image"] else []))
    ensures r.Some? ==> Entry("type", TextValue("blog")) in r.value.body
  {
    if Field(form, "title") == "" || Field(form, "client_name") == "" then None
    else
      var id := if editing.Some? then [Entry("bl_id", TextValue(editing.value.id))] else [];
      var texts := [Entry("type", TextValue("blog")), TextEntry(form, "title"), TextEntry(form, "description"),
                    TextEntry(form, "client_name"), TextEntry(form, "client_location")];
      var image := if file.Some? then [Entry("image", FileValue(file.value))] else [];
      assert (id + texts + image)[|id|] == Entry("type", TextValue("blog"));
      Some(Request(API_ROOT + (if editing.Some? then "/edit/blog" else "/add/blog"), id + texts + image))
  }

  /** Opening a post and saving it unchanged sends the post back as it is:
      its id and its four texts, and no image. */
  lemma EditSaveResendsPost(p: Post)
    requires p.title != "" && p.clientName != ""
    ensures SaveRequest(Some(p), EditForm(p), None) == Some(Request(API_ROOT + "/edit/blog", [
      Entry("bl_id", TextValue(p.id)), Entry("type", TextValue("blog")),
      Entry("title", TextValue(p.title)), Entry("description", TextValue(p.description)),
      Entry("client_name", TextValue(p.clientName)), Entry("client_location", TextValue(p.clientLocation))]))
  {
    var form := EditForm(p);
    var texts := [Entry("type", TextValue("blog")), TextEntry(form, "title"), TextEntry(form, "description"),
                  TextEntry(form, "client_name"), TextEntry(form, "client_location")];
    assert texts == [Entry("type", TextValue("blog")),
      Entry("title", TextValue(p.title)), Entry("description", TextValue(p.description)),
      Entry("client_name", TextValue(p.clientName)), Entry("client_location", TextValue(p.clientLocation))];
    assert [Entry("bl_id", TextValue(p.id))] + texts + [] == [Entry("bl_id", TextValue(p.id))] + texts;
    assert Field(form, "title") != "" && Field(form, "client_name") != "";
    var r := SaveRequest(Some(p), form, None);
    assert r.Some?;
    assert r.value.body == [Entry("bl_id", TextValue(p.id))] + texts + [];
    assert [Entry("bl_id", TextValue(p.id))] + texts == [
      Entry("bl_id", TextValue(p.id)), Entry("type", TextValue("blog")),
      Entry("title", TextValue(p.title)), Entry("description", TextValue(p.description)),
      Entry("client_name", TextValue(p.clientName)), Entry("client_location", TextValue(p.clientLocation))];
    assert r.value.endpoint == API_ROOT + "/edit/blog";
  }

  // ---------------------------------------------------------------------------
  // Delete
  // ---------------------------------------------------------------------------

  function WithId(id: string): Post -> bool { Not(WithoutId(id)) }
  function WithoutId(id: string): Post -> bool { (p: Post) => p.id != id }

  /** The local delete, `Lists.Filter` specialised to posts: every post with
      that id goes, the others stay in order. */
  function DeletePost(posts: seq<Post>, id: string): (r: seq<Post>)
    ensures IsSubsequence(r, posts)
    ensures forall i :: 0 <= i < |r| ==> r[i].id != id
    ensures forall i :: 0 <= i < |posts| && posts[i].id != id ==> posts[i] in r
  {
    FilterIsSubsequence(posts, WithoutId(id));
    Filter(posts, WithoutId(id))
  }

  /** Nothing but the posts with that id is lost. */
  lemma DeleteLosesOnlyThatId(posts: seq<Post>, id: string)
    ensures forall x :: Count(DeletePost(posts, id), x) + Count(Filter(posts, WithId(id)), x) == Count(posts, x)
  {
    forall x
      ensures Count(Filter(posts, WithoutId(id)), x) + Count(Filter(posts, WithId(id)), x) == Count(posts, x)
    {
      FilterPartition(posts, WithoutId(id), x);
    }
  }

  // ---------------------------------------------------------------------------
  // The screen
  // ---------------------------------------------------------------------------

  datatype Modal = Modal(editing: Option<Post>, form: Form, file: Option<FileRef>)

  datatype Screen = Screen(posts: seq<Post>, searchTerm: string, modal: Option<Modal>)

  const INITIAL: Screen := Screen([], "", None)

  datatype Event =
    | Fetched(reply: ListReply<BlogRecord>)
    | SearchEdited(term: string)
    | AddClicked
    | EditClicked(post: Post)
    | FieldTyped(key: string, text: string)
    | ImagePicked(file: FileRef)
      /** Save: the server's answer to the add or edit request, and the reply
          of the refetch that follows a resolved one. */
    | SaveClicked(ack: AckReply, refetch: ListReply<BlogRecord>)
    | Closed
    | DeleteRequested(id: string, confirmed: bool, ack: AckReply)

  function Step(s: Screen, e: Event): (t: Screen)
    ensures e.SaveClicked? && t.modal.None? && s.modal.Some? ==>
      SaveRequest(s.modal.value.editing, s.modal.value.form, s.modal.value.file).Some? && e.ack.Resolved?
    ensures e.DeleteRequested? && e.confirmed && e.ack.Resolved? ==> t.posts == DeletePost(s.posts, e.id)
    ensures e.DeleteRequested? && !(e.confirmed && e.ack.Resolved?) ==> t == s
  {
    match e
    case Fetched(reply) => s.(posts := FetchedPosts(s.posts, reply))
    case SearchEdited(term) => s.(searchTerm := term)
    case AddClicked => s.(modal := Some(Modal(None, ADD_FORM, None)))
    case EditClicked(p) => s.(modal := Some(Modal(Some(p), EditForm(p), None)))
    case FieldTyped(key, text) =>
      if s.modal.Some? then s.(modal := Some(s.modal.value.(form := s.modal.value.form[key := text]))) else s
    case ImagePicked(file) =>
      if s.modal.Some? then s.(modal := Some(s.modal.value.(file := Some(file)))) else s
    case SaveClicked(ack, refetch) =>
      if s.modal.None? then s
      else
        var m := s.modal.value;
        if SaveRequest(m.editing, m.form, m.file).None? || ack.Rejected? then s
        else s.(posts := FetchedPosts(s.posts, refetch), modal := None)
    case Closed => s.(modal := None)
    case DeleteRequested(id, confirmed, ack) =>
      if confirmed && ack.Resolved? then s.(posts := DeletePost(s.posts, id)) else s
  }

  /** A confirmed delete the server accepted leaves no listed post with that
      id, whatever the search. */
  lemma DeletedPostNotListed(s: Screen, id: string, ack: AckReply)
    requires ack.Resolved?
    ensures var t := Step(s, DeleteRequested(id, true, ack));
      forall i :: 0 <= i < |Filtered(t.posts, t.searchTerm)| ==> Filtered(t.posts, t.searchTerm)[i].id != id
  {
    var t := Step(s, DeleteRequested(id, true, ack));
    var shown := Filtered(t.posts, t.searchTerm);
    forall i | 0 <= i < |shown|
      ensures shown[i].id != id
    {
      var j :| 0 <= j < |t.posts| && t.posts[j] == shown[i];
    }
  }
}

=== FILE: current_project.dfy ===
/** The current-projects screen: projects fetched from the server, shown as
    cards, edited in a modal of fourteen text inputs and one image, and deleted
    with a refetch. The form is a JavaScript object, so its keys keep the order
    they were first written in, and that order is the order of the request
    body. */
module CurrentProject {
  import opened Js
  import opened Multipart

  const API_ROOT: string := BASE_URL + "/robotics"

  /** A project as the list endpoint sends it: its id, its text fields by
      name, and the path of its image. */
  datatype ProjectRecord = ProjectRecord(cpId: Option<Scalar>, fields: map<string, Scalar>, image: Option<string>)

  /** The fourteen inputs of the modal, in the order they are rendered and
      the order the edit form is built in. */
  const PROJECT_KEYS: seq<string> := [
    "name", "intro", "pre_version", "pre_dimension", "pre_functionality",
    "new_version", "new_dimension", "new_functionality",
    "current_progress", "project_process", "service",
    "our_robot_include", "requirement", "feature"]

  /** `project[key] || ""` shown as text. */
  function ProjectText(p: ProjectRecord, key: string): (r: string)
    ensures r == "" <==> key !in p.fields || !Truthy(p.fields[key])
    ensures r != "" ==> r == ScalarText(p.fields[key])
  {
    if key in p.fields && Truthy(p.fields[key]) then
      var v := p.fields[key];
      assert v.Num? ==> ScalarText(v) != "";
      ScalarText(v)
    else ""
  }

  /** The card's picture: the prefixed image path, or the placeholder. */
  function CardImage(p: ProjectRecord): (src: string)
    ensures p.image.Some? && p.image.value != "" ==> src == BASE_URL + p.image.value
    ensures p.image.None? || p.image.value == "" ==> src == "/default-placeholder.png"
  {
    PrefixedOr(p.image, "/default-placeholder.png")
  }

  /** `fetchProjects`: a reply whose `list` is an array shows it, whatever its
      `result` flag; any other reply, and a failed request, empties the list. */
  function FetchedProjects(reply: ListReply<ProjectRecord>): (r: seq<ProjectRecord>)
    ensures reply.ListResolved? && reply.list.Some? ==> r == reply.list.value
    ensures reply.ListRejected? || reply.list.None? ==> r == []
  {
    if reply.ListResolved? && reply.list.Some? then reply.list.value else []
  }

  // ---------------------------------------------------------------------------
  // The form as an ordered object
  // ---------------------------------------------------------------------------

  /** The form's entries in property order. */
  type Fields = seq<(string, string)>

  function FieldKeys(f: Fields): (ks: seq<string>)
    ensures |ks| == |f|
    ensures forall i :: 0 <= i < |f| ==> ks[i] == f[i].0
  {
    seq(|f|, i requires 0 <= i < |f| => f[i].0)
  }

  predicate Distinct(ks: seq<string>)
  {
    forall i, j :: 0 <= i < j < |ks| ==> ks[i] != ks[j]
  }

  /** `form[key]`: the value of the first entry with that key. */
  function Lookup(f: Fields, key: string): (v: Option<string>)
    ensures v.None? <==> key !in FieldKeys(f)
  {
    if |f| == 0 then None
    else if f[0].0 == key then Some(f[0].1)
    else
      assert FieldKeys(f) == [f[0].0] + FieldKeys(f[1..]);
      Lookup(f[1..], key)
  }

  /** `{ ...form, [key]: value }`: an existing key keeps its place and takes
      the new value; a new key goes last. */
  function Set(f: Fields, key: string, value: string): (r: Fields)
    decreases |f|
  {
    if |f| == 0 then [(key, value)]
    else if f[0].0 == key then [(key, value)] + f[1..]
    else [f[0]] + Set(f[1..], key, value)
  }

  /** Writing a key makes it read back the written value. */
  lemma {:induction false} SetFound(f: Fields, key: string, value: string)
    ensures Lookup(Set(f, key, value), key) == Some(value)
  {
    if |f| > 0 && f[0].0 != key {
      SetFound(f[1..], key, value);
      assert Set(f, key, value)[1..] == Set(f[1..], key, value);
    }
  }

  /** Writing a key leaves every other key reading as before. */
  lemma {:induction false} SetOther(f: Fields, key: string, value: string, other: string)
    requires other != key
    ensures Lookup(Set(f, key, value), other) == Lookup(f, other)
  {
    if |f| == 0 {
    } else if f[0].0 == key {
      assert Set(f, key, value)[1..] == f[1..];
    } else if f[0].0 != other {
      SetOther(f[1..], key, value, other);
      assert Set(f, key, value)[1..] == Set(f[1..], key, value);
    }
  }

  lemma FieldKeysAppend(a: Fields, b: Fields)
    ensures FieldKeys(a + b) == FieldKeys(a) + FieldKeys(b)
  {
  }

  /** The key order after a write: unchanged for a key already present, the
      new key appended otherwise. */
  lemma {:induction false} SetKeys(f: Fields, key: string, value: string)
    ensures key in FieldKeys(f) ==> FieldKeys(Set(f, key, value)) == FieldKeys(f)
    ensures key !in FieldKeys(f) ==> FieldKeys(Set(f, key, value)) == FieldKeys(f) + [key]
  {
    if |f| > 0 {
      assert f == [f[0]] + f[1..];
      FieldKeysAppend([f[0]], f[1..]);
      if f[0].0 == key {
        FieldKeysAppend([(key, value)], f[1..]);
      } else {
        SetKeys(f[1..], key, value);
        FieldKeysAppend([f[0]], Set(f[1..], key, value));
      }
    }
  }

  /** Writes never duplicate a key. */
  lemma SetKeepsDistinct(f: Fields, key: string, value: string)
    requires Distinct(FieldKeys(f))
    ensures Distinct(FieldKeys(Set(f, key, value)))
  {
    SetKeys(f, key, value);
  }

  /** The form of `handleEdit`: the fourteen keys in order, each with the
      project's text or "". */
  function EditForm(p: ProjectRecord): (f: Fields)
    ensures FieldKeys(f) == PROJECT_KEYS
    ensures forall i :: 0 <= i < |f| ==> f[i].1 == ProjectText(p, PROJECT_KEYS[i])
  {
    seq(|PROJECT_KEYS|, i requires 0 <= i < |PROJECT_KEYS| => (PROJECT_KEYS[i], ProjectText(p, PROJECT_KEYS[i])))
  }

  /** What an input shows: `formData[field] || ""`. */
  function Shown(f: Fields, key: string): string
  {
    Lookup(f, key).GetOr("")
  }

  // ---------------------------------------------------------------------------
  // The image and the request body
  // ---------------------------------------------------------------------------

  /** A preview: the stored image of the edited project, or a picked file. */
  datatype Preview = StoredImage(src: string) | PickedFile(file: FileRef)

  /** `handleEdit`'s previews: the stored image when there is one. */
  function EditPreviews(p: ProjectRecord): (r: seq<Preview>)
    ensures |r| <= 1
    ensures |r| == 1 <==> p.image.Some? && p.image.value != ""
    ensures forall i :: 0 <= i < |r| ==> r[i].StoredImage?
  {
    if p.image.Some? && p.image.value != "" then [StoredImage(BASE_URL + p.image.value)] else []
  }

  /** `handleImageChange`: the first chosen file replaces the previews; an
      empty choice changes nothing. */
  function ImageChanged(previews: seq<Preview>, files: seq<FileRef>): (r: seq<Preview>)
    ensures |files| > 0 ==> r == [PickedFile(files[0])]
    ensures |files| == 0 ==> r == previews
  {
    if |files| > 0 then [PickedFile(files[0])] else previews
  }

  /** The entries of `Object.entries(form)`, each value sent as text. */
  function FieldEntries(f: Fields): (r: seq<Entry>)
    ensures Keys(r) == FieldKeys(f)
    ensures forall i :: 0 <= i < |f| ==> r[i] == Entry(f[i].0, TextValue(f[i].1))
  {
    seq(|f|, i requires 0 <= i < |f| => Entry(f[i].0, TextValue(f[i].1)))
  }

  /** Whether the first preview holds a picked file, which alone is sent. */
  predicate SendsImage(previews: seq<Preview>)
  {
    |previews| > 0 && previews[0].PickedFile?
  }

  /** `mapToFormData`: the id when truthy, every form entry in property
      order, and the first preview's file when it is a picked one. */
  function FormBody(f: Fields, cpId: Option<Scalar>, previews: seq<Preview>): (body: seq<Entry>)
    ensures Keys(body) == (if cpId.Some? && Truthy(cpId.value) then ["cp_id"] else [])
      + FieldKeys(f) + (if SendsImage(previews) then ["image"] else [])
    ensures SendsImage(previews) ==> body[|body| - 1] == Entry("image", FileValue(previews[0].file))
  {
    var id := if cpId.Some? && Truthy(cpId.value) then [Entry("cp_id", TextValue(ScalarText(cpId.value)))] else [];
    var image := if SendsImage(previews) then [Entry("image", FileValue(previews[0].file))] else [];
    KeysAppend(id, FieldEntries(f));
    KeysAppend(id + FieldEntries(f), image);
    id + FieldEntries(f) + image
  }

  /** A value read from the form is in the body under its key. */
  lemma {:induction false} LookupSent(f: Fields, key: string, value: string)
    requires Lookup(f, key) == Some(value)
    ensures Entry(key, TextValue(value)) in FieldEntries(f)
  {
    if f[0].0 != key {
      LookupSent(f[1..], key, value);
      assert FieldEntries(f[1..]) == FieldEntries(f)[1..];
    } else {
      assert FieldEntries(f)[0] == Entry(key, TextValue(value));
    }
  }

  /** The image is sent exactly once when a file was picked, never
      otherwise, provided the form holds no "image" key of its own. */
  lemma ImageSentIffPicked(f: Fields, cpId: Option<Scalar>, previews: seq<Preview>)
    requires "image" !in FieldKeys(f)
    ensures CountKey(FormBody(f, cpId, previews), "image") == (if SendsImage(previews) then 1 else 0)
  {
    var id := if cpId.Some? && Truthy(cpId.value) then [Entry("cp_id", TextValue(ScalarText(cpId.value)))] else [];
    var image := if SendsImage(previews) then [Entry("image", FileValue(previews[0].file))] else [];
    assert FormBody(f, cpId, previews) == id + FieldEntries(f) + image;
    CountKeyAppend(id + FieldEntries(f), image, "image");
    CountKeyAppend(id, FieldEntries(f), "image");
    assert CountKey(image, "image") == (if SendsImage(previews) then 1 else 0);
  }

  // ---------------------------------------------------------------------------
  // Saving
  // ---------------------------------------------------------------------------

  /** How a save ends. */
  datatype SaveOutcome = SaveFailed | Sent(request: Request)

  /** `handleSave` as written: the body is built, then the call to the
      add or edit function, which the file never imports, throws, and the
      catch reports a failed save. */
  function SaveAsWritten(f: Fields, editing: Option<ProjectRecord>, previews: seq<Preview>): (o: SaveOutcome)
    ensures o.SaveFailed?
  {
    var _ := FormBody(f, if editing.Some? then editing.value.cpId else None, previews);
    SaveFailed
  }

  /** The save the screen evidently means: the body goes to the edit endpoint
      when a project is being edited and to the add endpoint otherwise. */
  function Save(f: Fields, editing: Option<ProjectRecord>, previews: seq<Preview>): (o: SaveOutcome)
    ensures o.Sent?
    ensures o.request.endpoint == API_ROOT + (if editing.Some? then "/edit/current_project" else "/add/current_project")
    ensures o.request.body == FormBody(f, if editing.Some? then editing.value.cpId else None, previews)
  {
    Sent(Request(API_ROOT + (if editing.Some? then "/edit/current_project" else "/add/current_project"),
                 FormBody(f, if editing.Some? then editing.value.cpId else None, previews)))
  }

  /** As written, no form ever reaches the server; as intended, every form
      does. */
  lemma SaveNeverSends(f: Fields, editing: Option<ProjectRecord>, previews: seq<Preview>)
    ensures SaveAsWritten(f, editing, previews) != Save(f, editing, previews)
    ensures Save(f, editing, previews).Sent?
  {
  }

  /** Opening a project and saving it at once sends its id when truthy, then
      the fourteen fields in order, each with what the card held, and no
      image. */
  lemma EditThenSaveBody(p: ProjectRecord)
    ensures var o := Save(EditForm(p), Some(p), EditPreviews(p));
      && o.request.endpoint == API_ROOT + "/edit/current_project"
      && Keys(o.request.body) == (if p.cpId.Some? && Truthy(p.cpId.value) then ["cp_id"] else []) + PROJECT_KEYS
      && CountKey(o.request.body, "image") == 0
  {
    assert "image" !in PROJECT_KEYS;
    ImageSentIffPicked(EditForm(p), p.cpId, EditPreviews(p));
  }

  // ---------------------------------------------------------------------------
  // The screen
  // ---------------------------------------------------------------------------

  datatype Screen = Screen(
    projects: seq<ProjectRecord>, modalOpen: bool, editing: Option<ProjectRecord>,
    form: Fields, previews: seq<Preview>)

  const INITIAL: Screen := Screen([], false, None, [], [])

  datatype Event =
    | Fetched(reply: ListReply<ProjectRecord>)
    | AddClicked
    | EditClicked(project: ProjectRecord)
      /** Typing into the input of one of `PROJECT_KEYS`. */
    | FieldTyped(key: string, text: string)
    | ImagesChosen(files: seq<FileRef>)
    | PreviewRemoved
    | SaveClicked
    | Closed
    | DeleteRequested(confirmed: bool, ack: AckReply, refetch: ListReply<ProjectRecord>)

  /** The screen as written: a save always fails, so it changes nothing and
      the modal stays open with its inputs. */
  function Step(s: Screen, e: Event): (t: Screen)
    ensures e.FieldTyped? ==> Shown(t.form, e.key) == e.text
    ensures e.SaveClicked? ==> t == s
    ensures e.DeleteRequested? && !(e.confirmed && e.ack.Resolved?) ==> t == s
  {
    match e
    case Fetched(reply) => s.(projects := FetchedProjects(reply))
    case AddClicked => s.(editing := None, form := [], previews := [], modalOpen := true)
    case EditClicked(p) => s.(editing := Some(p), form := EditForm(p), previews := EditPreviews(p), modalOpen := true)
    case FieldTyped(key, text) =>
      SetFound(s.form, key, text);
      s.(form := Set(s.form, key, text))
    case ImagesChosen(files) => s.(previews := ImageChanged(s.previews, files))
    case PreviewRemoved => s.(previews := [])
    case SaveClicked =>
      if SaveAsWritten(s.form, s.editing, s.previews).SaveFailed? then s
      else s.(modalOpen := false)
    case Closed => s.(modalOpen := false)
    case DeleteRequested(confirmed, ack, refetch) =>
      if confirmed && ack.Resolved? then s.(projects := FetchedProjects(refetch)) else s
  }

  /** The form's keys are distinct and all among the modal's inputs, so the
      body carries neither a second id nor a stray image. */
  ghost predicate Valid(s: Screen)
  {
    && Distinct(FieldKeys(s.form))
    && forall k :: k in FieldKeys(s.form) ==> k in PROJECT_KEYS
  }

  lemma ProjectKeysDistinct()
    ensures Distinct(PROJECT_KEYS)
  {
  }

  lemma InitialValid()
    ensures Valid(INITIAL)
  {
  }

  /** The inputs only ever write the modal's own keys. */
  lemma StepPreservesValid(s: Screen, e: Event)
    requires Valid(s)
    requires e.FieldTyped? ==> e.key in PROJECT_KEYS
    ensures Valid(Step(s, e))
  {
    if e.EditClicked? {
      ProjectKeysDistinct();
    } else if e.FieldTyped? {
      SetKeys(s.form, e.key, e.text);
      SetKeepsDistinct(s.form, e.key, e.text);
    }
  }

  /** On a valid screen, saving sends the image exactly when a file was
      picked, and every typed value under its key. */
  lemma ValidSaveSendsForm(s: Screen, key: string, value: string)
    requires Valid(s)
    requires Lookup(s.form, key) == Some(value)
    ensures var body := Save(s.form, s.editing, s.previews).request.body;
      && CountKey(body, "image") == (if SendsImage(s.previews) then 1 else 0)
      && Entry(key, TextValue(value)) in body
  {
    assert "image" !in PROJECT_KEYS;
    ImageSentIffPicked(s.form, if s.editing.Some? then s.editing.value.cpId else None, s.previews);
    LookupSent(s.form, key, value);
  }
}

=== FILE: forgot_password.dfy ===
/** The forgot-password page: a four-step wizard (e-mail, code, new password,
    done) over the authentication context. Each submit clears the error, runs
    its local checks, calls the context with the server's reply, and either
    moves on or shows a fixed message. */
module ForgotPassword {
  import opened Text
  import opened Js
  import Auth

  datatype Step = EmailStep | OtpStep | ResetStep | SuccessStep

  /** The page's state together with the context it reads. `loading` is over
      at every event boundary, so it is not kept. */
  datatype Wizard = Wizard(
    step: Step, email: string, otp: string, newPassword: string, confirmPassword: string,
    showNew: bool, showConfirm: bool, error: string, auth: Auth.AuthState)

  function Start(auth: Auth.AuthState): (w: Wizard)
    ensures w.step == EmailStep && w.email == "" && w.otp == "" && w.error == ""
  {
    Wizard(EmailStep, "", "", "", "", false, false, "", auth)
  }

  /** The views rendered for a step, in page order: each is rendered when the
      step names it. */
  function Views(step: Step): (vs: seq<Step>)
    ensures |vs| == 1 && vs[0] == step
  {
    (if step == EmailStep then [EmailStep] else [])
    + (if step == OtpStep then [OtpStep] else [])
    + (if step == ResetStep then [ResetStep] else [])
    + (if step == SuccessStep then [SuccessStep] else [])
  }

  // ---------------------------------------------------------------------------
  // The code input
  // ---------------------------------------------------------------------------

  /** The longest text the code input accepts. */
  const OTP_MAX_LENGTH: nat := 6

  /** The first `n` characters of `s`, as an input with a maximum length keeps. */
  function Take(s: string, n: nat): (r: string)
    ensures |r| <= n && |r| <= |s|
    ensures |s| <= n ==> r == s
    ensures r == s[..|r|]
  {
    if |s| <= n then s else s[..n]
  }

  /** What the code input holds after an edit: at most six characters are
      taken, and of them only the digits are kept. */
  function SanitizeOtp(raw: string): (otp: string)
    ensures AllDigits(otp) && |otp| <= OTP_MAX_LENGTH
    ensures AllDigits(raw) && |raw| <= OTP_MAX_LENGTH ==> otp == raw
  {
    DigitsOnly(Take(raw, OTP_MAX_LENGTH))
  }

  /** A sanitised code is its own sanitisation. */
  lemma SanitizeIdempotent(raw: string)
    ensures SanitizeOtp(SanitizeOtp(raw)) == SanitizeOtp(raw)
  {
  }

  /** The verify button is enabled only for a code of exactly four digits. */
  predicate OtpSubmittable(otp: string)
  {
    |otp| == 4
  }

  /** The input takes up to six digits, but a six-digit code can never be
      submitted: only four digits enable the button. */
  lemma SixDigitCodeNotSubmittable(raw: string)
    requires |raw| == 6 && AllDigits(raw)
    ensures SanitizeOtp(raw) == raw && !OtpSubmittable(SanitizeOtp(raw))
  {
  }

  // ---------------------------------------------------------------------------
  // The submits
  // ---------------------------------------------------------------------------

  const EMAIL_NOT_FOUND: string := "Email address not found"
  const INVALID_OTP: string := "Invalid OTP. Please check and try again."
  const PASSWORDS_DIFFER: string := "Passwords do not match"
  const PASSWORD_TOO_SHORT: string := "Password must be at least 6 characters long"
  const RESET_FAILED: string := "Failed to reset password. Please try again."

  /** `handleEmailSubmit`: ask for a code for the typed e-mail; on success go
      to the code step. */
  function EmailSubmit(w: Wizard, reply: AckReply): (t: Wizard)
    ensures t.auth == Auth.ForgotPassword(w.auth, w.email, reply).state
    ensures t.step == (if reply.Succeeded() then OtpStep else w.step)
    ensures reply.Succeeded() ==> t.error == "" && t.auth.resetEmail == w.email && t.auth.otpSent
    ensures !reply.Succeeded() ==> t == w.(error := EMAIL_NOT_FOUND)
  {
    var o := Auth.ForgotPassword(w.auth, w.email, reply);
    var cleared := w.(error := "", auth := o.state);
    if o.returned then cleared.(step := OtpStep) else cleared.(error := EMAIL_NOT_FOUND)
  }

  /** `handleOTPSubmit`: check the code; on success go to the password step. */
  function OtpSubmit(w: Wizard, reply: AckReply): (t: Wizard)
    ensures t.auth == w.auth
    ensures reply.Succeeded() ==> t == w.(step := ResetStep, error := "")
    ensures !reply.Succeeded() ==> t == w.(error := INVALID_OTP)
  {
    var o := Auth.VerifyOtp(w.auth, w.otp, reply);
    var cleared := w.(error := "", auth := o.state);
    if o.returned then cleared.(step := ResetStep) else cleared.(error := INVALID_OTP)
  }

  /** The minimum password length, in the UTF-16 code units `length` counts. */
  const MIN_PASSWORD_LENGTH: nat := 6

  /** `handlePasswordReset`: two checks before any request (the passwords
      must agree, then be six code units or more), then the reset itself. */
  function ResetSubmit(w: Wizard, reply: AckReply): (t: Wizard)
    ensures w.newPassword != w.confirmPassword ==> t == w.(error := PASSWORDS_DIFFER)
    ensures w.newPassword == w.confirmPassword && Utf16Length(w.newPassword) < MIN_PASSWORD_LENGTH ==> t == w.(error := PASSWORD_TOO_SHORT)
    ensures t.step == SuccessStep <==>
      (w.newPassword == w.confirmPassword && Utf16Length(w.newPassword) >= MIN_PASSWORD_LENGTH && reply.Succeeded()) || w.step == SuccessStep
    ensures t.auth != w.auth ==> t.step == SuccessStep && t.auth == w.auth.(resetEmail := "", otpSent := false)
  {
    if w.newPassword != w.confirmPassword then w.(error := PASSWORDS_DIFFER)
    else if Utf16Length(w.newPassword) < MIN_PASSWORD_LENGTH then w.(error := PASSWORD_TOO_SHORT)
    else
      var o := Auth.ResetPassword(w.auth, w.newPassword, w.confirmPassword, reply);
      var cleared := w.(error := "", auth := o.state);
      if o.returned then cleared.(step := SuccessStep) else cleared.(error := RESET_FAILED)
  }

  /** The request the reset submit sends, if any: none when a local check
      fails. */
  function ResetCall(w: Wizard, reply: AckReply): (c: Option<Auth.Call>)
    ensures c.Some? <==> w.newPassword == w.confirmPassword && Utf16Length(w.newPassword) >= MIN_PASSWORD_LENGTH
    ensures c.Some? ==> c.value.body == map["email" := w.auth.resetEmail, "password" := w.newPassword]
  {
    if w.newPassword != w.confirmPassword || Utf16Length(w.newPassword) < MIN_PASSWORD_LENGTH then None
    else Auth.ResetPassword(w.auth, w.newPassword, w.confirmPassword, reply).call
  }

  /** Three emoji make a password long enough: each counts as two code units,
      so a reset with them is sent. */
  lemma AstralPasswordLongEnough(w: Wizard, reply: AckReply)
    requires w.newPassword == "\U{1F600}\U{1F600}\U{1F600}" && w.confirmPassword == w.newPassword
    ensures ResetCall(w, reply).Some?
    ensures |w.newPassword| < MIN_PASSWORD_LENGTH
  {
    assert Utf16Length(w.newPassword) == 6 by {
      assert w.newPassword[1..][1..][1..] == "";
    }
  }

  // ---------------------------------------------------------------------------
  // The page as a state machine
  // ---------------------------------------------------------------------------

  datatype Event =
    | EmailEdited(text: string)
    | EmailSubmitted(ack: AckReply)
    | OtpEdited(raw: string)
    | OtpSubmitted(ack: AckReply)
      /** "Back to Email" above the code form. */
    | BackToEmail
      /** "Didn't receive the code? Try again". */
    | TryAgain
    | NewPasswordEdited(text: string)
    | ConfirmPasswordEdited(text: string)
    | ToggleNew
    | ToggleConfirm
    | ResetSubmitted(ack: AckReply)

  /** The events the rendered view offers: its inputs and buttons, and the
      code submit only while it is enabled. */
  predicate Offered(w: Wizard, e: Event)
  {
    match e
    case EmailEdited(_) => w.step == EmailStep
    case EmailSubmitted(_) => w.step == EmailStep
    case OtpEdited(_) => w.step == OtpStep
    case OtpSubmitted(_) => w.step == OtpStep && OtpSubmittable(w.otp)
    case BackToEmail => w.step == OtpStep
    case TryAgain => w.step == OtpStep
    case NewPasswordEdited(_) => w.step == ResetStep
    case ConfirmPasswordEdited(_) => w.step == ResetStep
    case ToggleNew => w.step == ResetStep
    case ToggleConfirm => w.step == ResetStep
    case ResetSubmitted(_) => w.step == ResetStep
  }

  function Next(w: Wizard, e: Event): (t: Wizard)
    ensures e.TryAgain? ==> t.step == EmailStep && t.otp == "" && t.error == ""
    ensures e.BackToEmail? ==> t.step == EmailStep
    ensures t.step != w.step && !e.TryAgain? && !e.BackToEmail? ==> t.error == ""
  {
    match e
    case EmailEdited(text) => w.(email := text)
    case EmailSubmitted(ack) => EmailSubmit(w, ack)
    case OtpEdited(raw) => w.(otp := SanitizeOtp(raw))
    case OtpSubmitted(ack) => OtpSubmit(w, ack)
    case BackToEmail => w.(step := EmailStep)
    case TryAgain => w.(step := EmailStep, otp := "", error := "")
    case NewPasswordEdited(text) => w.(newPassword := text)
    case ConfirmPasswordEdited(text) => w.(confirmPassword := text)
    case ToggleNew => w.(showNew := !w.showNew)
    case ToggleConfirm => w.(showConfirm := !w.showConfirm)
    case ResetSubmitted(ack) => ResetSubmit(w, ack)
  }

  /** The step only moves forward through the server's consent: reaching the
      code step takes an accepted e-mail, the password step an accepted code,
      and the last step an accepted reset. */
  lemma ForwardOnlyOnAcceptance(w: Wizard, e: Event)
    requires Offered(w, e)
    ensures Next(w, e).step == OtpStep && w.step != OtpStep ==> e.EmailSubmitted? && e.ack.Succeeded()
    ensures Next(w, e).step == ResetStep && w.step != ResetStep ==> e.OtpSubmitted? && e.ack.Succeeded()
    ensures Next(w, e).step == SuccessStep && w.step != SuccessStep ==> e.ResetSubmitted? && e.ack.Succeeded()
  {
  }

  /** What holds on every page the wizard can show: the code is digits only
      and fits the input; from the code step to the password step a code is
      out for the e-mail typed; after the reset nothing of it is remembered;
      and the context stays restored with its user as stored. */
  ghost predicate Valid(w: Wizard)
  {
    && AllDigits(w.otp) && |w.otp| <= OTP_MAX_LENGTH
    && Auth.Valid(w.auth)
    && (w.step == OtpStep || w.step == ResetStep ==> w.auth.otpSent && w.auth.resetEmail == w.email)
    && (w.step == SuccessStep ==> !w.auth.otpSent && w.auth.resetEmail == "")
  }

  lemma StartValid(auth: Auth.AuthState)
    requires Auth.Valid(auth)
    ensures Valid(Start(auth))
  {
  }

  lemma NextPreservesValid(w: Wizard, e: Event)
    requires Valid(w) && Offered(w, e)
    ensures Valid(Next(w, e))
  {
  }

  /** The user signed in (if any) is never touched by the wizard. */
  lemma WizardKeepsUser(w: Wizard, e: Event)
    ensures Next(w, e).auth.user == w.auth.user
  {
  }
}

=== FILE: js.dfy ===
/** JavaScript value conventions shared by the screens: optional values,
    truthiness of ids and strings, numbers-or-strings the server sends, and the
    shapes of the server replies each screen reacts to. */
module Js {
  import opened Text

  datatype Option<+T> = None | Some(value: T)
  {
    function GetOr(default: T): T
    {
      match this
      case Some(v) => v
      case None => default
    }
  }

  /** The origin every image, video and brochure path is prefixed with. */
  const BASE_URL: string := "https://lunarsenterprises.com:7001"

  /** `x || fallback` on an optional string: `undefined` and `""` are both falsy. */
  function OrElse(x: Option<string>, fallback: string): (r: string)
    ensures x.Some? && x.value != "" ==> r == x.value
    ensures x.None? || x.value == "" ==> r == fallback
  {
    if x.Some? && x.value != "" then x.value else fallback
  }

  /** `path ? BASE_URL + path : fallback` for an optional server path. */
  function PrefixedOr(path: Option<string>, fallback: string): (r: string)
    ensures path.Some? && path.value != "" ==> r == BASE_URL + path.value
    ensures path.None? || path.value == "" ==> r == fallback
  {
    if path.Some? && path.value != "" then BASE_URL + path.value else fallback
  }

  /** An optional numeric id is truthy when present and not 0. */
  predicate IdTruthy(id: Option<int>)
  {
    id.Some? && id.value != 0
  }

  /** A JSON scalar the screens call `toString()` on: a number or a string. */
  datatype Scalar = Num(n: int) | Str(s: string)

  /** JavaScript truthiness of a scalar: "" and 0 are falsy. */
  predicate Truthy(v: Scalar)
  {
    match v
    case Num(n) => n != 0
    case Str(s) => s != ""
  }

  function ScalarText(v: Scalar): string
  {
    match v
    case Num(n) => IntToString(n)
    case Str(s) => s
  }

  /** What a list request hands back: the promise rejected, or the reply's
      `result` flag and its `list` (None when absent or not an array). */
  datatype ListReply<+T> = ListRejected | ListResolved(result: bool, list: Option<seq<T>>)

  /** `if (res.data?.result) setList(res.data.list || [])`: a successful
      reply replaces the list (an absent list empties it); a failed or
      rejected one leaves it alone. */
  function ApplyListReply<T>(current: seq<T>, reply: ListReply<T>): seq<T>
  {
    if reply.ListResolved? && reply.result then reply.list.GetOr([]) else current
  }

  /** `if (res.data?.result && Array.isArray(res.data.list)) setList(...)`:
      only a successful reply carrying an array replaces the list. */
  function ApplyArrayReply<T>(current: seq<T>, reply: ListReply<T>): seq<T>
  {
    if reply.ListResolved? && reply.result && reply.list.Some? then reply.list.value else current
  }

  /** What a mutating request hands back: the promise rejected, or the reply's
      `result` flag. */
  datatype AckReply = Rejected | Resolved(result: bool)
  {
    predicate Succeeded() { Resolved? && result }
  }
}

=== FILE: leads.dfy ===
/** The contact-us inbox ("Leads"): messages fetched from the server, narrowed
    by a case-insensitive search over every field, and deleted on the server
    followed by a refetch. There is no pagination. */
module Leads {
  import opened Text
  import opened Js
  import opened Lists

  /** A contact-us message; the search reads every field without a guard, so
      all of them are present. */
  datatype Lead = Lead(
    id: int, firstName: string, lastName: string, email: string,
    phone: Scalar, message: string)

  /** First name, last name, e-mail or message contains the term ignoring case,
      or the phone number contains the lower-cased term literally. */
  predicate MatchesSearch(c: Lead, term: string)
  {
    var search := Lower(term);
    || Contains(Lower(c.firstName), search)
    || Contains(Lower(c.lastName), search)
    || Contains(Lower(c.email), search)
    || Contains(ScalarText(c.phone), search)
    || Contains(Lower(c.message), search)
  }

  function Matching(term: string): Lead -> bool
  {
    (c: Lead) => MatchesSearch(c, term)
  }

  /** The messages shown: those that match. */
  function Filtered(contacts: seq<Lead>, term: string): (r: seq<Lead>)
    ensures |r| <= |contacts|
    ensures forall i :: 0 <= i < |r| ==> MatchesSearch(r[i], term) && r[i] in contacts
    ensures forall i :: 0 <= i < |contacts| && MatchesSearch(contacts[i], term) ==> contacts[i] in r
  {
    Filter(contacts, Matching(term))
  }

  /** The messages shown keep their original order. */
  lemma FilteredIsSubsequence(contacts: seq<Lead>, term: string)
    ensures IsSubsequence(Filtered(contacts, term), contacts)
  {
    FilterIsSubsequence(contacts, Matching(term));
  }

  /** An empty search shows every message. */
  lemma EmptySearchKeepsAll(contacts: seq<Lead>)
    ensures Filtered(contacts, "") == contacts
  {
    forall i | 0 <= i < |contacts|
      ensures MatchesSearch(contacts[i], "")
    {
      ContainsEmpty(Lower(contacts[i].firstName));
    }
    FilterAll(contacts, Matching(""));
  }

  /** Searching for a full e-mail address, typed in any case, finds its sender. */
  lemma EmailFound(c: Lead, typed: string)
    requires Lower(typed) == Lower(c.email)
    ensures MatchesSearch(c, typed)
  {
    ContainsSelf(Lower(c.email));
  }

  /** A phone number stored as a number is found by its decimal digits. */
  lemma PhoneNumberFound(c: Lead, n: int)
    requires c.phone == Num(n)
    ensures MatchesSearch(c, IntToString(n))
  {
    var digits := IntToString(n);
    assert forall k :: 0 <= k < |digits| ==> !IsUpper(digits[k]);
    LowerIdentity(digits);
    ContainsSelf(digits);
  }

  datatype Screen = Screen(contacts: seq<Lead>, searchTerm: string)

  const INITIAL: Screen := Screen([], "")

  datatype Event =
    | Fetched(reply: ListReply<Lead>)
    | SearchEdited(term: string)
      /** A delete: whether the dialog was confirmed, the server's answer, and
          the reply of the refetch that a successful delete triggers. */
    | DeleteRequested(confirmed: bool, ack: AckReply, refetch: ListReply<Lead>)

  function Step(s: Screen, e: Event): (t: Screen)
    ensures e.SearchEdited? ==> t.contacts == s.contacts && t.searchTerm == e.term
    ensures !e.SearchEdited? ==> t.searchTerm == s.searchTerm
    ensures e.DeleteRequested? && !(e.confirmed && e.ack.Succeeded()) ==> t == s
    ensures e.Fetched? && !(e.reply.ListResolved? && e.reply.result) ==> t == s
  {
    match e
    case Fetched(reply) => s.(contacts := ApplyListReply(s.contacts, reply))
    case SearchEdited(term) => s.(searchTerm := term)
    case DeleteRequested(confirmed, ack, refetch) =>
      if confirmed && ack.Succeeded() then s.(contacts := ApplyListReply(s.contacts, refetch)) else s
  }

  /** A confirmed, successful delete shows exactly what the refetch returned
      (narrowed by the unchanged search). */
  lemma DeleteShowsRefetch(s: Screen, ack: AckReply, list: seq<Lead>)
    requires ack.Succeeded()
    ensures var t := Step(s, DeleteRequested(true, ack, ListResolved(true, Some(list))));
      Filtered(t.contacts, t.searchTerm) == Filtered(list, s.searchTerm)
  {
  }
}

=== FILE: lists.dfy ===
/** List operations behind every list screen: `Array.prototype.filter`, the
    order-preserving subsequence it yields, and removal by position. */
module Lists {

  /** `s.filter(p)`: keeps exactly the elements satisfying `p`. */
  function Filter<T(==)>(s: seq<T>, p: T -> bool): (r: seq<T>)
    ensures |r| <= |s|
    ensures forall i :: 0 <= i < |r| ==> p(r[i])
    ensures forall i :: 0 <= i < |r| ==> r[i] in s
    ensures forall i :: 0 <= i < |s| && p(s[i]) ==> s[i] in r
  {
    if |s| == 0 then []
    else
      assert s == [s[0]] + s[1..];
      (if p(s[0]) then [s[0]] else []) + Filter(s[1..], p)
  }

  /** One step of the filter: the head is kept or dropped, then the tail is
      filtered. */
  lemma FilterCons<T>(s: seq<T>, p: T -> bool)
    requires |s| > 0
    ensures Filter(s, p) == (if p(s[0]) then [s[0]] else []) + Filter(s[1..], p)
  {
  }

  /** `a` is obtained from `b` by deleting elements, keeping the order. */
  ghost predicate IsSubsequence<T>(a: seq<T>, b: seq<T>)
    decreases |b|
  {
    if |a| == 0 then true
    else if |b| == 0 then false
    else (a[0] == b[0] && IsSubsequence(a[1..], b[1..])) || IsSubsequence(a, b[1..])
  }

  /** Filtering keeps the relative order of the survivors. */
  lemma {:induction false} FilterIsSubsequence<T>(s: seq<T>, p: T -> bool)
    ensures IsSubsequence(Filter(s, p), s)
  {
    if |s| > 0 {
      FilterIsSubsequence(s[1..], p);
      if p(s[0]) {
        assert Filter(s, p) == [s[0]] + Filter(s[1..], p);
        assert Filter(s, p)[1..] == Filter(s[1..], p);
      } else {
        assert Filter(s, p) == Filter(s[1..], p);
      }
    }
  }

  /** The opposite predicate. */
  function Not<T>(p: T -> bool): T -> bool
  {
    (x: T) => !p(x)
  }

  /** The number of occurrences of `x` in `s`. */
  function Count<T(==)>(s: seq<T>, x: T): nat
  {
    if |s| == 0 then 0 else (if s[0] == x then 1 else 0) + Count(s[1..], x)
  }

  lemma CountCons<T>(h: seq<T>, t: seq<T>, x: T)
    requires |h| <= 1
    ensures Count(h + t, x) == Count(h, x) + Count(t, x)
  {
    if |h| == 1 {
      assert (h + t)[1..] == t;
    } else {
      assert h + t == t;
    }
  }

  /** What a filter keeps and what the opposite filter keeps together make up
      the whole list: every value occurs in the two as often as in the list. */
  lemma {:induction false} FilterPartition<T>(s: seq<T>, p: T -> bool, x: T)
    ensures Count(Filter(s, p), x) + Count(Filter(s, Not(p)), x) == Count(s, x)
  {
    if |s| > 0 {
      var rest := s[1..];
      FilterPartition(rest, p, x);
      FilterCons(s, p);
      FilterCons(s, Not(p));
      CountCons(if p(s[0]) then [s[0]] else [], Filter(rest, p), x);
      CountCons(if !p(s[0]) then [s[0]] else [], Filter(rest, Not(p)), x);
    }
  }

  /** Filtering distributes over concatenation. */
  lemma {:induction false} FilterAppend<T>(a: seq<T>, b: seq<T>, p: T -> bool)
    ensures Filter(a + b, p) == Filter(a, p) + Filter(b, p)
  {
    if |a| == 0 {
      assert a + b == b;
    } else {
      assert (a + b)[1..] == a[1..] + b;
      FilterAppend(a[1..], b, p);
    }
  }

  /** Two predicates that agree everywhere filter alike. */
  lemma {:induction false} FilterSamePredicate<T>(s: seq<T>, p: T -> bool, q: T -> bool)
    requires forall x :: p(x) == q(x)
    ensures Filter(s, p) == Filter(s, q)
  {
    if |s| > 0 {
      FilterSamePredicate(s[1..], p, q);
    }
  }

  /** An element of the list survives the filter exactly when it satisfies
      the predicate. */
  lemma FilterMember<T>(s: seq<T>, p: T -> bool, x: T)
    requires x in s
    ensures x in Filter(s, p) <==> p(x)
  {
  }

  /** A predicate every element satisfies keeps the list as it is. */
  lemma {:induction false} FilterAll<T>(s: seq<T>, p: T -> bool)
    requires forall i :: 0 <= i < |s| ==> p(s[i])
    ensures Filter(s, p) == s
  {
    if |s| > 0 {
      FilterAll(s[1..], p);
    }
  }

  /** The filter keeps every element exactly when every element satisfies
      the predicate. */
  lemma {:induction false} FilterKeepsAllIff<T>(s: seq<T>, p: T -> bool)
    ensures |Filter(s, p)| == |s| <==> forall i :: 0 <= i < |s| ==> p(s[i])
  {
    if |s| > 0 {
      var rest := s[1..];
      FilterCons(s, p);
      FilterKeepsAllIff(rest, p);
      assert forall i :: 0 <= i < |rest| ==> rest[i] == s[i + 1];
      if forall i :: 0 <= i < |s| ==> p(s[i]) {
        assert forall i :: 0 <= i < |rest| ==> p(rest[i]) by {
          forall i | 0 <= i < |rest| ensures p(rest[i]) { assert rest[i] == s[i + 1]; }
        }
      } else {
        var i :| 0 <= i < |s| && !p(s[i]);
        if i > 0 {
          assert rest[i - 1] == s[i];
        }
      }
    }
  }

  /** Every element is kept by a filter or by the opposite one. */
  lemma {:induction false} FilterLengthPartition<T>(s: seq<T>, p: T -> bool)
    ensures |Filter(s, p)| + |Filter(s, Not(p))| == |s|
  {
    if |s| > 0 {
      FilterCons(s, p);
      FilterCons(s, Not(p));
      FilterLengthPartition(s[1..], p);
    }
  }

  /** The filter keeps nothing exactly when no element satisfies the
      predicate. */
  lemma FilterEmptyIff<T>(s: seq<T>, p: T -> bool)
    ensures Filter(s, p) == [] <==> forall i :: 0 <= i < |s| ==> !p(s[i])
  {
    var r := Filter(s, p);
    if r != [] {
      assert r[0] in s;
    }
  }

  /** `s.filter((_, k) => k !== i)`: drops position `i`; an index outside the
      list changes nothing. */
  function RemoveAt<T>(s: seq<T>, i: int): (r: seq<T>)
    ensures 0 <= i < |s| ==> |r| == |s| - 1
    ensures 0 <= i < |s| ==> forall k :: 0 <= k < i ==> r[k] == s[k]
    ensures 0 <= i < |s| ==> forall k :: i <= k < |r| ==> r[k] == s[k + 1]
    ensures !(0 <= i < |s|) ==> r == s
  {
    if 0 <= i < |s| then s[..i] + s[i + 1..] else s
  }

  /** `Array.from({ length: n }, (_, i) => i + 1)`: the numbers 1..n. */
  function Range(n: int): (r: seq<int>)
    ensures n <= 0 ==> r == []
    ensures n > 0 ==> |r| == n
    ensures forall i :: 0 <= i < |r| ==> r[i] == i + 1
  {
    if n <= 0 then [] else seq(n, i requires 0 <= i < n => i + 1)
  }

  predicate Increasing(s: seq<int>)
  {
    forall i, j :: 0 <= i < j < |s| ==> s[i] < s[j]
  }

  /** Filtering an increasing list leaves it increasing. */
  lemma {:induction false} FilterIncreasing(s: seq<int>, p: int -> bool)
    requires Increasing(s)
    ensures Increasing(Filter(s, p))
  {
    if |s| > 0 {
      FilterIncreasing(s[1..], p);
      var t := Filter(s[1..], p);
      if p(s[0]) {
        assert Filter(s, p) == [s[0]] + t;
        forall j | 0 <= j < |t|
          ensures s[0] < t[j]
        {
          assert t[j] in s[1..];
        }
      }
    }
  }

  /** An increasing list whose elements all lie in `S` has at most |S| elements. */
  lemma {:induction false} IncreasingWithin(s: seq<int>, S: set<int>)
    requires Increasing(s)
    requires forall i :: 0 <= i < |s| ==> s[i] in S
    ensures |s| <= |S|
  {
    if |s| > 0 {
      var rest := S - {s[0]};
      forall i | 0 <= i < |s[1..]|
        ensures s[1..][i] in rest
      {
        assert s[1..][i] == s[i + 1] && s[0] < s[i + 1];
      }
      IncreasingWithin(s[1..], rest);
    }
  }
}

=== FILE: multipart.dfy ===
/** The multipart request bodies (`FormData`) the forms build, as the ordered
    list of appended entries. Files are opaque tokens. */
module Multipart {
  import opened Js

  /** A browser `File`; its content never matters to the screens. */
  datatype FileRef = FileRef(name: string)

  /** An appended value: a string, a file, or a number printed back to text,
      kept symbolic because float parsing and printing are not modelled. */
  datatype Value =
    | TextValue(text: string)
    | FileValue(file: FileRef)
      /** `String(parseFloat(raw) || 0)`. */
    | ParsedNumber(raw: string)
      /** `String(Number(raw))` for a text that converts to a number. */
    | ConvertedNumber(raw: string)

  datatype Entry = Entry(key: string, value: Value)

  /** The keys of a body, in append order. */
  function Keys(body: seq<Entry>): (ks: seq<string>)
    ensures |ks| == |body|
    ensures forall i :: 0 <= i < |body| ==> ks[i] == body[i].key
  {
    seq(|body|, i requires 0 <= i < |body| => body[i].key)
  }

  lemma KeysAppend(a: seq<Entry>, b: seq<Entry>)
    ensures Keys(a + b) == Keys(a) + Keys(b)
  {
  }

  /** The number of entries appended under `key`. */
  function CountKey(body: seq<Entry>, key: string): (n: nat)
    ensures n <= |body|
    ensures n == 0 <==> key !in Keys(body)
  {
    if |body| == 0 then 0
    else
      assert Keys(body) == [body[0].key] + Keys(body[1..]);
      (if body[0].key == key then 1 else 0) + CountKey(body[1..], key)
  }

  lemma {:induction false} CountKeyAppend(a: seq<Entry>, b: seq<Entry>, key: string)
    ensures CountKey(a + b, key) == CountKey(a, key) + CountKey(b, key)
  {
    if |a| > 0 {
      assert (a + b)[1..] == a[1..] + b;
      CountKeyAppend(a[1..], b, key);
    } else {
      assert a + b == b;
    }
  }

  // ---------------------------------------------------------------------------
  // Forms
  // ---------------------------------------------------------------------------

  /** The form's text fields by key; a key never typed into is absent. */
  type Form = map<string, string>

  /** `data[key] || ""`. */
  function Field(form: Form, key: string): (r: string)
    ensures key in form ==> r == form[key]
    ensures key !in form ==> r == ""
  {
    if key in form then form[key] else ""
  }

  /** `append(key, data[key] || "")`. */
  function TextEntry(form: Form, key: string): Entry
  {
    Entry(key, TextValue(Field(form, key)))
  }

  /** A request a screen sends: the endpoint and the multipart body. */
  datatype Request = Request(endpoint: string, body: seq<Entry>)
}

=== FILE: numbers.dfy ===
/** The part of JavaScript's string-to-number conversion the product form's
    checks rely on: `isNaN(text)` and `text > 5`. A string converts when, after
    trimming, it is empty (the number 0) or a plain decimal: an optional sign,
    digits, and an optional fraction after a point, with at least one digit. */
module JsNumber {
  import opened Text
  import opened Js

  /** A plain decimal numeral: sign, the digits before the point and the digits
      after it. */
  datatype Decimal = Decimal(negative: bool, whole: string, fraction: string)

  ghost predicate WellFormed(d: Decimal)
  {
    AllDigits(d.whole) && AllDigits(d.fraction) && d.whole + d.fraction != ""
  }

  /** Recognises the unsigned part of a numeral: digits, optionally a point
      and more digits, at least one digit in all. */
  function ParseUnsigned(body: string): (r: Option<(string, string)>)
    ensures r.Some? ==> AllDigits(r.value.0) && AllDigits(r.value.1) && r.value.0 + r.value.1 != ""
  {
    var parts := Split(body, '.');
    if |parts| == 1 && AllDigits(parts[0]) && parts[0] != "" then Some((parts[0], ""))
    else if |parts| == 2 && AllDigits(parts[0]) && AllDigits(parts[1]) && parts[0] + parts[1] != "" then
      Some((parts[0], parts[1]))
    else None
  }

  /** Recognises a trimmed numeral; a leading "+" is accepted and dropped. */
  function ParseDecimal(s: string): (r: Option<Decimal>)
    ensures r.Some? ==> WellFormed(r.value)
    ensures r.Some? ==> (r.value.negative <==> |s| > 0 && s[0] == '-')
  {
    var signed := |s| > 0 && (s[0] == '-' || s[0] == '+');
    var u := ParseUnsigned(if signed then s[1..] else s);
    if u.Some? then Some(Decimal(signed && s[0] == '-', u.value.0, u.value.1)) else None
  }

  /** The canonical spelling of the unsigned part. */
  function ShowUnsigned(whole: string, fraction: string): string
  {
    whole + (if fraction == "" then "" else "." + fraction)
  }

  /** The canonical spelling of a numeral: no "+", no point before an empty
      fraction. */
  function Show(d: Decimal): string
  {
    (if d.negative then "-" else "") + ShowUnsigned(d.whole, d.fraction)
  }

  lemma DigitsHaveNoPoint(s: string)
    requires AllDigits(s)
    ensures '.' !in s
  {
    assert forall k :: 0 <= k < |s| ==> IsDigit(s[k]);
  }

  lemma ParseShowUnsigned(whole: string, fraction: string)
    requires AllDigits(whole) && AllDigits(fraction) && whole + fraction != ""
    ensures ParseUnsigned(ShowUnsigned(whole, fraction)) == Some((whole, fraction))
  {
    DigitsHaveNoPoint(whole);
    DigitsHaveNoPoint(fraction);
    if fraction == "" {
      assert ShowUnsigned(whole, fraction) == Join([whole], '.');
      SplitJoin([whole], '.');
    } else {
      assert ShowUnsigned(whole, fraction) == Join([whole, fraction], '.');
      SplitJoin([whole, fraction], '.');
    }
  }

  /** The unsigned spelling never starts with a sign. */
  lemma ShowUnsignedUnsigned(whole: string, fraction: string)
    requires AllDigits(whole) && whole + fraction != ""
    ensures var b := ShowUnsigned(whole, fraction); |b| > 0 && b[0] != '-' && b[0] != '+'
  {
    var b := ShowUnsigned(whole, fraction);
    if whole != "" {
      assert b[0] == whole[0] && IsDigit(whole[0]);
    } else {
      assert b[0] == '.';
    }
  }

  /** Every well-formed numeral is recognised from its canonical spelling. */
  lemma ParseShow(d: Decimal)
    requires WellFormed(d)
    ensures ParseDecimal(Show(d)) == Some(d)
  {
    ParseShowUnsigned(d.whole, d.fraction);
    ShowUnsignedUnsigned(d.whole, d.fraction);
    var body := ShowUnsigned(d.whole, d.fraction);
    if d.negative {
      ParseNegative(body);
      assert Show(d) == "-" + body;
    } else {
      ParsePlain(body);
      assert Show(d) == body;
    }
  }

  /** A "-" before an unsigned numeral makes it negative. */
  lemma ParseNegative(body: string)
    requires |body| > 0 && body[0] != '-' && body[0] != '+'
    requires ParseUnsigned(body).Some?
    ensures var u := ParseUnsigned(body).value;
      ParseDecimal("-" + body) == Some(Decimal(true, u.0, u.1))
  {
    assert ("-" + body)[1..] == body;
  }

  /** An unsigned numeral is read as it stands. */
  lemma ParsePlain(body: string)
    requires |body| > 0 && body[0] != '-' && body[0] != '+'
    requires ParseUnsigned(body).Some?
    ensures var u := ParseUnsigned(body).value;
      ParseDecimal(body) == Some(Decimal(false, u.0, u.1))
  {
  }

  /** `isNaN(text)`. */
  predicate IsNaN(text: string)
  {
    var t := Trim(text);
    t != "" && ParseDecimal(t).None?
  }

  function Pow10(n: nat): (p: nat)
    ensures p >= 1
  {
    if n == 0 then 1 else 10 * Pow10(n - 1)
  }

  /** The value of a numeral, exactly. */
  function Value(d: Decimal): real
    requires AllDigits(d.whole) && AllDigits(d.fraction)
  {
    var magnitude := DigitsValue(d.whole) as real + DigitsValue(d.fraction) as real / Pow10(|d.fraction|) as real;
    if d.negative then -magnitude else magnitude
  }

  predicate HasNonZeroDigit(s: string)
  {
    exists k :: 0 <= k < |s| && s[k] != '0'
  }

  /** `Number(text) > k` for a text that converts, decided on the digits: the
      whole part exceeds k, or equals it with a non-zero fraction digit. */
  predicate Exceeds(d: Decimal, k: nat)
    requires AllDigits(d.whole)
  {
    !d.negative && (DigitsValue(d.whole) > k || (DigitsValue(d.whole) == k && HasNonZeroDigit(d.fraction)))
  }

  /** `text > k` with `text` converted to a number; false when it does not
      convert, and for blank text (the number 0). */
  predicate TextExceeds(text: string, k: nat)
  {
    var p := ParseDecimal(Trim(text));
    p.Some? && Exceeds(p.value, k)
  }

  lemma {:induction false} DigitsValueBound(s: string)
    requires AllDigits(s)
    ensures DigitsValue(s) < Pow10(|s|)
    ensures DigitsValue(s) == 0 <==> !HasNonZeroDigit(s)
    decreases |s|
  {
    if |s| > 0 {
      var init := s[..|s| - 1];
      assert AllDigits(init) by { assert forall k :: 0 <= k < |init| ==> init[k] == s[k]; }
      DigitsValueBound(init);
      if HasNonZeroDigit(init) {
        var k :| 0 <= k < |init| && init[k] != '0';
        assert s[k] == init[k];
      }
    }
  }

  /** A fraction f / p with 0 <= f < p lies in [0, 1), and is 0 exactly when f is. */
  lemma UnitFraction(f: nat, p: nat)
    requires f < p
    ensures 0.0 <= f as real / p as real < 1.0
    ensures f as real / p as real == 0.0 <==> f == 0
  {
    var q := f as real / p as real;
    assert q * p as real == f as real;
  }

  /** The digit test agrees with the numeric value: it decides exactly
      `Value(d) > k`. */
  lemma ExceedsMeaning(d: Decimal, k: nat)
    requires WellFormed(d)
    ensures Exceeds(d, k) <==> Value(d) > k as real
  {
    var w := DigitsValue(d.whole);
    var f := DigitsValue(d.fraction);
    DigitsValueBound(d.fraction);
    UnitFraction(f, Pow10(|d.fraction|));
    var q := f as real / Pow10(|d.fraction|) as real;
    assert Value(d) == if d.negative then -(w as real + q) else w as real + q;
    if !d.negative {
      if w > k {
        assert w as real >= k as real + 1.0;
      } else if w < k {
        assert w as real + 1.0 <= k as real;
      }
    }
  }

  /** The canonical spelling has no white space at either end. */
  lemma ShowTrimmed(d: Decimal)
    requires WellFormed(d)
    ensures Trim(Show(d)) == Show(d)
  {
    var s := Show(d);
    ShowUnsignedUnsigned(d.whole, d.fraction);
    var last := s[|s| - 1];
    if d.fraction == "" {
      assert last == d.whole[|d.whole| - 1];
      assert IsDigit(last);
    } else {
      assert last == d.fraction[|d.fraction| - 1];
      assert IsDigit(last);
    }
    if d.negative {
      assert s[0] == '-';
    } else if d.whole != "" {
      assert s[0] == d.whole[0] && IsDigit(s[0]);
    } else {
      assert s[0] == '.';
    }
    TrimKeeps(s);
  }

  /** A numeral written canonically is a number to `isNaN`, and `text > k`
      compares its exact value. */
  lemma ShowConverts(d: Decimal, k: nat)
    requires WellFormed(d)
    ensures !IsNaN(Show(d))
    ensures TextExceeds(Show(d), k) <==> Value(d) > k as real
  {
    ShowTrimmed(d);
    ParseShow(d);
    ExceedsMeaning(d, k);
  }

  // ---------------------------------------------------------------------------
  // The number input
  // ---------------------------------------------------------------------------

  /** A valid floating-point number in the sense of an HTML number input
      (without an exponent): a numeral spelled canonically, so no "+", no
      white space and no point without digits after it. */
  predicate IsValidFloat(text: string)
  {
    var p := ParseDecimal(text);
    p.Some? && text == Show(p.value)
  }

  /** The texts a number input takes are exactly the canonical spellings of
      the well-formed numerals. */
  lemma ValidFloatIsShown(text: string)
    ensures IsValidFloat(text) <==> exists d :: WellFormed(d) && text == Show(d)
  {
    if exists d :: WellFormed(d) && text == Show(d) {
      var d :| WellFormed(d) && text == Show(d);
      ParseShow(d);
    }
  }

  /** `e.target.value` of a number input: what was typed when it is a valid
      number, the empty string otherwise. */
  function NumberInputValue(typed: string): (v: string)
    ensures v == typed || v == ""
    ensures v != "" ==> !IsNaN(v) && !IsBlank(v)
    ensures IsNaN(typed) ==> v == ""
  {
    if IsValidFloat(typed) then
      ShowConverts(ParseDecimal(typed).value, 0);
      ShowTrimmed(ParseDecimal(typed).value);
      TrimEmptyIffBlank(typed);
      typed
    else ""
  }
}

=== FILE: orders.dfy ===
/** The order (quote) history screen: quotes fetched from the server are mapped
    to orders, narrowed by a search term, a status and a date range, shown 20 to
    a page with a window of at most 20 page buttons, and updated locally when an
    order's status changes or an order is deleted. Every change of the orders or
    the filters recomputes the filtered list and returns to page 1. */
module OrderHistory {
  import opened Text
  import opened Js
  import opened Lists
  import Paging

  const PAGE_SIZE: nat := 20

  /** A quote as the list endpoint sends it (the fields the screen reads). */
  datatype Quote = Quote(
    qId: int, qName: string, qEmail: Option<string>, qMobile: string,
    qAmount: int, qStatus: string, qDate: Option<string>,
    qCity: string, qCountry: string, qQuantity: int, qPaymentStatus: string)

  /** An order row of the screen. */
  datatype Order = Order(
    id: int, customerName: string, email: string, phone: string,
    amount: int, status: string, orderDate: Option<string>,
    location: string, items: int, paymentMethod: string)

  /** The mapping applied to every fetched quote: a missing or empty e-mail
      shows as "N/A", and the order date is the part of `q_date` before the
      first "T" (absent when `q_date` is). */
  function ToOrder(q: Quote): (o: Order)
    ensures o.id == q.qId && o.customerName == q.qName && o.status == q.qStatus
    ensures o.amount == q.qAmount
    ensures o.email != ""
    ensures q.qEmail.Some? && q.qEmail.value != "" ==> o.email == q.qEmail.value
    ensures q.qEmail.None? || q.qEmail.value == "" ==> o.email == "N/A"
    ensures o.orderDate.Some? <==> q.qDate.Some?
    ensures o.orderDate.Some? ==>
      var d := o.orderDate.value;
      && 'T' !in d && |d| <= |q.qDate.value| && d == q.qDate.value[..|d|]
      && (|d| == |q.qDate.value| || q.qDate.value[|d|] == 'T')
  {
    var date := if q.qDate.Some? then SplitHead(q.qDate.value, 'T'); Some(Split(q.qDate.value, 'T')[0]) else None;
    Order(q.qId, q.qName, OrElse(q.qEmail, "N/A"), q.qMobile, q.qAmount, q.qStatus,
          date, q.qCity + ", " + q.qCountry, q.qQuantity, q.qPaymentStatus)
  }

  function MapOrders(quotes: seq<Quote>): (r: seq<Order>)
    ensures |r| == |quotes|
    ensures forall i :: 0 <= i < |r| ==> r[i] == ToOrder(quotes[i])
  {
    seq(|quotes|, i requires 0 <= i < |quotes| => ToOrder(quotes[i]))
  }

  // ---------------------------------------------------------------------------
  // Filters
  // ---------------------------------------------------------------------------

  datatype Filters = Filters(searchTerm: string, statusFilter: string, fromDate: string, toDate: string)

  /** The filters on first render and after "Clear Filters". */
  const NO_FILTERS: Filters := Filters("", "All", "", "")

  /** The id's decimal text contains the raw term, or the lower-cased name or
      e-mail contains the lower-cased term. */
  predicate MatchesSearch(o: Order, term: string)
  {
    || Contains(IntToString(o.id), term)
    || Contains(Lower(o.customerName), Lower(term))
    || Contains(Lower(o.email), Lower(term))
  }

  predicate MatchesStatus(o: Order, statusFilter: string)
  {
    statusFilter == "All" || o.status == statusFilter
  }

  /** `(!from || date >= from) && (!to || date <= to)` with string comparison;
      a comparison with a missing date is false. */
  predicate MatchesDates(o: Order, from: string, to: string)
  {
    && (from == "" || (o.orderDate.Some? && !LexLess(o.orderDate.value, from)))
    && (to == "" || (o.orderDate.Some? && !LexLess(to, o.orderDate.value)))
  }

  predicate Matches(o: Order, f: Filters)
  {
    MatchesSearch(o, f.searchTerm) && MatchesStatus(o, f.statusFilter)
    && MatchesDates(o, f.fromDate, f.toDate)
  }

  /** The filtered list: the orders that match, in their original order. */
  function FilterOrders(orders: seq<Order>, f: Filters): (r: seq<Order>)
    ensures |r| <= |orders|
    ensures forall i :: 0 <= i < |r| ==> Matches(r[i], f) && r[i] in orders
    ensures forall i :: 0 <= i < |orders| && Matches(orders[i], f) ==> orders[i] in r
  {
    Filter(orders, (o: Order) => Matches(o, f))
  }

  /** The filtered list is an order-preserving subsequence of the orders. */
  lemma FilterOrdersIsSubsequence(orders: seq<Order>, f: Filters)
    ensures IsSubsequence(FilterOrders(orders, f), orders)
  {
    FilterIsSubsequence(orders, (o: Order) => Matches(o, f));
  }

  /** With no filters set every order is shown. */
  lemma NoFiltersKeepAll(orders: seq<Order>)
    ensures FilterOrders(orders, NO_FILTERS) == orders
  {
    forall i | 0 <= i < |orders|
      ensures Matches(orders[i], NO_FILTERS)
    {
      ContainsEmpty(IntToString(orders[i].id));
    }
    FilterAll(orders, (o: Order) => Matches(o, NO_FILTERS));
  }

  /** A status filter other than "All" keeps exactly the orders with that status. */
  lemma StatusFilterMeaning(o: Order, statusFilter: string)
    requires statusFilter != "All"
    ensures MatchesStatus(o, statusFilter) <==> o.status == statusFilter
  {
  }

  /** With both bounds set, the date filter keeps exactly the orders whose date
      lies between them, both ends included; an order without a date never
      passes a set bound. */
  lemma DateFilterMeaning(o: Order, from: string, to: string)
    requires from != "" && to != ""
    ensures MatchesDates(o, from, to) <==>
      && o.orderDate.Some?
      && (o.orderDate.value == from || LexLess(from, o.orderDate.value))
      && (o.orderDate.value == to || LexLess(o.orderDate.value, to))
  {
    if o.orderDate.Some? {
      var d := o.orderDate.value;
      LexLessTrichotomy(d, from);
      LexLessAsymmetric(d, from);
      LexLessIrreflexive(d);
      LexLessTrichotomy(d, to);
      LexLessAsymmetric(d, to);
    }
  }

  /** An order dated exactly on a bound passes that bound. */
  lemma DateBoundsInclusive(o: Order, day: string)
    requires o.orderDate == Some(day)
    ensures MatchesDates(o, day, day)
  {
    LexLessIrreflexive(day);
  }

  /** A set date bound drops every order without a date. */
  lemma MissingDateExcluded(o: Order, from: string, to: string)
    requires o.orderDate.None? && (from != "" || to != "")
    ensures !MatchesDates(o, from, to)
  {
  }

  // ---------------------------------------------------------------------------
  // Pagination
  // ---------------------------------------------------------------------------

  function TotalPages(filtered: seq<Order>): nat
  {
    Paging.PageCount(|filtered|, PAGE_SIZE)
  }

  /** `filtered.slice(startIndex, startIndex + pageSize)` with
      `startIndex = (currentPage - 1) * pageSize`. */
  function PageRows(filtered: seq<Order>, currentPage: int): (r: seq<Order>)
    requires currentPage >= 1
    ensures |r| <= PAGE_SIZE
    ensures r != [] <==> currentPage <= TotalPages(filtered)
    ensures forall j :: 0 <= j < |r| ==>
      (currentPage - 1) * PAGE_SIZE + j < |filtered| && r[j] == filtered[(currentPage - 1) * PAGE_SIZE + j]
  {
    var r := Paging.Slice(filtered, (currentPage - 1) * PAGE_SIZE, (currentPage - 1) * PAGE_SIZE + PAGE_SIZE);
    assert r == Paging.Page(filtered, currentPage, PAGE_SIZE);
    Paging.PageShape(filtered, currentPage, PAGE_SIZE);
    Paging.PageNonEmpty(filtered, currentPage, PAGE_SIZE);
    assert forall j :: 0 <= j < |r| ==> (currentPage - 1) * PAGE_SIZE + j < |filtered| && r[j] == filtered[(currentPage - 1) * PAGE_SIZE + j] by {
      forall j | 0 <= j < |r|
        ensures (currentPage - 1) * PAGE_SIZE + j < |filtered| && r[j] == filtered[(currentPage - 1) * PAGE_SIZE + j]
      {
        Paging.PageIndex(filtered, currentPage, PAGE_SIZE, j);
      }
    }
    r
  }

  /** Pages 1..totalPages laid end to end give the filtered list back. */
  lemma PagesPartitionFiltered(filtered: seq<Order>)
    ensures Paging.Pages(filtered, TotalPages(filtered), PAGE_SIZE) == filtered
  {
    Paging.PagesCoverList(filtered, PAGE_SIZE);
  }

  /** `Math.floor((currentPage - 1) / pageSize) * pageSize + 1`: the first
      button of the block of 20 that holds the current page. */
  function StartPage(currentPage: int): int
  {
    ((currentPage - 1) / PAGE_SIZE) * PAGE_SIZE + 1
  }

  /** `Math.min(startPage + pageSize - 1, totalPages)`. */
  function EndPage(currentPage: int, total: nat): int
  {
    Paging.Min(StartPage(currentPage) + PAGE_SIZE - 1, total)
  }

  /** For a current page inside 1..totalPages, the button window holds it, is
      at most 20 wide, and starts on a multiple of 20 plus one. */
  lemma WindowHoldsCurrentPage(currentPage: int, total: nat)
    requires 1 <= currentPage <= total
    ensures 1 <= StartPage(currentPage) <= currentPage <= EndPage(currentPage, total) <= total
    ensures EndPage(currentPage, total) - StartPage(currentPage) + 1 <= PAGE_SIZE
    ensures (StartPage(currentPage) - 1) % PAGE_SIZE == 0
  {
  }

  /** What the pagination bar offers: the numbered buttons in order and
      whether Previous and Next are disabled. */
  datatype PageBar = PageBar(buttons: seq<int>, prevDisabled: bool, nextDisabled: bool)

  /** The bar is rendered only when some order passes the filters; its buttons
      run from startPage to endPage (`Array.from` with a negative length gives
      no buttons). */
  function Bar(filtered: seq<Order>, currentPage: int): (r: Option<PageBar>)
    ensures r.Some? <==> |filtered| > 0
    ensures r.Some? ==> forall k :: 0 <= k < |r.value.buttons| ==>
      r.value.buttons[k] == StartPage(currentPage) + k
    ensures r.Some? && 1 <= currentPage <= TotalPages(filtered) ==>
      && currentPage in r.value.buttons
      && 1 <= |r.value.buttons| <= PAGE_SIZE
      && (forall k :: 0 <= k < |r.value.buttons| ==> 1 <= r.value.buttons[k] <= TotalPages(filtered))
  {
    if |filtered| == 0 then None
    else
      var total := TotalPages(filtered);
      var start := StartPage(currentPage);
      var count := EndPage(currentPage, total) - start + 1;
      var n: nat := if count < 0 then 0 else count;
      var buttons := seq(n, k requires 0 <= k < n => start + k);
      if 1 <= currentPage <= total then
        WindowHoldsCurrentPage(currentPage, total);
        assert buttons[currentPage - start] == currentPage;
        Some(PageBar(buttons, currentPage == 1, currentPage == total))
      else
        Some(PageBar(buttons, currentPage == 1, currentPage == total))
  }

  /** Previous: `Math.max(p - 1, 1)`. */
  function PrevPage(currentPage: int): int
  {
    if currentPage - 1 >= 1 then currentPage - 1 else 1
  }

  /** Next: `Math.min(p + 1, totalPages)`. */
  function NextPage(currentPage: int, total: nat): int
  {
    Paging.Min(currentPage + 1, total)
  }

  /** Previous and Next never leave 1..totalPages. */
  lemma PrevNextStayInRange(currentPage: int, total: nat)
    requires 1 <= currentPage <= total
    ensures 1 <= PrevPage(currentPage) <= total
    ensures 1 <= NextPage(currentPage, total) <= total
    ensures PrevPage(currentPage) == currentPage - 1 || currentPage == 1
    ensures NextPage(currentPage, total) == currentPage + 1 || currentPage == total
  {
  }

  // ---------------------------------------------------------------------------
  // Local updates and counters
  // ---------------------------------------------------------------------------

  /** `orders.map(o => o.id === orderId ? {...o, status: newStatus} : o)`. */
  function ChangeStatus(orders: seq<Order>, orderId: int, newStatus: string): (r: seq<Order>)
    ensures |r| == |orders|
    ensures forall i :: 0 <= i < |r| ==>
      r[i].status == (if orders[i].id == orderId then newStatus else orders[i].status)
    ensures forall i :: 0 <= i < |r| ==> r[i].(status := orders[i].status) == orders[i]
  {
    if |orders| == 0 then []
    else
      var head := if orders[0].id == orderId then orders[0].(status := newStatus) else orders[0];
      [head] + ChangeStatus(orders[1..], orderId, newStatus)
  }

  /** `prev.filter(o => o.id !== orderId)`. */
  function DeleteOrder(orders: seq<Order>, orderId: int): (r: seq<Order>)
    ensures forall i :: 0 <= i < |r| ==> r[i].id != orderId && r[i] in orders
    ensures forall i :: 0 <= i < |orders| && orders[i].id != orderId ==> orders[i] in r
  {
    Filter(orders, WithoutId(orderId))
  }

  function WithId(orderId: int): Order -> bool
  {
    Not(WithoutId(orderId))
  }

  function WithoutId(orderId: int): Order -> bool
  {
    (o: Order) => o.id != orderId
  }

  /** Deleting keeps the other orders in their order, and what it removes is
      exactly the orders with that id. */
  lemma DeleteOrderFacts(orders: seq<Order>, orderId: int)
    ensures IsSubsequence(DeleteOrder(orders, orderId), orders)
    ensures forall x ::
      Count(DeleteOrder(orders, orderId), x) + Count(Filter(orders, WithId(orderId)), x) == Count(orders, x)
  {
    FilterIsSubsequence(orders, WithoutId(orderId));
    forall x
      ensures Count(Filter(orders, WithoutId(orderId)), x) + Count(Filter(orders, WithId(orderId)), x)
        == Count(orders, x)
    {
      FilterPartition(orders, WithoutId(orderId), x);
    }
  }

  /** The statuses the "Pending" card counts. */
  predicate IsPendingStatus(status: string)
  {
    status == "Pending" || status == "active" || status == "pending"
  }

  function Pending(): Order -> bool
  {
    (o: Order) => IsPendingStatus(o.status)
  }

  function Confirmed(): Order -> bool
  {
    (o: Order) => o.status == "Confirmed"
  }

  /** The "Pending" card: zero exactly when no order has one of the three
      pending statuses, and all orders exactly when each has one. */
  function PendingCount(orders: seq<Order>): (n: nat)
    ensures n <= |orders|
    ensures n == 0 <==> forall i :: 0 <= i < |orders| ==> !IsPendingStatus(orders[i].status)
    ensures n == |orders| <==> forall i :: 0 <= i < |orders| ==> IsPendingStatus(orders[i].status)
    ensures n + |Filter(orders, Not(Pending()))| == |orders|
  {
    FilterLengthPartition(orders, Pending());
    FilterEmptyIff(orders, Pending());
    FilterKeepsAllIff(orders, Pending());
    |Filter(orders, Pending())|
  }

  /** The "Confirmed" card: the status must be exactly "Confirmed". */
  function ConfirmedCount(orders: seq<Order>): (n: nat)
    ensures n <= |orders|
    ensures n == 0 <==> forall i :: 0 <= i < |orders| ==> orders[i].status != "Confirmed"
    ensures n == |orders| <==> forall i :: 0 <= i < |orders| ==> orders[i].status == "Confirmed"
    ensures n + |Filter(orders, Not(Confirmed()))| == |orders|
  {
    FilterLengthPartition(orders, Confirmed());
    FilterEmptyIff(orders, Confirmed());
    FilterKeepsAllIff(orders, Confirmed());
    |Filter(orders, Confirmed())|
  }

  /** The "Total Revenue" card over integer amounts. */
  function Revenue(orders: seq<Order>): int
  {
    if |orders| == 0 then 0 else orders[0].amount + Revenue(orders[1..])
  }

  /** A status change keeps the number of orders and the revenue. */
  lemma {:induction false} ChangeStatusKeepsTotals(orders: seq<Order>, orderId: int, newStatus: string)
    ensures |ChangeStatus(orders, orderId, newStatus)| == |orders|
    ensures Revenue(ChangeStatus(orders, orderId, newStatus)) == Revenue(orders)
  {
    if |orders| > 0 {
      ChangeStatusKeepsTotals(orders[1..], orderId, newStatus);
    }
  }

  // ---------------------------------------------------------------------------
  // The screen as a state machine
  // ---------------------------------------------------------------------------

  datatype Screen = Screen(orders: seq<Order>, filters: Filters, filtered: seq<Order>, currentPage: int)

  /** The filter effect: recompute the filtered list and go back to page 1. */
  function Refilter(orders: seq<Order>, f: Filters): (s: Screen)
    ensures s.filtered == FilterOrders(orders, f) && s.currentPage == 1
  {
    Screen(orders, f, FilterOrders(orders, f), 1)
  }

  /** The screen after mounting and running the filter effect once. */
  const INITIAL: Screen := Refilter([], NO_FILTERS)

  datatype Event =
    | Fetched(reply: ListReply<Quote>)
    | FiltersChanged(f: Filters)
    | StatusChanged(orderId: int, newStatus: string, ack: AckReply)
    | DeleteRequested(orderId: int, confirmed: bool, ack: AckReply)
    | PreviousClicked
    | NextClicked
    | PageClicked(page: int)

  /** One user action or server reply, followed by the effects it triggers:
      a change of the orders or of the filters refilters and goes back to
      page 1, the pager moves only the page, and a failed or cancelled call
      changes nothing. Setting the filters to the values they already hold
      (`clearFilters` with no filter set) changes no state, so the filter
      effect does not run and the page stays. */
  function Step(s: Screen, e: Event): (t: Screen)
    ensures e.PreviousClicked? || e.NextClicked? || e.PageClicked? ==>
      t.orders == s.orders && t.filters == s.filters && t.filtered == s.filtered
    ensures e.FiltersChanged? && e.f != s.filters ==> t.orders == s.orders && t.filters == e.f && t.currentPage == 1
    ensures e.FiltersChanged? && e.f == s.filters ==> t == s
    ensures e.Fetched? && e.reply.ListRejected? ==> t == s
    ensures e.StatusChanged? && e.ack.Rejected? ==> t == s
    ensures e.DeleteRequested? && !(e.confirmed && e.ack.Resolved?) ==> t == s
    ensures t != s && !e.PreviousClicked? && !e.NextClicked? && !e.PageClicked? ==>
      t.filtered == FilterOrders(t.orders, t.filters) && t.currentPage == 1
  {
    match e
    case Fetched(reply) =>
      if reply.ListRejected? then s
      else Refilter(MapOrders(reply.list.GetOr([])), s.filters)
    case FiltersChanged(f) =>
      if f == s.filters then s else Refilter(s.orders, f)
    case StatusChanged(orderId, newStatus, reply) =>
      if reply.Rejected? then s
      else Refilter(ChangeStatus(s.orders, orderId, newStatus), s.filters)
    case DeleteRequested(orderId, confirmed, reply) =>
      if confirmed && reply.Resolved? then Refilter(DeleteOrder(s.orders, orderId), s.filters)
      else s
    case PreviousClicked =>
      if |s.filtered| > 0 then s.(currentPage := PrevPage(s.currentPage)) else s
    case NextClicked =>
      if |s.filtered| > 0 then s.(currentPage := NextPage(s.currentPage, TotalPages(s.filtered))) else s
    case PageClicked(page) =>
      var bar := Bar(s.filtered, s.currentPage);
      if bar.Some? && page in bar.value.buttons then s.(currentPage := page) else s
  }

  /** The filtered list is always the filter of the orders, and the current
      page is a real page (or page 1 of an empty list). */
  ghost predicate Valid(s: Screen)
  {
    && s.filtered == FilterOrders(s.orders, s.filters)
    && 1 <= s.currentPage
    && (s.currentPage <= TotalPages(s.filtered) || s.currentPage == 1)
  }

  lemma InitialValid()
    ensures Valid(INITIAL)
  {
  }

  /** Every action keeps the screen valid: the current page never leaves
      1..totalPages, and the shown list is always the filtered orders. */
  lemma StepPreservesValid(s: Screen, e: Event)
    requires Valid(s)
    ensures Valid(Step(s, e))
  {
    match e
    case PreviousClicked =>
    case NextClicked =>
      if |s.filtered| > 0 {
        var total := TotalPages(s.filtered);
        assert total >= 1;
        PrevNextStayInRange(s.currentPage, total);
      }
    case PageClicked(page) =>
      var bar := Bar(s.filtered, s.currentPage);
      if bar.Some? && page in bar.value.buttons {
        var total := TotalPages(s.filtered);
        assert total >= 1;
        var k :| 0 <= k < |bar.value.buttons| && bar.value.buttons[k] == page;
      }
    case _ =>
  }

  /** "Clear Filters" with no filter set leaves the screen as it is, on
      whatever page it shows; with some filter set it shows every order from
      page 1. */
  lemma ClearFiltersKeepsPage(s: Screen)
    requires Valid(s)
    ensures s.filters == NO_FILTERS ==> Step(s, FiltersChanged(NO_FILTERS)) == s
    ensures s.filters != NO_FILTERS ==>
      var t := Step(s, FiltersChanged(NO_FILTERS));
      t.filtered == s.orders && t.currentPage == 1
  {
    NoFiltersKeepAll(s.orders);
  }

  /** On a valid screen with orders to show, the current page has a button
      and its rows are a non-empty stretch of the filtered list. */
  lemma ValidScreenShowsCurrentPage(s: Screen)
    requires Valid(s) && |s.filtered| > 0
    ensures Bar(s.filtered, s.currentPage).Some?
    ensures s.currentPage in Bar(s.filtered, s.currentPage).value.buttons
    ensures PageRows(s.filtered, s.currentPage) != []
  {
  }
}

=== FILE: paging.dfy ===
/** Client-side pagination of an already filtered list: `Array.prototype.slice`
    with its clamping of out-of-range and negative arguments, `Math.ceil(n / size)`
    pages, and the fact that the pages laid end to end give the list back. */
module Paging {

  /** Where `slice` starts or stops for an argument `x` on a list of length
      `len`: a negative argument counts back from the end, and the result is
      clamped to [0, len]. */
  function SliceIndex(len: nat, x: int): (k: nat)
    ensures k <= len
    ensures 0 <= x <= len ==> k == x
    ensures x > len ==> k == len
    ensures x < 0 ==> k == (if len + x < 0 then 0 else len + x)
  {
    if x < 0 then (if len + x < 0 then 0 else len + x)
    else if x > len then len
    else x
  }

  /** `s.slice(start, end)`. */
  function Slice<T>(s: seq<T>, start: int, end: int): seq<T>
  {
    var a := SliceIndex(|s|, start);
    var b := SliceIndex(|s|, end);
    if a < b then s[a..b] else []
  }

  function Min(a: int, b: int): int { if a <= b then a else b }

  /** `Math.ceil(n / size)`: the fewest pages of `size` entries that hold `n` entries. */
  function PageCount(n: nat, size: nat): (c: nat)
    requires size > 0
    ensures c * size >= n
    ensures c == 0 || (c - 1) * size < n
    ensures c == 0 <==> n == 0
  {
    var c := (n + size - 1) / size;
    assert c * size + (n + size - 1) % size == n + size - 1;
    c
  }

  /** Page `p` (counting from 1) of `size` entries: `s.slice((p - 1) * size, (p - 1) * size + size)`. */
  function Page<T>(s: seq<T>, p: int, size: nat): seq<T>
    requires size > 0
  {
    Slice(s, (p - 1) * size, (p - 1) * size + size)
  }

  /** For p >= 1 a page is the stretch of at most `size` entries that starts at
      (p - 1) * size, cut off at the end of the list. */
  lemma PageShape<T>(s: seq<T>, p: int, size: nat)
    requires size > 0 && p >= 1
    ensures (p - 1) * size <= |s| ==> Page(s, p, size) == s[(p - 1) * size..Min(p * size, |s|)]
    ensures (p - 1) * size > |s| ==> Page(s, p, size) == []
    ensures |Page(s, p, size)| <= size
  {
    assert (p - 1) * size + size == p * size;
    assert (p - 1) * size >= 0;
  }

  lemma MulMono(a: int, b: int, size: nat)
    requires a <= b
    ensures a * size <= b * size
  {
  }

  /** A page number p >= 1 starts inside the list exactly when p <= PageCount. */
  lemma StartInside(n: nat, p: int, size: nat)
    requires size > 0 && p >= 1
    ensures (p - 1) * size < n <==> p <= PageCount(n, size)
  {
    var c := PageCount(n, size);
    if p <= c {
      MulMono(p - 1, c - 1, size);
    } else {
      MulMono(c, p - 1, size);
    }
  }

  /** A page has entries exactly when its number lies in 1..PageCount. */
  lemma PageNonEmpty<T>(s: seq<T>, p: int, size: nat)
    requires size > 0 && p >= 1
    ensures Page(s, p, size) != [] <==> p <= PageCount(|s|, size)
  {
    PageShape(s, p, size);
    StartInside(|s|, p, size);
    assert (p - 1) * size < p * size;
  }

  /** Entry j of page p is entry (p - 1) * size + j of the list. */
  lemma PageIndex<T>(s: seq<T>, p: int, size: nat, j: int)
    requires size > 0 && p >= 1
    requires 0 <= j < |Page(s, p, size)|
    ensures (p - 1) * size + j < |s|
    ensures Page(s, p, size)[j] == s[(p - 1) * size + j]
  {
    PageShape(s, p, size);
    MulSucc(p, size);
    var a := (p - 1) * size;
    assert a <= |s|;
    assert Page(s, p, size) == s[a..Min(p * size, |s|)];
  }

  /** Every entry of the list shows on page i / size + 1, at position i % size. */
  lemma EntryOnPage<T>(s: seq<T>, i: int, size: nat)
    requires size > 0 && 0 <= i < |s|
    ensures 1 <= i / size + 1 <= PageCount(|s|, size)
    ensures i % size < |Page(s, i / size + 1, size)|
    ensures Page(s, i / size + 1, size)[i % size] == s[i]
  {
    var p := i / size + 1;
    assert (p - 1) * size + i % size == i;
    PageShape(s, p, size);
    PageNonEmpty(s, p, size);
  }

  /** Pages 1..k laid end to end. */
  function Pages<T>(s: seq<T>, k: nat, size: nat): seq<T>
    requires size > 0
  {
    if k == 0 then [] else Pages(s, k - 1, size) + Page(s, k, size)
  }

  /** The first k pages make up the first k * size entries. */
  lemma {:induction false} PagesPrefix<T>(s: seq<T>, k: nat, size: nat)
    requires size > 0
    ensures Pages(s, k, size) == s[..Min(k * size, |s|)]
  {
    if k > 0 {
      MulSucc(k, size);
      PagesPrefix(s, k - 1, size);
      PageShape(s, k, size);
      PrefixThenStretch(s, (k - 1) * size, k * size);
      assert Pages(s, k, size) == Pages(s, k - 1, size) + Page(s, k, size);
    }
  }

  lemma MulSucc(k: nat, size: nat)
    requires k > 0
    ensures k * size == (k - 1) * size + size && (k - 1) * size >= 0
  {
  }

  /** The entries before `a`, then those from `a` to `b`, are those before `b`
      (each bound cut off at the end of the list). */
  lemma PrefixThenStretch<T>(s: seq<T>, a: nat, b: nat)
    requires a <= b
    ensures a <= |s| ==> s[..Min(a, |s|)] + s[a..Min(b, |s|)] == s[..Min(b, |s|)]
    ensures a > |s| ==> s[..Min(a, |s|)] == s[..Min(b, |s|)]
  {
  }

  /** The pages 1..PageCount, in order, are exactly the list: nothing is lost,
      repeated or reordered. */
  lemma PagesCoverList<T>(s: seq<T>, size: nat)
    requires size > 0
    ensures Pages(s, PageCount(|s|, size), size) == s
  {
    PagesPrefix(s, PageCount(|s|, size), size);
  }
}

=== FILE: product_form.dfy ===
/** What the two robot catalogue screens share: the product records the list
    endpoint returns, the card each record is mapped to, the text form (a map
    from field key to the typed text), the image previews of the form, and the
    multipart entries the previews turn into. */
module ProductForm {
  import opened Text
  import opened Js
  import opened Lists
  import opened Multipart

  /** Every request of the catalogue goes to this API root. */
  const API_BASE: string := BASE_URL + "/robotics"

  // ---------------------------------------------------------------------------
  // Records and cards
  // ---------------------------------------------------------------------------

  datatype ProductImage = ProductImage(piId: int, piImage: Option<string>)

  /** A product as the list endpoint sends it: its id, its scalar fields by
      name (`p_name`, `p_price`, `p_buy_rent`, ...) and its images. */
  datatype Product = Product(pId: int, fields: map<string, Scalar>, images: seq<ProductImage>)

  /** `record[key] || ""` shown as text. */
  function RecordText(p: Product, key: string): (r: string)
    ensures r == "" <==> key !in p.fields || !Truthy(p.fields[key])
  {
    if key in p.fields && Truthy(p.fields[key]) then
      var v := p.fields[key];
      assert v.Num? ==> ScalarText(v) != "";
      ScalarText(v)
    else ""
  }

  /** A field read without a fallback: absent stays absent. */
  function RecordField(p: Product, key: string): Option<string>
  {
    if key in p.fields then Some(ScalarText(p.fields[key])) else None
  }

  /** The card of a product in the grid. */
  datatype Robot = Robot(
    product: Product, name: Option<string>, price: Option<string>, currency: string,
    category: string, industries: seq<string>, image: Option<string>)

  /** The card mapping: the name and price as sent, a missing currency as "",
      the category read from `categoryKey` with "pricing" as fallback, no
      industries, and the first image's path prefixed with the server origin. */
  function ToRobot(p: Product, categoryKey: string): (r: Robot)
    ensures r.product == p && r.name == RecordField(p, "p_name") && r.industries == []
    ensures r.category != ""
    ensures RecordText(p, categoryKey) != "" ==> r.category == RecordText(p, categoryKey)
    ensures RecordText(p, categoryKey) == "" ==> r.category == "pricing"
    ensures r.image.Some? <==> |p.images| > 0 && p.images[0].piImage.Some? && p.images[0].piImage.value != ""
    ensures r.image.Some? ==> r.image.value == BASE_URL + p.images[0].piImage.value
  {
    var cat := RecordText(p, categoryKey);
    Robot(p, RecordField(p, "p_name"), RecordField(p, "p_price"), RecordText(p, "currency"),
          if cat != "" then cat else "pricing", [],
          if |p.images| > 0 && p.images[0].piImage.Some? && p.images[0].piImage.value != ""
          then Some(BASE_URL + p.images[0].piImage.value) else None)
  }

  /** `fetchRobots`: the list when the reply carries an array, otherwise (a
      missing list or a failed request) nothing; the `result` flag is ignored. */
  function FetchedRobots(reply: ListReply<Product>, categoryKey: string): (r: seq<Robot>)
    ensures reply.ListRejected? ==> r == []
    ensures reply.ListResolved? && reply.list.Some? ==>
      |r| == |reply.list.value| && forall i :: 0 <= i < |r| ==> r[i] == ToRobot(reply.list.value[i], categoryKey)
    ensures reply.ListResolved? && reply.list.None? ==> r == []
  {
    if reply.ListResolved? && reply.list.Some? then
      var list := reply.list.value;
      seq(|list|, i requires 0 <= i < |list| => ToRobot(list[i], categoryKey))
    else []
  }

  /** The grid search: the lower-cased name contains the lower-cased term, or
      some industry does. */
  predicate MatchesSearch(r: Robot, term: string)
  {
    || (r.name.Some? && Contains(Lower(r.name.value), Lower(term)))
    || (exists i :: 0 <= i < |r.industries| && Contains(Lower(r.industries[i]), Lower(term)))
  }

  /** Since the mapping gives every card an empty industry list, the search
      reads only the name, and a product without a name is never listed, not
      even for an empty search. */
  lemma SearchReadsOnlyName(p: Product, categoryKey: string, term: string)
    ensures MatchesSearch(ToRobot(p, categoryKey), term) <==>
      "p_name" in p.fields && Contains(Lower(ScalarText(p.fields["p_name"])), Lower(term))
  {
  }

  lemma NamedProductsMatchEmptySearch(p: Product, categoryKey: string)
    requires "p_name" in p.fields
    ensures MatchesSearch(ToRobot(p, categoryKey), "")
  {
    ContainsEmpty(Lower(ScalarText(p.fields["p_name"])));
  }

  // ---------------------------------------------------------------------------
  // The text form
  // ---------------------------------------------------------------------------

  /** `append(key, (data[key] || "").split(",").map(s => s.trim()).join(","))`. */
  function ListEntry(form: Form, key: string): (e: Entry)
    ensures e.key == key && e.value.TextValue?
    ensures Split(e.value.text, ',') == TrimAll(Split(Field(form, key), ','))
  {
    Entry(key, TextValue(NormalizeList(Field(form, key))))
  }

  /** `append(key, String(parseFloat(data[key]) || 0))`. */
  function NumberEntry(form: Form, key: string): Entry
  {
    Entry(key, ParsedNumber(Field(form, key)))
  }

  /** `if (p_id) append("p_id", String(p_id))` with the id of the product being
      edited, if any. */
  function IdEntry(editing: Option<Product>): (r: seq<Entry>)
    ensures |r| <= 1
    ensures |r| == 1 <==> editing.Some? && editing.value.pId != 0
    ensures |r| == 1 ==> r[0] == Entry("p_id", TextValue(IntToString(editing.value.pId)))
  {
    if editing.Some? && editing.value.pId != 0 then [Entry("p_id", TextValue(IntToString(editing.value.pId)))]
    else []
  }

  // ---------------------------------------------------------------------------
  // Image previews
  // ---------------------------------------------------------------------------

  /** A preview: the stored image's id (none for a new file), the file to
      upload, and whether it was picked in this form. */
  datatype Preview = Preview(id: Option<int>, file: Option<FileRef>, isNew: bool)

  /** `handleImageChange`: every picked file becomes a new preview at the end. */
  function AddFiles(previews: seq<Preview>, files: seq<FileRef>): (r: seq<Preview>)
    ensures |r| == |previews| + |files|
    ensures r[..|previews|] == previews
    ensures forall i :: 0 <= i < |files| ==> r[|previews| + i] == Preview(None, Some(files[i]), true)
  {
    previews + seq(|files|, i requires 0 <= i < |files| => Preview(None, Some(files[i]), true))
  }

  /** The file name an existing image is downloaded under:
      `image_<pi_id>_<index>.jpg`. */
  function DownloadName(piId: int, index: nat): string
  {
    "image_" + IntToString(piId) + "_" + NatToString(index) + ".jpg"
  }

  /** The previews of the edit form: every stored image, downloaded as a file,
      not new. */
  function EditPreviews(images: seq<ProductImage>): (r: seq<Preview>)
    ensures |r| == |images|
    ensures forall i :: 0 <= i < |r| ==>
      r[i] == Preview(Some(images[i].piId), Some(FileRef(DownloadName(images[i].piId, i))), false)
  {
    seq(|images|, i requires 0 <= i < |images| =>
      Preview(Some(images[i].piId), Some(FileRef(DownloadName(images[i].piId, i))), false))
  }

  /** The entry a preview contributes: a new file goes under "image", a kept
      image under its own id, anything else is skipped. */
  function ImageEntry(pv: Preview): (r: seq<Entry>)
    ensures |r| <= 1
    ensures pv.isNew && pv.file.Some? ==> r == [Entry("image", FileValue(pv.file.value))]
    ensures !pv.isNew && IdTruthy(pv.id) && pv.file.Some? ==>
      r == [Entry(IntToString(pv.id.value), FileValue(pv.file.value))]
    ensures pv.file.None? || (!pv.isNew && !IdTruthy(pv.id)) ==> r == []
  {
    if pv.isNew && pv.file.Some? then [Entry("image", FileValue(pv.file.value))]
    else if IdTruthy(pv.id) && pv.file.Some? then [Entry(IntToString(pv.id.value), FileValue(pv.file.value))]
    else []
  }

  /** `imagePreviews.forEach(...)`: the image entries, in preview order. */
  function ImageEntries(previews: seq<Preview>): seq<Entry>
  {
    if |previews| == 0 then [] else ImageEntry(previews[0]) + ImageEntries(previews[1..])
  }

  lemma {:induction false} ImageEntriesAppend(a: seq<Preview>, b: seq<Preview>)
    ensures ImageEntries(a + b) == ImageEntries(a) + ImageEntries(b)
  {
    if |a| == 0 {
      assert a + b == b;
    } else {
      assert (a + b)[1..] == a[1..] + b;
      ImageEntriesAppend(a[1..], b);
    }
  }

  /** The entries of freshly picked files: one "image" entry per file. */
  function NewFileEntries(files: seq<FileRef>): (r: seq<Entry>)
    ensures |r| == |files|
    ensures forall i :: 0 <= i < |r| ==> r[i] == Entry("image", FileValue(files[i]))
  {
    seq(|files|, i requires 0 <= i < |files| => Entry("image", FileValue(files[i])))
  }

  lemma {:induction false} NewPreviewsEntries(files: seq<FileRef>)
    ensures ImageEntries(seq(|files|, i requires 0 <= i < |files| => Preview(None, Some(files[i]), true)))
      == NewFileEntries(files)
  {
    var ps := seq(|files|, i requires 0 <= i < |files| => Preview(None, Some(files[i]), true));
    if |files| > 0 {
      var tail := seq(|files| - 1, i requires 0 <= i < |files| - 1 => Preview(None, Some(files[1..][i]), true));
      assert ps[1..] == tail;
      NewPreviewsEntries(files[1..]);
      assert NewFileEntries(files) == [Entry("image", FileValue(files[0]))] + NewFileEntries(files[1..]);
    }
  }

  /** Picking files adds exactly one "image" entry per file at the end of the
      upload, after the entries of the previews already there. */
  lemma AddFilesUploadsEach(previews: seq<Preview>, files: seq<FileRef>)
    ensures ImageEntries(AddFiles(previews, files)) == ImageEntries(previews) + NewFileEntries(files)
  {
    var picked := seq(|files|, i requires 0 <= i < |files| => Preview(None, Some(files[i]), true));
    assert AddFiles(previews, files) == previews + picked;
    ImageEntriesAppend(previews, picked);
    NewPreviewsEntries(files);
  }

  /** The number of "image" entries is the number of new previews carrying a
      file. */
  lemma {:induction false} ImageCountIsNewFiles(previews: seq<Preview>)
    ensures CountKey(ImageEntries(previews), "image")
      == |Filter(previews, (pv: Preview) => pv.isNew && pv.file.Some?)|
  {
    if |previews| > 0 {
      ImageCountIsNewFiles(previews[1..]);
      CountKeyAppend(ImageEntry(previews[0]), ImageEntries(previews[1..]), "image");
      var pv := previews[0];
      if !(pv.isNew && pv.file.Some?) && IdTruthy(pv.id) && pv.file.Some? {
        var key := IntToString(pv.id.value);
        assert key != "image" by {
          assert key[0] == '-' || IsDigit(key[0]) by {
            if pv.id.value >= 0 { assert AllDigits(key); }
          }
        }
      }
    }
  }

  /** Re-saving a product without picking files uploads no "image" entry: the
      stored images go back under their own ids. */
  lemma EditPreviewsUploadNoNewImage(images: seq<ProductImage>)
    ensures CountKey(ImageEntries(EditPreviews(images)), "image") == 0
  {
    var ps := EditPreviews(images);
    ImageCountIsNewFiles(ps);
    FilterNone(ps, (pv: Preview) => pv.isNew && pv.file.Some?);
  }

  lemma {:induction false} FilterNone<T>(s: seq<T>, p: T -> bool)
    requires forall i :: 0 <= i < |s| ==> !p(s[i])
    ensures Filter(s, p) == []
  {
    if |s| > 0 {
      FilterNone(s[1..], p);
    }
  }

  /** `removeImage(index)` followed by the upload: the removed preview's entry
      is gone and the others keep their order. */
  lemma RemoveImageDropsItsEntry(previews: seq<Preview>, index: int)
    requires 0 <= index < |previews|
    ensures ImageEntries(RemoveAt(previews, index))
      == ImageEntries(previews[..index]) + ImageEntries(previews[index + 1..])
  {
    assert RemoveAt(previews, index) == previews[..index] + previews[index + 1..];
    ImageEntriesAppend(previews[..index], previews[index + 1..]);
  }

  // ---------------------------------------------------------------------------
  // Saving
  // ---------------------------------------------------------------------------

  /** What a save does: report the validation errors (no request), or send
      the body to an endpoint. */
  datatype SaveOutcome = Invalid(errors: set<string>) | Send(endpoint: string, body: seq<Entry>)

  /** Editing posts to the edit endpoint, adding to the add endpoint. */
  function SaveEndpoint(editing: Option<Product>): string
  {
    if editing.Some? then API_BASE + "/edit/product" else API_BASE + "/add/product"
  }
}

=== FILE: rent_quotes.dfy ===
/** The rent-quote inbox: quotes fetched from the server, narrowed by a
    case-insensitive search, shown 20 to a page with a compact pagination bar
    (first page, last page, the current page and its neighbours, an ellipsis
    two pages away), and deleted on the server followed by a refetch. */
module RentQuotes {
  import opened Text
  import opened Js
  import opened Lists
  import Paging

  const PER_PAGE: nat := 20

  /** A rent quote as the server sends it; every field the search reads may be
      missing, and the mobile number may come as a number or a string. */
  datatype RentQuote = RentQuote(
    id: int, name: Option<string>, email: Option<string>,
    mobile: Option<Scalar>, message: Option<string>)

  /** `x?.toLowerCase() || ""`. */
  function LowerOr(x: Option<string>): (r: string)
    ensures x.None? ==> r == ""
    ensures x.Some? ==> r == Lower(x.value)
  {
    if x.Some? then Lower(x.value) else ""
  }

  /** `x?.toString() || ""`: the mobile number is searched as written, not lower-cased. */
  function MobileText(x: Option<Scalar>): string
  {
    if x.Some? then ScalarText(x.value) else ""
  }

  /** Name, e-mail or message contains the lower-cased term ignoring case, or
      the mobile number contains it literally. */
  predicate MatchesSearch(c: RentQuote, term: string)
  {
    var search := Lower(term);
    || Contains(LowerOr(c.name), search)
    || Contains(LowerOr(c.email), search)
    || Contains(MobileText(c.mobile), search)
    || Contains(LowerOr(c.message), search)
  }

  function Matching(term: string): RentQuote -> bool
  {
    (c: RentQuote) => MatchesSearch(c, term)
  }

  /** The quotes shown: `Lists.Filter` specialised to quotes and this
      screen's search. */
  function Filtered(contacts: seq<RentQuote>, term: string): (r: seq<RentQuote>)
    ensures |r| <= |contacts|
    ensures forall i :: 0 <= i < |r| ==> MatchesSearch(r[i], term) && r[i] in contacts
    ensures forall i :: 0 <= i < |contacts| && MatchesSearch(contacts[i], term) ==> contacts[i] in r
  {
    Filter(contacts, Matching(term))
  }

  /** The quotes shown keep their original order. */
  lemma FilteredIsSubsequence(contacts: seq<RentQuote>, term: string)
    ensures IsSubsequence(Filtered(contacts, term), contacts)
  {
    FilterIsSubsequence(contacts, Matching(term));
  }

  /** An empty search shows every quote. */
  lemma EmptySearchKeepsAll(contacts: seq<RentQuote>)
    ensures Filtered(contacts, "") == contacts
  {
    forall i | 0 <= i < |contacts|
      ensures MatchesSearch(contacts[i], "")
    {
      ContainsEmpty(LowerOr(contacts[i].name));
    }
    FilterAll(contacts, Matching(""));
  }

  /** The search ignores the case of the term: a term and its lower-cased form
      select the same quotes. */
  lemma SearchIgnoresTermCase(c: RentQuote, term: string)
    ensures MatchesSearch(c, term) == MatchesSearch(c, Lower(term))
  {
    LowerIdempotent(term);
  }

  /** A quote whose name contains the term, in any mix of upper and lower case,
      is found. */
  lemma NameMatchFound(c: RentQuote, before: string, term: string, after: string)
    requires c.name == Some(before + term + after)
    ensures MatchesSearch(c, term)
  {
    LowerAppend(before + term, after);
    LowerAppend(before, term);
    ContainsInfix(Lower(before), Lower(term), Lower(after), Lower(term));
  }

  // ---------------------------------------------------------------------------
  // The pagination bar
  // ---------------------------------------------------------------------------

  function TotalPages(filtered: seq<RentQuote>): nat
  {
    Paging.PageCount(|filtered|, PER_PAGE)
  }

  /** `filtered.slice(currentPage * 20 - 20, currentPage * 20)`. */
  function PageRows(filtered: seq<RentQuote>, currentPage: int): (r: seq<RentQuote>)
    requires currentPage >= 1
    ensures |r| <= PER_PAGE
    ensures r != [] <==> currentPage <= TotalPages(filtered)
    ensures forall j :: 0 <= j < |r| ==>
      (currentPage - 1) * PER_PAGE + j < |filtered| && r[j] == filtered[(currentPage - 1) * PER_PAGE + j]
  {
    var r := Paging.Slice(filtered, currentPage * PER_PAGE - PER_PAGE, currentPage * PER_PAGE);
    assert r == Paging.Page(filtered, currentPage, PER_PAGE);
    Paging.PageShape(filtered, currentPage, PER_PAGE);
    Paging.PageNonEmpty(filtered, currentPage, PER_PAGE);
    assert forall j :: 0 <= j < |r| ==> (currentPage - 1) * PER_PAGE + j < |filtered| && r[j] == filtered[(currentPage - 1) * PER_PAGE + j] by {
      forall j | 0 <= j < |r|
        ensures (currentPage - 1) * PER_PAGE + j < |filtered| && r[j] == filtered[(currentPage - 1) * PER_PAGE + j]
      {
        Paging.PageIndex(filtered, currentPage, PER_PAGE, j);
      }
    }
    r
  }

  /** Page `k` gets a numbered button when it is the first, the last, or within
      one of the current page. */
  predicate HasButton(k: int, currentPage: int, total: int)
  {
    k == 1 || k == total || (currentPage - 1 <= k <= currentPage + 1)
  }

  /** Page `k` is drawn as "..." when it has no button and lies exactly two
      pages from the current one. */
  predicate HasEllipsis(k: int, currentPage: int, total: int)
  {
    !HasButton(k, currentPage, total) && (k == currentPage - 2 || k == currentPage + 2)
  }

  function ButtonRule(currentPage: int, total: int): int -> bool
  {
    (k: int) => HasButton(k, currentPage, total)
  }

  /** The numbered buttons, in page order. */
  function Buttons(currentPage: int, total: int): (r: seq<int>)
    ensures forall i :: 0 <= i < |r| ==> 1 <= r[i] <= total && HasButton(r[i], currentPage, total)
  {
    Filter(Range(total), ButtonRule(currentPage, total))
  }

  /** A page has a button exactly when it is one of 1..total and passes the
      button rule. */
  lemma ButtonsExactly(k: int, currentPage: int, total: int)
    ensures k in Buttons(currentPage, total) <==> 1 <= k <= total && HasButton(k, currentPage, total)
  {
    if 1 <= k <= total && HasButton(k, currentPage, total) {
      assert Range(total)[k - 1] == k;
    }
  }

  /** The bar: shown only when there is more than one page. */
  datatype Bar = Bar(buttons: seq<int>, prevDisabled: bool, nextDisabled: bool)

  function PageBar(filtered: seq<RentQuote>, currentPage: int): (r: Option<Bar>)
    ensures r.Some? <==> TotalPages(filtered) > 1
    ensures r.Some? ==> r.value.buttons == Buttons(currentPage, TotalPages(filtered))
    ensures r.Some? ==> (r.value.prevDisabled <==> currentPage == 1)
    ensures r.Some? ==> (r.value.nextDisabled <==> currentPage == TotalPages(filtered))
  {
    var total := TotalPages(filtered);
    if total > 1 then Some(Bar(Buttons(currentPage, total), currentPage == 1, currentPage == total))
    else None
  }

  /** The bar always offers the first and last page and, when the current page
      is a real page, a button for it; the buttons rise strictly and number at
      most five. */
  lemma ButtonsShape(currentPage: int, total: int)
    requires total >= 1
    ensures 1 in Buttons(currentPage, total) && total in Buttons(currentPage, total)
    ensures 1 <= currentPage <= total ==> currentPage in Buttons(currentPage, total)
    ensures Increasing(Buttons(currentPage, total))
    ensures |Buttons(currentPage, total)| <= 5
  {
    ButtonsExactly(1, currentPage, total);
    ButtonsExactly(total, currentPage, total);
    ButtonsExactly(currentPage, currentPage, total);
    ButtonsFew(currentPage, total);
  }

  /** The buttons rise strictly, and all are among five candidates. */
  lemma ButtonsFew(currentPage: int, total: int)
    ensures Increasing(Buttons(currentPage, total))
    ensures |Buttons(currentPage, total)| <= 5
  {
    var b := Buttons(currentPage, total);
    FilterIncreasing(Range(total), ButtonRule(currentPage, total));
    var S := {1, total, currentPage - 1, currentPage, currentPage + 1};
    AtMostFive(1, total, currentPage - 1, currentPage, currentPage + 1);
    IncreasingWithin(b, S);
  }

  lemma AtMostFive(a: int, b: int, c: int, d: int, e: int)
    ensures |{a, b, c, d, e}| <= 5
  {
    assert {a, b, c, d, e} == {a} + {b} + {c} + {d} + {e};
  }

  /** An ellipsis only ever stands for an inner page, and every page without a
      button is separated from the current page by an ellipsis: it lies at or
      beyond the "..." on its side. */
  lemma EllipsisMarksHiddenPages(k: int, currentPage: int, total: int)
    requires 1 <= currentPage <= total && 1 <= k <= total
    ensures HasEllipsis(k, currentPage, total) ==> 1 < k < total
    ensures !HasButton(k, currentPage, total) && k < currentPage ==>
      HasEllipsis(currentPage - 2, currentPage, total) && k <= currentPage - 2
    ensures !HasButton(k, currentPage, total) && k > currentPage ==>
      HasEllipsis(currentPage + 2, currentPage, total) && currentPage + 2 <= k
  {
  }

  // ---------------------------------------------------------------------------
  // The screen
  // ---------------------------------------------------------------------------

  datatype Screen = Screen(contacts: seq<RentQuote>, searchTerm: string, currentPage: int)

  const INITIAL: Screen := Screen([], "", 1)

  datatype Event =
    | Fetched(reply: ListReply<RentQuote>)
    | SearchEdited(term: string)
    | PreviousClicked
    | NextClicked
    | PageClicked(page: int)
      /** A delete: whether the dialog was confirmed, the server's answer, and
          the reply of the refetch that a successful delete triggers. */
    | DeleteRequested(confirmed: bool, ack: AckReply, refetch: ListReply<RentQuote>)

  /** The screen as written: the current page is reset only by the search box,
      so a fetch or a delete changes the quotes under an unchanged page. */
  function Step(s: Screen, e: Event): (t: Screen)
    ensures !e.Fetched? && !e.DeleteRequested? ==> t.contacts == s.contacts
    ensures !e.SearchEdited? ==> t.searchTerm == s.searchTerm
    ensures e.SearchEdited? ==> t.searchTerm == e.term && t.currentPage == 1
    ensures e.Fetched? || e.DeleteRequested? ==> t.currentPage == s.currentPage
    ensures e.DeleteRequested? && !(e.confirmed && e.ack.Succeeded()) ==> t == s
  {
    var filtered := Filtered(s.contacts, s.searchTerm);
    var total := TotalPages(filtered);
    match e
    case Fetched(reply) =>
      s.(contacts := ApplyListReply(s.contacts, reply))
    case SearchEdited(term) =>
      s.(searchTerm := term, currentPage := 1)
    case PreviousClicked =>
      if total > 1 && s.currentPage > 1 then s.(currentPage := s.currentPage - 1) else s
    case NextClicked =>
      if total > 1 && s.currentPage < total then s.(currentPage := s.currentPage + 1) else s
    case PageClicked(page) =>
      if total > 1 && page in Buttons(s.currentPage, total) then s.(currentPage := page) else s
    case DeleteRequested(confirmed, ack, refetch) =>
      if confirmed && ack.Succeeded() then s.(contacts := ApplyListReply(s.contacts, refetch)) else s
  }

  /** The current page is a page of the filtered list (or page 1 of an empty one). */
  ghost predicate Valid(s: Screen)
  {
    var total := TotalPages(Filtered(s.contacts, s.searchTerm));
    1 <= s.currentPage && (s.currentPage <= total || s.currentPage == 1)
  }

  /** As written, deleting the only quote on the last page strands the screen:
      the refetch leaves the current page past the end and the table empty, and
      when that page was page 2 the pagination bar disappears too, so the
      remaining quotes cannot be reached without touching the search box. */
  lemma DeleteCanStrandPage(s: Screen, survivors: seq<RentQuote>)
    requires s.currentPage >= 2 && s.currentPage == TotalPages(Filtered(s.contacts, s.searchTerm))
    requires |Filtered(survivors, s.searchTerm)| == (s.currentPage - 1) * PER_PAGE
    ensures var after := Step(s, DeleteRequested(true, Resolved(true), ListResolved(true, Some(survivors))));
      && Valid(s)
      && !Valid(after)
      && after.contacts == survivors && after.currentPage == s.currentPage
      && PageRows(Filtered(after.contacts, after.searchTerm), after.currentPage) == []
      && (s.currentPage == 2 ==> PageBar(Filtered(after.contacts, after.searchTerm), after.currentPage).None?)
  {
    var p := s.currentPage;
    var c := Paging.PageCount((p - 1) * PER_PAGE, PER_PAGE);
    Paging.MulMono(p - 1, c, PER_PAGE);
    if c < p - 1 {
      Paging.MulMono(c, p - 2, PER_PAGE);
    }
    assert c == p - 1;
  }

  /** The page a refetch should leave: the current page when it still exists,
      otherwise the last page (page 1 when nothing is left). */
  function ClampPage(currentPage: int, total: nat): (p: int)
    requires currentPage >= 1
    ensures 1 <= p && (p <= total || p == 1)
    ensures 1 <= currentPage <= total ==> p == currentPage
  {
    if currentPage <= total then currentPage else if total == 0 then 1 else total
  }

  /** The screen with the page clamped after every change of the quotes: the
      same quotes and search as the screen as written, and a page that still
      exists, unchanged whenever it does. */
  function StepClamped(s: Screen, e: Event): (t: Screen)
    requires s.currentPage >= 1
    ensures t.contacts == Step(s, e).contacts && t.searchTerm == Step(s, e).searchTerm
    ensures 1 <= t.currentPage
    ensures e.Fetched? || e.DeleteRequested? ==>
      var total := TotalPages(Filtered(t.contacts, t.searchTerm));
      && (t.currentPage <= total || t.currentPage == 1)
      && (s.currentPage <= total ==> t.currentPage == s.currentPage)
  {
    var t := Step(s, e);
    if e.Fetched? || e.DeleteRequested? then
      t.(currentPage := ClampPage(t.currentPage, TotalPages(Filtered(t.contacts, t.searchTerm))))
    else t
  }

  lemma InitialValid()
    ensures Valid(INITIAL)
  {
  }

  /** With the clamp every action keeps the current page a real page. */
  lemma StepClampedPreservesValid(s: Screen, e: Event)
    requires Valid(s)
    ensures Valid(StepClamped(s, e))
  {
    var total := TotalPages(Filtered(s.contacts, s.searchTerm));
    match e
    case PageClicked(page) =>
      if total > 1 && page in Buttons(s.currentPage, total) {
        var k :| 0 <= k < |Buttons(s.currentPage, total)| && Buttons(s.currentPage, total)[k] == page;
      }
    case _ =>
  }

  /** On a valid screen with quotes to show, the current page has rows and,
      when there is more than one page, a button of its own. */
  lemma ValidScreenShowsCurrentPage(s: Screen)
    requires Valid(s) && |Filtered(s.contacts, s.searchTerm)| > 0
    ensures PageRows(Filtered(s.contacts, s.searchTerm), s.currentPage) != []
    ensures PageBar(Filtered(s.contacts, s.searchTerm), s.currentPage).Some? ==>
      s.currentPage in PageBar(Filtered(s.contacts, s.searchTerm), s.currentPage).value.buttons
  {
    var total := TotalPages(Filtered(s.contacts, s.searchTerm));
    ButtonsShape(s.currentPage, total);
  }
}

=== FILE: robots.dfy ===
/** The robot catalogue screen: a searchable grid of products, and a modal
    form that validates the typed fields and the image previews and posts the
    product as a multipart body to the add or edit endpoint. */
module Robots {
  import opened Text
  import opened Js
  import opened Lists
  import opened Multipart
  import opened JsNumber
  import opened ProductForm

  /** The card's category comes from the record's `category` field. */
  const CATEGORY_KEY: string := "category"

  /** `handleEdit`: the form of a stored product; the record spells two keys
      `p_short_descrption` and `p_descrption`. */
  function EditForm(p: Product): (form: Form)
    ensures forall key :: key in form <==> key in FIELD_KEYS
  {
    map[
      "name" := RecordText(p, "p_name"),
      "rating" := RecordText(p, "p_rating"),
      "short_description" := RecordText(p, "p_short_descrption"),
      "description" := RecordText(p, "p_descrption"),
      "price" := RecordText(p, "p_price"),
      "discount_price" := RecordText(p, "p_discount_price"),
      "discount" := RecordText(p, "p_discount"),
      "highlights" := RecordText(p, "p_highlights"),
      "product_used_places" := RecordText(p, "p_product_used_places"),
      "dimensions" := RecordText(p, "p_dimensions"),
      "max_speed" := RecordText(p, "p_max_speed"),
      "battery_life" := RecordText(p, "p_battery_life"),
      "charging_time" := RecordText(p, "p_charging_time"),
      "sensors" := RecordText(p, "p_sensors"),
      "connectivity" := RecordText(p, "p_connectivity"),
      "material" := RecordText(p, "p_material")
    ]
  }

  /** The inputs of the modal, in display order. */
  const FIELD_KEYS: seq<string> := [
    "name", "rating", "short_description", "description", "price", "discount_price",
    "discount", "highlights", "product_used_places", "dimensions", "max_speed",
    "battery_life", "charging_time", "sensors", "connectivity", "material"]

  // ---------------------------------------------------------------------------
  // Validation
  // ---------------------------------------------------------------------------

  /** `validateForm`: the keys of the fields with an error. */
  function Validate(form: Form, previews: seq<Preview>): (errors: set<string>)
    ensures errors <= {"name", "short_description", "description", "price", "discount_price", "rating", "images"}
    ensures "name" in errors <==> IsBlank(Field(form, "name"))
    ensures "short_description" in errors <==> IsBlank(Field(form, "short_description"))
    ensures "description" in errors <==> IsBlank(Field(form, "description"))
    ensures "price" in errors <==> Field(form, "price") == "" || IsNaN(Field(form, "price"))
    ensures "discount_price" in errors <==> Field(form, "discount_price") != "" && IsNaN(Field(form, "discount_price"))
    ensures "rating" in errors <==>
      Field(form, "rating") != "" && (IsNaN(Field(form, "rating")) || TextExceeds(Field(form, "rating"), 5))
    ensures "images" in errors <==> |previews| == 0
  {
    TextChecks(form) + NumberChecks(form, previews)
  }

  /** The three text checks: each text must have something besides white
      space. */
  function TextChecks(form: Form): (errors: set<string>)
    ensures errors <= {"name", "short_description", "description"}
    ensures "name" in errors <==> IsBlank(Field(form, "name"))
    ensures "short_description" in errors <==> IsBlank(Field(form, "short_description"))
    ensures "description" in errors <==> IsBlank(Field(form, "description"))
  {
    var name := Field(form, "name");
    var short := Field(form, "short_description");
    var description := Field(form, "description");
    TrimEmptyIffBlank(name);
    TrimEmptyIffBlank(short);
    TrimEmptyIffBlank(description);
    TextErrorKeys(Trim(name) == "", Trim(short) == "", Trim(description) == "")
  }

  /** The number checks and the image check. */
  function NumberChecks(form: Form, previews: seq<Preview>): (errors: set<string>)
    ensures errors <= {"price", "discount_price", "rating", "images"}
    ensures "price" in errors <==> Field(form, "price") == "" || IsNaN(Field(form, "price"))
    ensures "discount_price" in errors <==> Field(form, "discount_price") != "" && IsNaN(Field(form, "discount_price"))
    ensures "rating" in errors <==>
      Field(form, "rating") != "" && (IsNaN(Field(form, "rating")) || TextExceeds(Field(form, "rating"), 5))
    ensures "images" in errors <==> |previews| == 0
  {
    var price := Field(form, "price");
    var discountPrice := Field(form, "discount_price");
    var rating := Field(form, "rating");
    NumberErrorKeys(
      price == "" || IsNaN(price),
      discountPrice != "" && IsNaN(discountPrice),
      rating != "" && (IsNaN(rating) || TextExceeds(rating, 5)),
      |previews| == 0)
  }

  /** The keys of the failed text checks. */
  function TextErrorKeys(name: bool, short: bool, description: bool): (errors: set<string>)
    ensures errors <= {"name", "short_description", "description"}
    ensures "name" in errors <==> name
    ensures "short_description" in errors <==> short
    ensures "description" in errors <==> description
  {
    (if name then {"name"} else {})
    + (if short then {"short_description"} else {})
    + (if description then {"description"} else {})
  }

  /** The keys of the failed number checks and of the image check. */
  function NumberErrorKeys(price: bool, discountPrice: bool, rating: bool, images: bool): (errors: set<string>)
    ensures errors <= {"price", "discount_price", "rating", "images"}
    ensures "price" in errors <==> price
    ensures "discount_price" in errors <==> discountPrice
    ensures "rating" in errors <==> rating
    ensures "images" in errors <==> images
  {
    (if price then {"price"} else {})
    + (if discountPrice then {"discount_price"} else {})
    + (if rating then {"rating"} else {})
    + (if images then {"images"} else {})
  }

  /** The form passes exactly when the three texts are not blank, the price is
      a number, the discount price and rating are empty or numbers, the rating
      is at most 5, and there is at least one image. */
  lemma ValidateAccepts(form: Form, previews: seq<Preview>)
    ensures Validate(form, previews) == {} <==>
      && !IsBlank(Field(form, "name"))
      && !IsBlank(Field(form, "short_description"))
      && !IsBlank(Field(form, "description"))
      && Field(form, "price") != "" && !IsNaN(Field(form, "price"))
      && (Field(form, "discount_price") == "" || !IsNaN(Field(form, "discount_price")))
      && (Field(form, "rating") == "" || (!IsNaN(Field(form, "rating")) && !TextExceeds(Field(form, "rating"), 5)))
      && |previews| > 0
  {
  }

  /** For a rating typed as a decimal numeral the check is exactly "value at
      most 5": it has no lower bound, so a negative rating passes although the
      message asks for a value between 0 and 5. */
  lemma RatingCheckMeaning(form: Form, previews: seq<Preview>, d: Decimal)
    requires WellFormed(d) && Field(form, "rating") == Show(d)
    ensures "rating" in Validate(form, previews) <==> JsNumber.Value(d) > 5.0
    ensures d.negative ==> "rating" !in Validate(form, previews)
  {
    ShowConverts(d, 5);
    ShowTrimmed(d);
    if d.negative {
      var w := DigitsValue(d.whole);
      var f := DigitsValue(d.fraction);
      DigitsValueBound(d.fraction);
      UnitFraction(f, Pow10(|d.fraction|));
    }
  }

  /** A price of blanks is a number (0) to `isNaN`, so it passes the "valid
      price" check. */
  lemma BlankPriceAccepted(form: Form)
    requires Field(form, "price") == "  "
    ensures Field(form, "price") != "" && !IsNaN(Field(form, "price"))
  {
    assert IsBlank("  ");
  }

  // ---------------------------------------------------------------------------
  // The request body
  // ---------------------------------------------------------------------------

  /** The text fields of `mapToApiPayload`, in append order. */
  function FieldEntries(form: Form): (r: seq<Entry>)
    ensures Keys(r) == FIELD_KEYS
  {
    [ TextEntry(form, "name"),
      NumberEntry(form, "rating"),
      TextEntry(form, "short_description"),
      TextEntry(form, "description"),
      NumberEntry(form, "price"),
      NumberEntry(form, "discount_price"),
      TextEntry(form, "discount"),
      ListEntry(form, "highlights"),
      ListEntry(form, "product_used_places"),
      TextEntry(form, "dimensions"),
      TextEntry(form, "max_speed"),
      TextEntry(form, "battery_life"),
      TextEntry(form, "charging_time"),
      ListEntry(form, "sensors"),
      TextEntry(form, "connectivity"),
      TextEntry(form, "material") ]
  }

  /** `mapToApiPayload(formData, editingRobot?.p_id)`: the product id when
      editing, the sixteen fields, then the images. */
  function Payload(form: Form, editing: Option<Product>, previews: seq<Preview>): (body: seq<Entry>)
    ensures body == IdEntry(editing) + FieldEntries(form) + ImageEntries(previews)
    ensures Keys(body) == Keys(IdEntry(editing)) + FIELD_KEYS + Keys(ImageEntries(previews))
  {
    KeysAppend(IdEntry(editing) + FieldEntries(form), ImageEntries(previews));
    KeysAppend(IdEntry(editing), FieldEntries(form));
    IdEntry(editing) + FieldEntries(form) + ImageEntries(previews)
  }

  /** Each field travels as typed, as a symbolic number, or as a normalised
      comma list; every field is sent once, even when never typed. */
  lemma PayloadFields(form: Form, editing: Option<Product>, previews: seq<Preview>)
    ensures var body := Payload(form, editing, previews);
      && Entry("name", TextValue(Field(form, "name"))) in body
      && Entry("rating", ParsedNumber(Field(form, "rating"))) in body
      && Entry("price", ParsedNumber(Field(form, "price"))) in body
      && Entry("highlights", TextValue(NormalizeList(Field(form, "highlights")))) in body
      && Entry("sensors", TextValue(NormalizeList(Field(form, "sensors")))) in body
      && Entry("material", TextValue(Field(form, "material"))) in body
  {
    FieldEntriesCarry(form);
    InMiddle(IdEntry(editing), FieldEntries(form), ImageEntries(previews));
  }

  lemma FieldEntriesCarry(form: Form)
    ensures var fields := FieldEntries(form);
      && Entry("name", TextValue(Field(form, "name"))) in fields
      && Entry("rating", ParsedNumber(Field(form, "rating"))) in fields
      && Entry("price", ParsedNumber(Field(form, "price"))) in fields
      && Entry("highlights", TextValue(NormalizeList(Field(form, "highlights")))) in fields
      && Entry("sensors", TextValue(NormalizeList(Field(form, "sensors")))) in fields
      && Entry("material", TextValue(Field(form, "material"))) in fields
  {
    var fields := FieldEntries(form);
    assert fields[0] == Entry("name", TextValue(Field(form, "name")));
    assert fields[1] == Entry("rating", ParsedNumber(Field(form, "rating")));
    assert fields[4] == Entry("price", ParsedNumber(Field(form, "price")));
    assert fields[7] == Entry("highlights", TextValue(NormalizeList(Field(form, "highlights"))));
    assert fields[13] == Entry("sensors", TextValue(NormalizeList(Field(form, "sensors"))));
    assert fields[15] == Entry("material", TextValue(Field(form, "material")));
  }

  lemma InMiddle(a: seq<Entry>, b: seq<Entry>, c: seq<Entry>)
    ensures forall x :: x in b ==> x in a + b + c
  {
    forall x | x in b
      ensures x in a + b + c
    {
      var i :| 0 <= i < |b| && b[i] == x;
      assert (a + b + c)[|a| + i] == x;
    }
  }

  lemma ImageIsNoField()
    ensures "image" !in FIELD_KEYS
  {
  }

  /** The body uploads one "image" entry per newly picked file and nothing
      else under that key. */
  lemma PayloadImageCount(form: Form, editing: Option<Product>, previews: seq<Preview>)
    ensures CountKey(Payload(form, editing, previews), "image")
      == |Filter(previews, (pv: Preview) => pv.isNew && pv.file.Some?)|
  {
    var head := IdEntry(editing) + FieldEntries(form);
    CountKeyAppend(head, ImageEntries(previews), "image");
    KeysAppend(IdEntry(editing), FieldEntries(form));
    assert Keys(head) == Keys(IdEntry(editing)) + FIELD_KEYS;
    ImageIsNoField();
    assert "image" !in Keys(IdEntry(editing));
    assert "image" !in Keys(head);
    assert CountKey(head, "image") == 0;
    ImageCountIsNewFiles(previews);
  }

  /** `handleSave`: nothing is sent when validation fails; otherwise the body
      goes to the edit endpoint when a product is being edited and to the add
      endpoint otherwise. */
  function Save(editing: Option<Product>, form: Form, previews: seq<Preview>): (r: SaveOutcome)
    ensures r.Invalid? <==> Validate(form, previews) != {}
    ensures r.Invalid? ==> r.errors == Validate(form, previews)
    ensures r.Send? ==> r.body == Payload(form, editing, previews)
    ensures r.Send? ==> r.endpoint == (if editing.Some? then API_BASE + "/edit/product" else API_BASE + "/add/product")
  {
    var errors := Validate(form, previews);
    if errors != {} then Invalid(errors) else Send(SaveEndpoint(editing), Payload(form, editing, previews))
  }

  // ---------------------------------------------------------------------------
  // The screen
  // ---------------------------------------------------------------------------

  /** The open modal: the product being edited (none when adding), the typed
      fields, the image previews and the errors of the last validation. */
  datatype Modal = Modal(editing: Option<Product>, form: Form, previews: seq<Preview>, errors: set<string>)

  datatype Screen = Screen(robots: seq<Robot>, searchTerm: string, modal: Option<Modal>)

  const INITIAL: Screen := Screen([], "", None)

  datatype Event =
    | Fetched(reply: ListReply<Product>)
    | SearchEdited(term: string)
    | AddClicked
    | EditClicked(product: Product)
    | FieldTyped(key: string, text: string)
    | FilesPicked(files: seq<FileRef>)
    | ImageRemoved(index: int)
      /** Save: the server's answer to the add or edit request, and the reply of
          the refetch that follows. */
    | SaveClicked(ack: AckReply, refetch: ListReply<Product>)
    | Closed
    | DeleteRequested(confirmed: bool, ack: AckReply, refetch: ListReply<Product>)

  function Filtered(s: Screen): seq<Robot>
  {
    Filter(s.robots, (r: Robot) => MatchesSearch(r, s.searchTerm))
  }

  /** The save handler on an open modal: invalid forms keep the modal open
      with their errors; a rejected request keeps it open; otherwise it closes
      and the list is refetched. */
  function AfterSave(s: Screen, m: Modal, ack: AckReply, refetch: ListReply<Product>): (t: Screen)
    ensures t.searchTerm == s.searchTerm
    ensures t.modal.None? <==> Validate(m.form, m.previews) == {} && ack.Resolved?
    ensures t.modal.None? ==> t.robots == FetchedRobots(refetch, CATEGORY_KEY)
    ensures t.modal.Some? ==> t.robots == s.robots && t.modal.value.form == m.form && t.modal.value.previews == m.previews
    ensures t.modal.Some? ==> t.modal.value.errors == Validate(m.form, m.previews)
  {
    var outcome := Save(m.editing, m.form, m.previews);
    if outcome.Invalid? then s.(modal := Some(m.(errors := outcome.errors)))
    else if ack.Rejected? then s.(modal := Some(m.(errors := {})))
    else Screen(FetchedRobots(refetch, CATEGORY_KEY), s.searchTerm, None)
  }

  /** A save either keeps the list and the modal open, or closes the modal
      after a valid form was sent and shows the refetched list. */
  lemma AfterSaveCases(s: Screen, m: Modal, ack: AckReply, refetch: ListReply<Product>)
    ensures var t := AfterSave(s, m, ack, refetch);
      || (t.robots == s.robots && t.modal.Some?
          && t.modal.value.errors == Validate(m.form, m.previews))
      || (t == Screen(FetchedRobots(refetch, CATEGORY_KEY), s.searchTerm, None)
          && Validate(m.form, m.previews) == {} && ack.Resolved?)
  {
  }

  /** The catalogue's handlers: only a fetch, a save and a delete touch the
      cards, only the search box the term, and a cancelled or failed delete
      nothing at all. */
  function Step(s: Screen, e: Event): (t: Screen)
    ensures !e.Fetched? && !e.SaveClicked? && !e.DeleteRequested? ==> t.robots == s.robots
    ensures e.SaveClicked? ==> t.robots == s.robots || t.robots == FetchedRobots(e.refetch, CATEGORY_KEY)
    ensures !e.SearchEdited? ==> t.searchTerm == s.searchTerm
    ensures e.SearchEdited? ==> t.searchTerm == e.term
    ensures e.DeleteRequested? && !(e.confirmed && e.ack.Resolved?) ==> t == s
    ensures e.Fetched? || e.DeleteRequested? || e.SearchEdited? ==> t.modal == s.modal
    ensures e.Closed? ==> t.modal.None?
  {
    match e
    case Fetched(reply) => s.(robots := FetchedRobots(reply, CATEGORY_KEY))
    case SearchEdited(term) => s.(searchTerm := term)
    case AddClicked => s.(modal := Some(Modal(None, map[], [], {})))
    case EditClicked(p) => s.(modal := Some(Modal(Some(p), EditForm(p), EditPreviews(p.images), {})))
    case FieldTyped(key, text) =>
      if s.modal.Some? then s.(modal := Some(s.modal.value.(form := s.modal.value.form[key := text]))) else s
    case FilesPicked(files) =>
      if s.modal.Some? then s.(modal := Some(s.modal.value.(previews := AddFiles(s.modal.value.previews, files)))) else s
    case ImageRemoved(index) =>
      if s.modal.Some? then s.(modal := Some(s.modal.value.(previews := RemoveAt(s.modal.value.previews, index)))) else s
    case SaveClicked(ack, refetch) =>
      if s.modal.None? then s else AfterSave(s, s.modal.value, ack, refetch)
    case Closed => s.(modal := None)
    case DeleteRequested(confirmed, ack, refetch) =>
      if confirmed && ack.Resolved? then s.(robots := FetchedRobots(refetch, CATEGORY_KEY)) else s
  }

  /** Every card on the screen came out of the card mapping: it is the
      mapping of its own product, so it has a category and no industries. */
  ghost predicate CardsMapped(s: Screen)
  {
    AllMapped(s.robots)
  }

  ghost predicate AllMapped(robots: seq<Robot>)
  {
    forall i :: 0 <= i < |robots| ==>
      robots[i] == ToRobot(robots[i].product, CATEGORY_KEY) && robots[i].category != "" && robots[i].industries == []
  }

  lemma FetchedCardsMapped(reply: ListReply<Product>)
    ensures AllMapped(FetchedRobots(reply, CATEGORY_KEY))
  {
  }

  /** A save leaves the list alone or replaces it with the refetched one. */
  lemma AfterSaveRobots(s: Screen, m: Modal, ack: AckReply, refetch: ListReply<Product>)
    ensures var t := AfterSave(s, m, ack, refetch);
      t.robots == s.robots || t.robots == FetchedRobots(refetch, CATEGORY_KEY)
  {
  }

  lemma StepKeepsCardsMapped(s: Screen, e: Event)
    requires CardsMapped(s)
    ensures CardsMapped(Step(s, e))
  {
    if e.SaveClicked? {
      SaveKeepsCardsMapped(s, e.ack, e.refetch);
    } else if e.Fetched? {
      FetchedCardsMapped(e.reply);
    } else if e.DeleteRequested? {
      FetchedCardsMapped(e.refetch);
    } else {
      EditsKeepRobots(s, e);
    }
  }

  lemma SaveKeepsCardsMapped(s: Screen, ack: AckReply, refetch: ListReply<Product>)
    requires CardsMapped(s)
    ensures CardsMapped(Step(s, SaveClicked(ack, refetch)))
  {
    if s.modal.Some? {
      FetchedCardsMapped(refetch);
    }
  }

  /** Search, the modal's inputs and closing it never touch the list. */
  lemma EditsKeepRobots(s: Screen, e: Event)
    requires !e.SaveClicked? && !e.Fetched? && !e.DeleteRequested?
    ensures Step(s, e).robots == s.robots
  {
  }

  /** The save handler closes the modal only for a form that validates and a
      request the server answered; a form that fails validation keeps the
      modal open with exactly the errors found. */
  lemma SaveClosesOnlyValidForms(s: Screen, m: Modal, ack: AckReply, refetch: ListReply<Product>)
    ensures var t := AfterSave(s, m, ack, refetch);
      && (t.modal.None? ==> Validate(m.form, m.previews) == {} && ack.Resolved?)
      && (Validate(m.form, m.previews) != {} ==> t.modal.Some? && t.modal.value.errors == Validate(m.form, m.previews))
  {
  }

  /** Opening a product for editing and saving it at once re-sends its stored
      images under their own ids and uploads no new "image" entry. */
  lemma EditThenSaveResends(p: Product)
    requires |p.images| > 0
    ensures var out := Save(Some(p), EditForm(p), EditPreviews(p.images));
      out.Send? ==> CountKey(out.body, "image") == 0
  {
    PayloadImageCount(EditForm(p), Some(p), EditPreviews(p.images));
    EditPreviewsUploadNoNewImage(p.images);
    ImageCountIsNewFiles(EditPreviews(p.images));
  }
}

=== FILE: robots_variant.dfy ===
/** The second robot catalogue screen: the same grid and modal as `Robots`,
    with a Buy / Rent filter over the cards, twenty-eight product fields, an
    optional brochure file, and a validation that only asks for an image. */
module RobotsVariant {
  import opened Text
  import opened Js
  import opened Lists
  import opened Multipart
  import opened ProductForm

  /** The card's category is the record's buy-or-rent kind. */
  const KIND_KEY: string := "p_buy_rent"

  // ---------------------------------------------------------------------------
  // The grid
  // ---------------------------------------------------------------------------

  /** The kind filter: "all" lets every card through; "buy" and "rent" compare
      with the lower-cased category. */
  predicate MatchesKind(r: Robot, filterType: string)
  {
    filterType == "all" || Lower(r.category) == filterType
  }

  predicate Listed(r: Robot, term: string, filterType: string)
  {
    MatchesSearch(r, term) && MatchesKind(r, filterType)
  }

  function Filtered(robots: seq<Robot>, term: string, filterType: string): (r: seq<Robot>)
    ensures IsSubsequence(r, robots)
    ensures forall i :: 0 <= i < |r| ==> MatchesSearch(r[i], term) && MatchesKind(r[i], filterType)
    ensures forall i :: 0 <= i < |robots| && MatchesSearch(robots[i], term) && MatchesKind(robots[i], filterType) ==>
      robots[i] in r
  {
    FilterIsSubsequence(robots, (r: Robot) => Listed(r, term, filterType));
    Filter(robots, (r: Robot) => Listed(r, term, filterType))
  }

  /** With the filter on "all" the grid is the search result alone. */
  lemma AllKindsIsSearchOnly(robots: seq<Robot>, term: string)
    ensures Filtered(robots, term, "all") == Filter(robots, (r: Robot) => MatchesSearch(r, term))
  {
    FilterSamePredicate(robots, (r: Robot) => Listed(r, term, "all"), (r: Robot) => MatchesSearch(r, term));
  }

  lemma PricingIsNoKind()
    ensures Lower("pricing") == "pricing"
    ensures "pricing" != "buy" && "pricing" != "rent"
  {
    LowerIdentity("pricing");
  }

  /** A product stored without a kind gets the card category "pricing", so
      neither the "buy" nor the "rent" filter lists it, although its edit form
      calls it "buy". */
  lemma KindlessHiddenByKindFilters(p: Product)
    requires RecordText(p, KIND_KEY) == ""
    ensures !MatchesKind(ToRobot(p, KIND_KEY), "buy")
    ensures !MatchesKind(ToRobot(p, KIND_KEY), "rent")
    ensures Field(EditForm(p), "buy_rent") == "buy"
  {
    PricingIsNoKind();
  }

  /** The kinds the modal offers, "Buy" and "Rent", are found by the filters
      "buy" and "rent". */
  lemma ModalKindsMatchFilters(p: Product)
    ensures RecordText(p, KIND_KEY) == "Buy" ==> MatchesKind(ToRobot(p, KIND_KEY), "buy")
    ensures RecordText(p, KIND_KEY) == "Rent" ==> MatchesKind(ToRobot(p, KIND_KEY), "rent")
  {
    assert Lower("Buy") == "buy";
    assert Lower("Rent") == "rent";
  }

  // ---------------------------------------------------------------------------
  // The edit form
  // ---------------------------------------------------------------------------

  /** A JavaScript object literal `{ k1: record.r1 || "", ... }` as a map: a
      later entry overwrites an earlier one with the same key. */
  function FormOf(p: Product, fields: seq<(string, string)>): (form: Form)
    ensures forall k :: k in form ==> exists i :: 0 <= i < |fields| && fields[i].0 == k
    decreases |fields|
  {
    if |fields| == 0 then map[]
    else
      var last := fields[|fields| - 1];
      var init := fields[..|fields| - 1];
      var rest := FormOf(p, init);
      assert forall k :: k in rest ==> exists i :: 0 <= i < |fields| && fields[i].0 == k by {
        forall k | k in rest
          ensures exists i :: 0 <= i < |fields| && fields[i].0 == k
        {
          var i :| 0 <= i < |init| && init[i].0 == k;
          assert fields[i].0 == k;
        }
      }
      rest[last.0 := RecordText(p, last.1)]
  }

  /** Every entry of the literal is in the form, holding the record's text,
      unless a later entry with the same key overwrites it. */
  lemma {:induction false} FormOfLookup(p: Product, fields: seq<(string, string)>, i: int)
    requires 0 <= i < |fields|
    requires forall j :: i < j < |fields| ==> fields[j].0 != fields[i].0
    ensures fields[i].0 in FormOf(p, fields)
    ensures FormOf(p, fields)[fields[i].0] == RecordText(p, fields[i].1)
    decreases |fields|
  {
    if i < |fields| - 1 {
      var init := fields[..|fields| - 1];
      assert init[i] == fields[i];
      FormOfLookup(p, init, i);
    }
  }

  /** `handleEdit`'s text fields: the form key and the record key it is read
      from. Four keys are renamed (`rob_model`, `mb_ram`, and the misspelt
      `p_short_descrption` and `p_descrption`). */
  const EDIT_FIELDS: seq<(string, string)> := [
    ("name", "p_name"), ("short_description", "p_short_descrption"),
    ("description", "p_descrption"), ("price", "p_price"),
    ("discount_price", "p_discount_price"), ("discount", "p_discount"),
    ("highlights", "p_highlights"), ("product_used_places", "p_product_used_places"),
    ("dimensions", "p_dimensions"), ("max_speed", "p_max_speed"),
    ("battery_life", "p_battery_life"), ("charging_time", "p_charging_time"),
    ("sensors", "p_sensors"), ("connectivity", "p_connectivity"),
    ("material", "p_material"), ("rob_model", "p_model"), ("screen", "p_screen"),
    ("camera", "p_camera"), ("body_colour", "p_body_colour"), ("mb_ram", "p_ram"),
    ("stand_by_time", "p_stand_by_time"), ("head_pitch_angle", "p_head_pitch_angle"),
    ("system", "p_system"), ("manufacturer", "p_manufacturer"),
    ("navigation_accuracy", "p_navigation_accuracy"), ("weight", "p_weight"),
    ("battery_type", "p_battery_type"), ("brochure", "p_brochure")]

  /** The form of a stored product: the text fields, and its kind with "buy"
      when it has none. */
  function EditForm(p: Product): (form: Form)
    ensures "buy_rent" in form
    ensures RecordText(p, KIND_KEY) != "" ==> form["buy_rent"] == RecordText(p, KIND_KEY)
    ensures RecordText(p, KIND_KEY) == "" ==> form["buy_rent"] == "buy"
  {
    var kind := RecordText(p, KIND_KEY);
    FormOf(p, EDIT_FIELDS)["buy_rent" := if kind != "" then kind else "buy"]
  }

  /** The inputs of the modal, in display order. */
  const MODAL_KEYS: seq<string> := [
    "name", "rob_model", "manufacturer", "short_description", "description", "buy_rent",
    "price", "discount", "discount_price", "highlights", "product_used_places", "dimensions",
    "screen", "camera", "body_colour", "mb_ram", "stand_by_time", "head_pitch_angle",
    "system", "navigation_accuracy", "weight", "max_speed", "battery_type", "battery_life",
    "charging_time", "sensors", "connectivity", "material"]

  /** A modal input is hidden when it is a discount field and the kind is
      exactly "Rent". */
  predicate Shown(form: Form, key: string)
  {
    !(Field(form, "buy_rent") == "Rent" && (key == "discount_price" || key == "discount"))
  }

  function ShownIn(form: Form): string -> bool
  {
    (k: string) => Shown(form, k)
  }

  /** The inputs the modal renders out of `keys` (`MODAL_KEYS` on the
      screen), in order. */
  function VisibleFields(form: Form, keys: seq<string>): (shown: seq<string>)
    ensures IsSubsequence(shown, keys)
    ensures forall k :: k in shown <==> k in keys && Shown(form, k)
  {
    FilterIsSubsequence(keys, ShownIn(form));
    forall k | k in keys
      ensures k in Filter(keys, ShownIn(form)) <==> Shown(form, k)
    {
      FilterMember(keys, ShownIn(form), k);
    }
    Filter(keys, ShownIn(form))
  }

  lemma ModalHasDiscountFields()
    ensures "discount" in MODAL_KEYS && "discount_price" in MODAL_KEYS
  {
    assert MODAL_KEYS[7] == "discount";
    assert MODAL_KEYS[8] == "discount_price";
  }

  /** The discount inputs are shown exactly when the kind is not "Rent"; the
      lower-case "rent" does not hide them. */
  lemma DiscountShownUnlessRent(form: Form, keys: seq<string>)
    requires "discount" in keys && "discount_price" in keys
    ensures "discount" in VisibleFields(form, keys) <==> Field(form, "buy_rent") != "Rent"
    ensures "discount_price" in VisibleFields(form, keys) <==> Field(form, "buy_rent") != "Rent"
    ensures Field(form, "buy_rent") == "rent" ==> "discount" in VisibleFields(form, keys)
  {
    FilterMember(keys, ShownIn(form), "discount");
    FilterMember(keys, ShownIn(form), "discount_price");
  }

  // ---------------------------------------------------------------------------
  // Validation and the request body
  // ---------------------------------------------------------------------------

  /** `validateForm`: the field checks are disabled, so only the missing
      image is an error. */
  function Validate(previews: seq<Preview>): (errors: set<string>)
    ensures errors <= {"images"}
    ensures "images" in errors <==> |previews| == 0
  {
    if |previews| == 0 then {"images"} else {}
  }

  /** How `mapToApiPayload` turns a form field into an entry. */
  datatype Coding =
    | AsText      // `data[key] || ""`
    | AsList      // the comma list with every item trimmed
    | AsNumber    // `String(parseFloat(data[key]) || 0)`
    | OrZero      // `String(data[key] || 0)`: as typed, "0" when empty
    | OrBuy       // `data[key] || "buy"`

  /** The text fields of `mapToApiPayload`, in append order. */
  const PAYLOAD_FIELDS: seq<(string, Coding)> := [
    ("name", AsText), ("short_description", AsText), ("description", AsText),
    ("price", OrZero), ("discount_price", AsNumber), ("discount", AsText),
    ("highlights", AsList), ("product_used_places", AsList), ("dimensions", AsText),
    ("max_speed", AsText), ("battery_life", AsText), ("charging_time", AsText),
    ("buy_rent", OrBuy), ("rob_model", AsText), ("screen", AsText),
    ("body_colour", AsText), ("mb_ram", AsText), ("stand_by_time", AsText),
    ("head_pitch_angle", AsText), ("system", AsText), ("weight", AsText),
    ("camera", AsText), ("manufacturer", AsText), ("navigation_accuracy", AsText),
    ("battery_type", AsText), ("sensors", AsList), ("connectivity", AsText),
    ("material", AsText)]

  /** The entry of one field. */
  function FieldEntry(form: Form, key: string, coding: Coding): (e: Entry)
    ensures e.key == key
    ensures coding.AsNumber? ==> e.value == ParsedNumber(Field(form, key))
    ensures coding.AsText? ==> e.value == TextValue(Field(form, key))
    ensures coding.AsList? ==> e.value.TextValue? && Split(e.value.text, ',') == TrimAll(Split(Field(form, key), ','))
    ensures coding.OrZero? || coding.OrBuy? ==> e.value.TextValue? && e.value.text != ""
    ensures (coding.OrZero? || coding.OrBuy?) && Field(form, key) != "" ==> e.value.text == Field(form, key)
    ensures coding.OrZero? && Field(form, key) == "" ==> e.value.text == "0"
    ensures coding.OrBuy? && Field(form, key) == "" ==> e.value.text == "buy"
  {
    match coding
    case AsText => TextEntry(form, key)
    case AsList => ListEntry(form, key)
    case AsNumber => NumberEntry(form, key)
    case OrZero => Entry(key, TextValue(if Field(form, key) != "" then Field(form, key) else "0"))
    case OrBuy => Entry(key, TextValue(if Field(form, key) != "" then Field(form, key) else "buy"))
  }

  function FieldEntries(form: Form): (r: seq<Entry>)
    ensures |r| == |PAYLOAD_FIELDS|
    ensures forall i :: 0 <= i < |r| ==> r[i] == FieldEntry(form, PAYLOAD_FIELDS[i].0, PAYLOAD_FIELDS[i].1)
  {
    seq(|PAYLOAD_FIELDS|, i requires 0 <= i < |PAYLOAD_FIELDS| =>
      FieldEntry(form, PAYLOAD_FIELDS[i].0, PAYLOAD_FIELDS[i].1))
  }

  /** The brochure file, appended only when one was picked. */
  function BrochureEntry(brochureFile: Option<FileRef>): (r: seq<Entry>)
    ensures brochureFile.None? ==> r == []
    ensures brochureFile.Some? ==> r == [Entry("brochure", FileValue(brochureFile.value))]
  {
    if brochureFile.Some? then [Entry("brochure", FileValue(brochureFile.value))] else []
  }

  /** `mapToApiPayload(formData, editingRobot?.p_id)`: the product id when
      editing, the twenty-eight fields, the brochure, then the images. */
  function Payload(form: Form, brochureFile: Option<FileRef>, editing: Option<Product>, previews: seq<Preview>): (body: seq<Entry>)
    ensures body == IdEntry(editing) + FieldEntries(form) + BrochureEntry(brochureFile) + ImageEntries(previews)
  {
    IdEntry(editing) + FieldEntries(form) + BrochureEntry(brochureFile) + ImageEntries(previews)
  }

  lemma InMiddle(a: seq<Entry>, b: seq<Entry>, c: seq<Entry>)
    ensures forall x :: x in b ==> x in a + b + c
  {
    forall x | x in b
      ensures x in a + b + c
    {
      var i :| 0 <= i < |b| && b[i] == x;
      assert (a + b + c)[|a| + i] == x;
    }
  }

  /** The discount fields are sent whatever the kind, also when the modal
      hides them; the price goes as typed ("0" when empty) and the kind with
      "buy" as fallback. */
  lemma PayloadFields(form: Form, brochureFile: Option<FileRef>, editing: Option<Product>, previews: seq<Preview>)
    ensures var body := Payload(form, brochureFile, editing, previews);
      && Entry("discount", TextValue(Field(form, "discount"))) in body
      && Entry("discount_price", ParsedNumber(Field(form, "discount_price"))) in body
      && FieldEntry(form, "price", OrZero) in body
      && FieldEntry(form, "buy_rent", OrBuy) in body
      && Entry("rob_model", TextValue(Field(form, "rob_model"))) in body
  {
    FieldEntriesCarry(form);
    var rest := BrochureEntry(brochureFile) + ImageEntries(previews);
    InMiddle(IdEntry(editing), FieldEntries(form), rest);
    assert IdEntry(editing) + FieldEntries(form) + rest == Payload(form, brochureFile, editing, previews);
  }

  /** The named fields among the twenty-eight entries. */
  lemma FieldEntriesCarry(form: Form)
    ensures var fields := FieldEntries(form);
      && Entry("discount", TextValue(Field(form, "discount"))) in fields
      && Entry("discount_price", ParsedNumber(Field(form, "discount_price"))) in fields
      && FieldEntry(form, "price", OrZero) in fields
      && FieldEntry(form, "buy_rent", OrBuy) in fields
      && Entry("rob_model", TextValue(Field(form, "rob_model"))) in fields
  {
    var fields := FieldEntries(form);
    assert PAYLOAD_FIELDS[3] == ("price", OrZero);
    assert PAYLOAD_FIELDS[4] == ("discount_price", AsNumber);
    assert PAYLOAD_FIELDS[5] == ("discount", AsText);
    assert PAYLOAD_FIELDS[12] == ("buy_rent", OrBuy);
    assert PAYLOAD_FIELDS[13] == ("rob_model", AsText);
    assert fields[3] == FieldEntry(form, "price", OrZero);
    assert fields[4] == Entry("discount_price", ParsedNumber(Field(form, "discount_price")));
    assert fields[5] == Entry("discount", TextValue(Field(form, "discount")));
    assert fields[12] == FieldEntry(form, "buy_rent", OrBuy);
    assert fields[13] == Entry("rob_model", TextValue(Field(form, "rob_model")));
  }

  lemma NoFieldIsAFile()
    ensures forall i :: 0 <= i < |PAYLOAD_FIELDS| ==> PAYLOAD_FIELDS[i].0 != "brochure" && PAYLOAD_FIELDS[i].0 != "image"
  {
  }

  /** The text fields contribute no file key. */
  lemma FieldsCountNoFile(form: Form)
    ensures CountKey(FieldEntries(form), "brochure") == 0
    ensures CountKey(FieldEntries(form), "image") == 0
  {
    NoFieldIsAFile();
    var ks := Keys(FieldEntries(form));
    assert "brochure" !in ks && "image" !in ks;
  }

  /** One "brochure" entry exactly when a brochure file was picked, and one
      "image" entry per newly picked image. */
  lemma PayloadFileCounts(form: Form, brochureFile: Option<FileRef>, editing: Option<Product>, previews: seq<Preview>)
    ensures var body := Payload(form, brochureFile, editing, previews);
      && CountKey(body, "brochure") == (if brochureFile.Some? then 1 else 0)
      && CountKey(body, "image") == |Filter(previews, (pv: Preview) => pv.isNew && pv.file.Some?)|
  {
    var id := IdEntry(editing);
    var fields := FieldEntries(form);
    var images := ImageEntries(previews);
    var brochure := BrochureEntry(brochureFile);
    FieldsCountNoFile(form);
    assert CountKey(id, "brochure") == 0 && CountKey(id, "image") == 0;
    CountKeyAppend(id, fields, "brochure");
    CountKeyAppend(id, fields, "image");
    CountKeyAppend(id + fields, brochure, "brochure");
    CountKeyAppend(id + fields, brochure, "image");
    CountKeyAppend(id + fields + brochure, images, "brochure");
    CountKeyAppend(id + fields + brochure, images, "image");
    ImageCountIsNewFiles(previews);
    BrochureIsNoImageKey(previews);
  }

  /** No image entry is keyed "brochure": new files go under "image", kept
      images under their numeric id. */
  lemma {:induction false} BrochureIsNoImageKey(previews: seq<Preview>)
    ensures CountKey(ImageEntries(previews), "brochure") == 0
  {
    if |previews| > 0 {
      BrochureIsNoImageKey(previews[1..]);
      CountKeyAppend(ImageEntry(previews[0]), ImageEntries(previews[1..]), "brochure");
      var pv := previews[0];
      if !(pv.isNew && pv.file.Some?) && IdTruthy(pv.id) && pv.file.Some? {
        var key := IntToString(pv.id.value);
        assert key != "brochure" by {
          assert key[0] == '-' || IsDigit(key[0]) by {
            if pv.id.value >= 0 { assert AllDigits(key); }
          }
        }
      }
    }
  }

  /** `handleSave`: without an image nothing is sent; otherwise the body goes
      to the edit or the add endpoint, whatever the text fields hold. */
  function Save(editing: Option<Product>, form: Form, brochureFile: Option<FileRef>, previews: seq<Preview>): (r: SaveOutcome)
    ensures r.Invalid? <==> |previews| == 0
    ensures r.Invalid? ==> r.errors == {"images"}
    ensures r.Send? ==> r.body == Payload(form, brochureFile, editing, previews)
    ensures r.Send? ==> r.endpoint == (if editing.Some? then API_BASE + "/edit/product" else API_BASE + "/add/product")
  {
    var errors := Validate(previews);
    if errors != {} then Invalid(errors) else Send(SaveEndpoint(editing), Payload(form, brochureFile, editing, previews))
  }

  // ---------------------------------------------------------------------------
  // The screen
  // ---------------------------------------------------------------------------

  datatype Modal = Modal(
    editing: Option<Product>, form: Form, brochureFile: Option<FileRef>,
    previews: seq<Preview>, errors: set<string>)

  datatype Screen = Screen(robots: seq<Robot>, searchTerm: string, filterType: string, modal: Option<Modal>)

  const INITIAL: Screen := Screen([], "", "all", None)

  datatype Event =
    | Fetched(reply: ListReply<Product>)
    | SearchEdited(term: string)
    | KindChosen(filterType: string)
    | AddClicked
    | EditClicked(product: Product)
    | FieldTyped(key: string, text: string)
    | BrochurePicked(file: FileRef)
    | FilesPicked(files: seq<FileRef>)
    | ImageRemoved(index: int)
    | SaveClicked(ack: AckReply, refetch: ListReply<Product>)
    | Closed
    | DeleteRequested(confirmed: bool, ack: AckReply, refetch: ListReply<Product>)

  /** The save handler on an open modal. */
  function AfterSave(s: Screen, m: Modal, ack: AckReply, refetch: ListReply<Product>): (t: Screen)
    ensures t.modal.None? <==> |m.previews| > 0 && ack.Resolved?
    ensures t.modal.None? ==> t.robots == FetchedRobots(refetch, KIND_KEY)
    ensures t.modal.Some? && |m.previews| > 0 ==> t.modal.value.errors == {}
    ensures t.modal.Some? ==> t.robots == s.robots && t.modal.value.form == m.form && t.modal.value.previews == m.previews
    ensures |m.previews| == 0 ==> t.modal.Some? && t.modal.value.errors == {"images"}
  {
    var outcome := Save(m.editing, m.form, m.brochureFile, m.previews);
    if outcome.Invalid? then s.(modal := Some(m.(errors := outcome.errors)))
    else if ack.Rejected? then s.(modal := Some(m.(errors := {})))
    else s.(robots := FetchedRobots(refetch, KIND_KEY), modal := None)
  }

  /** The catalogue's handlers: only a fetch, a save and a delete touch the
      cards, the search box and the kind filter only their own state, and a
      cancelled or failed delete nothing at all. */
  function Step(s: Screen, e: Event): (t: Screen)
    ensures !e.Fetched? && !e.SaveClicked? && !e.DeleteRequested? ==> t.robots == s.robots
    ensures !e.SearchEdited? ==> t.searchTerm == s.searchTerm
    ensures !e.KindChosen? ==> t.filterType == s.filterType
    ensures e.KindChosen? ==> t.filterType == e.filterType
    ensures e.DeleteRequested? && !(e.confirmed && e.ack.Resolved?) ==> t == s
    ensures e.Fetched? || e.DeleteRequested? || e.SearchEdited? || e.KindChosen? ==> t.modal == s.modal
    ensures e.Closed? ==> t.modal.None?
  {
    match e
    case Fetched(reply) => s.(robots := FetchedRobots(reply, KIND_KEY))
    case SearchEdited(term) => s.(searchTerm := term)
    case KindChosen(kind) => s.(filterType := kind)
    case AddClicked => s.(modal := Some(Modal(None, map[], None, [], {})))
    case EditClicked(p) => s.(modal := Some(Modal(Some(p), EditForm(p), None, EditPreviews(p.images), {})))
    case FieldTyped(key, text) =>
      if s.modal.Some? then s.(modal := Some(s.modal.value.(form := s.modal.value.form[key := text]))) else s
    case BrochurePicked(file) =>
      if s.modal.Some? then s.(modal := Some(s.modal.value.(brochureFile := Some(file)))) else s
    case FilesPicked(files) =>
      if s.modal.Some? then s.(modal := Some(s.modal.value.(previews := AddFiles(s.modal.value.previews, files)))) else s
    case ImageRemoved(index) =>
      if s.modal.Some? then s.(modal := Some(s.modal.value.(previews := RemoveAt(s.modal.value.previews, index)))) else s
    case SaveClicked(ack, refetch) =>
      if s.modal.None? then s else AfterSave(s, s.modal.value, ack, refetch)
    case Closed => s.(modal := None)
    case DeleteRequested(confirmed, ack, refetch) =>
      if confirmed && ack.Resolved? then s.(robots := FetchedRobots(refetch, KIND_KEY)) else s
  }

  /** Every card on the screen is the card mapping of its own record, and
      the errors on an open modal are at most the missing image. */
  ghost predicate Valid(s: Screen)
  {
    && (forall i :: 0 <= i < |s.robots| ==> s.robots[i] == ToRobot(s.robots[i].product, KIND_KEY))
    && (s.modal.Some? ==> s.modal.value.errors <= {"images"})
  }

  lemma FetchedCardsAreMapped(reply: ListReply<Product>)
    ensures var r := FetchedRobots(reply, KIND_KEY);
      forall i :: 0 <= i < |r| ==> r[i] == ToRobot(r[i].product, KIND_KEY)
  {
  }

  lemma InitialValid()
    ensures Valid(INITIAL)
  {
  }

  lemma StepPreservesValid(s: Screen, e: Event)
    requires Valid(s)
    ensures Valid(Step(s, e))
  {
    match e
    case Fetched(reply) => FetchedCardsAreMapped(reply);
    case SaveClicked(_, refetch) => FetchedCardsAreMapped(refetch);
    case DeleteRequested(_, _, refetch) => FetchedCardsAreMapped(refetch);
    case _ =>
  }

  /** Editing a product and saving it straight away sends its kind (or "buy"),
      re-sends its stored images under their ids, and uploads no new image
      and no brochure. */
  lemma EditThenSave(p: Product)
    requires |p.images| > 0
    ensures var out := Save(Some(p), EditForm(p), None, EditPreviews(p.images));
      && out.Send?
      && Entry("buy_rent", TextValue(Field(EditForm(p), "buy_rent"))) in out.body
      && CountKey(out.body, "image") == 0
      && CountKey(out.body, "brochure") == 0
  {
    var form := EditForm(p);
    var previews := EditPreviews(p.images);
    PayloadFields(form, None, Some(p), previews);
    PayloadFileCounts(form, None, Some(p), previews);
    EditPreviewsUploadNoNewImage(p.images);
    ImageCountIsNewFiles(previews);
  }
}

=== FILE: testimonials.dfy ===
/** The testimonials screen: testimonials fetched from the server, searched
    by name and company, added or edited in a modal whose rating input holds a
    number, and deleted locally after the server accepts. A successful save
    reloads the whole page. */
module Testimonials {
  import opened Text
  import opened Js
  import opened Lists
  import opened Multipart
  import opened JsNumber

  const API_ROOT: string := BASE_URL + "/robotics"

  datatype TestimonialRecord = TestimonialRecord(
    tId: Scalar, tName: string, tCompany: string, tRating: Scalar,
    tDescription: string, tImage: Option<string>)

  datatype Testimonial = Testimonial(
    id: string, name: string, company: string, rating: Scalar, description: string, image: string)

  function ToTestimonial(r: TestimonialRecord): (t: Testimonial)
    ensures t.id == ScalarText(r.tId) && t.name == r.tName && t.company == r.tCompany
    ensures t.rating == r.tRating && t.description == r.tDescription
    ensures t.image == "" <==> r.tImage.None? || r.tImage.value == ""
    ensures t.image != "" ==> t.image == BASE_URL + r.tImage.value
  {
    Testimonial(ScalarText(r.tId), r.tName, r.tCompany, r.tRating, r.tDescription, PrefixedOr(r.tImage, ""))
  }

  function FetchedTestimonials(current: seq<Testimonial>, reply: ListReply<TestimonialRecord>): (r: seq<Testimonial>)
    ensures reply.ListResolved? && reply.result && reply.list.Some? ==>
      |r| == |reply.list.value| && forall i :: 0 <= i < |r| ==> r[i] == ToTestimonial(reply.list.value[i])
    ensures !(reply.ListResolved? && reply.result && reply.list.Some?) ==> r == current
  {
    if reply.ListResolved? && reply.result && reply.list.Some? then
      var list := reply.list.value;
      seq(|list|, i requires 0 <= i < |list| => ToTestimonial(list[i]))
    else current
  }

  // ---------------------------------------------------------------------------
  // Search
  // ---------------------------------------------------------------------------

  predicate MatchesSearch(t: Testimonial, term: string)
  {
    Contains(Lower(t.name + " " + t.company), Lower(term))
  }

  function Matching(term: string): Testimonial -> bool
  {
    (t: Testimonial) => MatchesSearch(t, term)
  }

  /** The testimonials shown: `Lists.Filter` specialised to testimonials and
      this screen's search. */
  function Filtered(items: seq<Testimonial>, term: string): (r: seq<Testimonial>)
    ensures IsSubsequence(r, items)
    ensures forall i :: 0 <= i < |r| ==> MatchesSearch(r[i], term)
    ensures forall i :: 0 <= i < |items| && MatchesSearch(items[i], term) ==> items[i] in r
  {
    FilterIsSubsequence(items, Matching(term));
    Filter(items, Matching(term))
  }

  /** A testimonial is found by its company, typed in any case. */
  lemma CompanyFound(t: Testimonial, typed: string)
    requires Lower(typed) == Lower(t.company)
    ensures MatchesSearch(t, typed)
  {
    LowerAppend(t.name + " ", t.company);
    ContainsSelf(Lower(t.company));
    ContainsInfix(Lower(t.name + " "), Lower(t.company), [], Lower(typed));
    assert Lower(t.name + " ") + Lower(t.company) + [] == Lower(t.name + " " + t.company);
  }

  // ---------------------------------------------------------------------------
  // The modal
  // ---------------------------------------------------------------------------

  /** The rating the form holds: the stored value (0 for a new testimonial),
      or what was typed into the number input. */
  datatype Rating = Stored(value: Scalar) | Typed(text: string)

  /** `String(formData.rating)`: a stored value as it is; a typed rating is
      `Number` of what the number input hands over, so a valid number is sent
      as the number it converts to, and anything else reaches the handler as
      "" and is sent as 0. */
  function RatingValue(r: Rating): (v: Value)
    ensures r.Stored? ==> v == TextValue(ScalarText(r.value))
    ensures r.Typed? && IsValidFloat(r.text) ==> v == ConvertedNumber(r.text)
    ensures r.Typed? && (IsNaN(r.text) || IsBlank(r.text)) ==> v == TextValue("0")
    ensures r.Typed? ==> v != TextValue("NaN")
  {
    match r
    case Stored(value) => TextValue(ScalarText(value))
    case Typed(text) =>
      var handed := NumberInputValue(text);
      if handed == "" then TextValue("0") else ConvertedNumber(handed)
  }

  datatype Modal = Modal(editing: Option<Testimonial>, form: Form, rating: Rating, file: Option<FileRef>)

  const ADD_FORM: Form := map["name" := "", "company" := "", "description" := "", "image" := ""]

  function EditForm(t: Testimonial): (form: Form)
    ensures Field(form, "name") == t.name && Field(form, "company") == t.company
    ensures Field(form, "description") == t.description
  {
    map["name" := t.name, "company" := t.company, "description" := t.description, "image" := t.image]
  }

  /** `handleSave`'s request: none when the name or the company is empty;
      otherwise name, company, rating, description, the picked image if any,
      and last the id when editing. The rating is not checked. */
  function SaveRequest(m: Modal): (r: Option<Request>)
    ensures r.Some? <==> Field(m.form, "name") != "" && Field(m.form, "company") != ""
    ensures r.Some? ==> r.value.endpoint == API_ROOT + (if m.editing.Some? then "/edit/testimonial" else "/add/testimonial")
    ensures r.Some? ==> (Keys(r.value.body) == ["name", "company", "rating", "description"]
      + (if m.file.Some? then ["image"] else []) + (if m.editing.Some? then ["t_id"] else []))
    ensures r.Some? ==> r.value.body[2] == Entry("rating", RatingValue(m.rating))
  {
    if Field(m.form, "name") == "" || Field(m.form, "company") == "" then None
    else
      var texts := [TextEntry(m.form, "name"), TextEntry(m.form, "company"),
                    Entry("rating", RatingValue(m.rating)), TextEntry(m.form, "description")];
      var image := if m.file.Some? then [Entry("image", FileValue(m.file.value))] else [];
      var id := if m.editing.Some? then [Entry("t_id", TextValue(m.editing.value.id))] else [];
      Some(Request(API_ROOT + (if m.editing.Some? then "/edit/testimonial" else "/add/testimonial"),
                   texts + image + id))
  }

  /** The form does not check the rating: one typed as any decimal numeral,
      above 5 or below 0 alike, is sent as the number it converts to. */
  lemma AnyRatingIsSent(m: Modal, d: Decimal)
    requires Field(m.form, "name") != "" && Field(m.form, "company") != ""
    requires m.rating == Typed(Show(d)) && WellFormed(d)
    ensures SaveRequest(m).Some?
    ensures SaveRequest(m).value.body[2] == Entry("rating", ConvertedNumber(Show(d)))
  {
    ParseShow(d);
  }

  /** Text that is no number never reaches the handler: the number input
      hands over "", so the rating is sent as "0" and no entry of the body is
      the rating "NaN". */
  lemma NonNumberRatingSentAsZero(m: Modal)
    requires Field(m.form, "name") != "" && Field(m.form, "company") != ""
    requires m.rating.Typed? && IsNaN(m.rating.text)
    ensures SaveRequest(m).Some?
    ensures SaveRequest(m).value.body[2] == Entry("rating", TextValue("0"))
    ensures Entry("rating", TextValue("NaN")) !in SaveRequest(m).value.body
  {
    RatingAppendedOnce(m);
  }

  /** The body holds one rating entry, the third. */
  lemma RatingAppendedOnce(m: Modal)
    requires SaveRequest(m).Some?
    ensures forall j :: 0 <= j < |SaveRequest(m).value.body| && j != 2 ==> SaveRequest(m).value.body[j].key != "rating"
  {
    var body := SaveRequest(m).value.body;
    var ks := Keys(body);
    var tail := (if m.file.Some? then ["image"] else []) + (if m.editing.Some? then ["t_id"] else []);
    assert ks == ["name", "company", "rating", "description"] + tail;
    assert "rating" !in tail;
    forall j | 0 <= j < |body| && j != 2
      ensures body[j].key != "rating"
    {
      assert body[j].key == ks[j];
      if j >= 4 {
        assert ks[j] == tail[j - 4];
      }
    }
  }

  // ---------------------------------------------------------------------------
  // Delete and the screen
  // ---------------------------------------------------------------------------

  function WithId(id: string): Testimonial -> bool { Not(WithoutId(id)) }
  function WithoutId(id: string): Testimonial -> bool { (t: Testimonial) => t.id != id }

  /** The local delete, `Lists.Filter` specialised to testimonials: every
      one with that id goes, the others stay in order. */
  function DeleteTestimonial(items: seq<Testimonial>, id: string): (r: seq<Testimonial>)
    ensures IsSubsequence(r, items)
    ensures forall i :: 0 <= i < |r| ==> r[i].id != id
    ensures forall i :: 0 <= i < |items| && items[i].id != id ==> items[i] in r
  {
    FilterIsSubsequence(items, WithoutId(id));
    Filter(items, WithoutId(id))
  }

  lemma DeleteLosesOnlyThatId(items: seq<Testimonial>, id: string)
    ensures forall x :: Count(DeleteTestimonial(items, id), x) + Count(Filter(items, WithId(id)), x) == Count(items, x)
  {
    forall x
      ensures Count(Filter(items, WithoutId(id)), x) + Count(Filter(items, WithId(id)), x) == Count(items, x)
    {
      FilterPartition(items, WithoutId(id), x);
    }
  }

  datatype Screen = Screen(items: seq<Testimonial>, searchTerm: string, modal: Option<Modal>)

  const INITIAL: Screen := Screen([], "", None)

  datatype Event =
    | Fetched(reply: ListReply<TestimonialRecord>)
    | SearchEdited(term: string)
    | AddClicked
    | EditClicked(item: Testimonial)
    | FieldTyped(key: string, text: string)
    | RatingTyped(text: string)
    | ImagePicked(file: FileRef)
      /** Save: the server's answer, and the reply of the fetch the reloaded
          page makes. */
    | SaveClicked(ack: AckReply, reload: ListReply<TestimonialRecord>)
    | Closed
    | DeleteRequested(id: string, confirmed: bool, ack: AckReply)

  function Step(s: Screen, e: Event): (t: Screen)
    ensures e.DeleteRequested? && e.confirmed && e.ack.Resolved? ==> t.items == DeleteTestimonial(s.items, e.id)
    ensures e.DeleteRequested? && !(e.confirmed && e.ack.Resolved?) ==> t == s
  {
    match e
    case Fetched(reply) => s.(items := FetchedTestimonials(s.items, reply))
    case SearchEdited(term) => s.(searchTerm := term)
    case AddClicked => s.(modal := Some(Modal(None, ADD_FORM, Stored(Num(0)), None)))
    case EditClicked(item) => s.(modal := Some(Modal(Some(item), EditForm(item), Stored(item.rating), None)))
    case FieldTyped(key, text) =>
      if s.modal.Some? then s.(modal := Some(s.modal.value.(form := s.modal.value.form[key := text]))) else s
    case RatingTyped(text) =>
      if s.modal.Some? then s.(modal := Some(s.modal.value.(rating := Typed(text)))) else s
    case ImagePicked(file) =>
      if s.modal.Some? then s.(modal := Some(s.modal.value.(file := Some(file)))) else s
    case SaveClicked(ack, reload) =>
      if s.modal.None? || SaveRequest(s.modal.value).None? || ack.Rejected? then s
      else INITIAL.(items := FetchedTestimonials([], reload))
    case Closed => s.(modal := None)
    case DeleteRequested(id, confirmed, ack) =>
      if confirmed && ack.Resolved? then s.(items := DeleteTestimonial(s.items, id)) else s
  }

  lemma EmptySearchKeepsAll(items: seq<Testimonial>)
    ensures Filtered(items, "") == items
  {
    forall i | 0 <= i < |items|
      ensures MatchesSearch(items[i], "")
    {
      ContainsEmpty(Lower(items[i].name + " " + items[i].company));
    }
    FilterAll(items, Matching(""));
  }

  /** A save the server accepts reloads the page: the modal is gone, the
      search is cleared and the whole fetched list is shown. */
  lemma AcceptedSaveReloads(s: Screen, ack: AckReply, reload: ListReply<TestimonialRecord>)
    requires s.modal.Some? && SaveRequest(s.modal.value).Some? && ack.Resolved?
    ensures var t := Step(s, SaveClicked(ack, reload));
      t.modal.None? && t.searchTerm == "" && Filtered(t.items, t.searchTerm) == t.items
  {
    var t := Step(s, SaveClicked(ack, reload));
    assert t == Screen(FetchedTestimonials([], reload), "", None);
    EmptySearchKeepsAll(t.items);
  }
}

=== FILE: text.dfy ===
/** The JavaScript string operations the dashboard relies on, stated over
    `seq<char>`: `toLowerCase` (ASCII part), `includes`, `trim`, `split` and
    `join` on one separator, `toString` of an integer, digit filtering and the
    relational `<` on strings. */
module Text {

  // ---------------------------------------------------------------------------
  // Lower-casing
  // ---------------------------------------------------------------------------

  predicate IsUpper(c: char) { 'A' <= c <= 'Z' }

  /** `toLowerCase` on one character, restricted to ASCII letters. */
  function LowerChar(c: char): char
  {
    if IsUpper(c) then (c as int + 32) as char else c
  }

  /** `s.toLowerCase()` restricted to ASCII letters. */
  function Lower(s: string): (r: string)
    ensures |r| == |s|
    ensures forall i :: 0 <= i < |s| ==> r[i] == LowerChar(s[i])
    ensures forall i :: 0 <= i < |r| ==> !IsUpper(r[i])
  {
    if |s| == 0 then "" else [LowerChar(s[0])] + Lower(s[1..])
  }

  lemma LowerIdempotent(s: string)
    ensures Lower(Lower(s)) == Lower(s)
  {
  }

  /** Lower-casing leaves a text without upper-case letters unchanged. */
  lemma {:induction false} LowerIdentity(s: string)
    requires forall k :: 0 <= k < |s| ==> !IsUpper(s[k])
    ensures Lower(s) == s
  {
    if |s| > 0 {
      LowerIdentity(s[1..]);
    }
  }

  lemma LowerAppend(a: string, b: string)
    ensures Lower(a + b) == Lower(a) + Lower(b)
  {
  }

  lemma LowerJoin(a: string, b: string, c: string)
    ensures Lower(a + b + c) == Lower(a) + Lower(b) + Lower(c)
  {
    LowerAppend(a + b, c);
    LowerAppend(a, b);
  }

  // ---------------------------------------------------------------------------
  // Substring search
  // ---------------------------------------------------------------------------

  /** `needle` occurs in `hay` starting at index `i`. */
  ghost predicate OccursAt(hay: string, needle: string, i: int)
  {
    0 <= i && i + |needle| <= |hay| && hay[i..i + |needle|] == needle
  }

  lemma OccursShift(hay: string, needle: string)
    requires |hay| > 0
    requires !OccursAt(hay, needle, 0)
    ensures (exists i :: OccursAt(hay, needle, i)) <==> (exists j :: OccursAt(hay[1..], needle, j))
  {
    if i :| OccursAt(hay, needle, i) {
      assert i >= 1;
      assert hay[1..][i - 1..i - 1 + |needle|] == hay[i..i + |needle|];
      assert OccursAt(hay[1..], needle, i - 1);
    }
    if j :| OccursAt(hay[1..], needle, j) {
      assert hay[j + 1..j + 1 + |needle|] == hay[1..][j..j + |needle|];
      assert OccursAt(hay, needle, j + 1);
    }
  }

  /** `hay.includes(needle)`: true exactly when `needle` occurs somewhere in `hay`. */
  function Contains(hay: string, needle: string): (r: bool)
    ensures r <==> exists i :: OccursAt(hay, needle, i)
    decreases |hay|
  {
    if |needle| <= |hay| && hay[..|needle|] == needle then
      assert OccursAt(hay, needle, 0);
      true
    else if |hay| == 0 then
      false
    else
      OccursShift(hay, needle);
      Contains(hay[1..], needle)
  }

  /** Every string includes the empty string. */
  lemma ContainsEmpty(hay: string)
    ensures Contains(hay, "")
  {
    assert OccursAt(hay, "", 0);
  }

  /** A string includes itself. */
  lemma ContainsSelf(s: string)
    ensures Contains(s, s)
  {
    assert OccursAt(s, s, 0);
  }

  /** What occurs inside `a` or inside `b` occurs inside any concatenation around them. */
  lemma ContainsInfix(a: string, mid: string, b: string, needle: string)
    requires Contains(mid, needle)
    ensures Contains(a + mid + b, needle)
  {
    var i :| OccursAt(mid, needle, i);
    var whole := a + mid + b;
    assert whole[|a| + i..|a| + i + |needle|] == mid[i..i + |needle|];
    assert OccursAt(whole, needle, |a| + i);
  }

  // ---------------------------------------------------------------------------
  // White space and trim
  // ---------------------------------------------------------------------------

  /** The characters `String.prototype.trim` removes: ECMAScript WhiteSpace and
      LineTerminator (TAB, LF, VT, FF, CR, SPACE, NBSP, the Unicode space
      separators, LS, PS and the byte order mark). */
  predicate IsSpace(c: char)
  {
    var n := c as int;
    (9 <= n <= 13) || n == 32 || n == 0xA0 || n == 0x1680
    || (0x2000 <= n <= 0x200A) || n == 0x2028 || n == 0x2029
    || n == 0x202F || n == 0x205F || n == 0x3000 || n == 0xFEFF
  }

  /** All characters of `s` are white space (an empty string is blank). */
  predicate IsBlank(s: string)
  {
    forall i :: 0 <= i < |s| ==> IsSpace(s[i])
  }

  function TrimStart(s: string): (r: string)
    ensures |r| <= |s| && r == s[|s| - |r|..]
    ensures forall i :: 0 <= i < |s| - |r| ==> IsSpace(s[i])
    ensures |r| > 0 ==> !IsSpace(r[0])
    decreases |s|
  {
    if |s| > 0 && IsSpace(s[0]) then TrimStart(s[1..]) else s
  }

  function TrimEnd(s: string): (r: string)
    ensures |r| <= |s| && r == s[..|r|]
    ensures forall i :: |r| <= i < |s| ==> IsSpace(s[i])
    ensures |r| > 0 ==> !IsSpace(r[|r| - 1])
    decreases |s|
  {
    if |s| > 0 && IsSpace(s[|s| - 1]) then TrimEnd(s[..|s| - 1]) else s
  }

  lemma TrimStartInfix(s: string)
    ensures forall c :: c in TrimStart(s) ==> c in s
    ensures TrimStart(s) == "" <==> IsBlank(s)
  {
    var t := TrimStart(s);
    forall c | c in t
      ensures c in s
    {
      var k :| 0 <= k < |t| && t[k] == c;
      assert s[|s| - |t| + k] == c;
    }
  }

  lemma TrimEndInfix(t: string)
    ensures forall c :: c in TrimEnd(t) ==> c in t
    ensures TrimEnd(t) == "" <==> IsBlank(t)
  {
    var r := TrimEnd(t);
    forall c | c in r
      ensures c in t
    {
      var k :| 0 <= k < |r| && r[k] == c;
      assert t[k] == c;
    }
  }

  lemma TrimParts(s: string)
    ensures var r := TrimEnd(TrimStart(s));
      && (|r| > 0 ==> !IsSpace(r[0]) && !IsSpace(r[|r| - 1]))
      && (forall c :: c in r ==> c in s)
      && (r == "" <==> IsBlank(s))
  {
    var t := TrimStart(s);
    var r := TrimEnd(t);
    TrimStartInfix(s);
    TrimEndInfix(t);
    if |r| > 0 {
      assert r[0] == t[0];
    }
    if |t| > 0 {
      assert !IsSpace(t[0]);
      assert !IsBlank(t);
    }
  }

  /** `s.trim()`: an infix of `s` that neither starts nor ends with white space,
      empty exactly when `s` is blank. */
  function Trim(s: string): (r: string)
    ensures |r| <= |s|
    ensures |r| > 0 ==> !IsSpace(r[0]) && !IsSpace(r[|r| - 1])
    ensures forall c :: c in r ==> c in s
    ensures r == "" <==> IsBlank(s)
  {
    TrimParts(s);
    TrimEnd(TrimStart(s))
  }

  /** `!text.trim()` holds exactly for blank text. */
  lemma TrimEmptyIffBlank(text: string)
    ensures Trim(text) == "" <==> IsBlank(text)
  {
  }

  /** A text that neither starts nor ends with white space is its own trim. */
  lemma TrimKeeps(s: string)
    requires |s| > 0 ==> !IsSpace(s[0]) && !IsSpace(s[|s| - 1])
    ensures Trim(s) == s
  {
    if |s| > 0 {
      assert TrimStart(s) == s;
      assert TrimEnd(s) == s;
    }
  }

  lemma TrimIdempotent(s: string)
    ensures Trim(Trim(s)) == Trim(s)
  {
    TrimKeeps(Trim(s));
  }

  // ---------------------------------------------------------------------------
  // split / join on one separator character
  // ---------------------------------------------------------------------------

  /** Index of the first occurrence of `c` in `s`. */
  function IndexOf(s: string, c: char): (i: nat)
    requires c in s
    ensures i < |s| && s[i] == c && c !in s[..i]
  {
    if s[0] == c then 0 else 1 + IndexOf(s[1..], c)
  }

  lemma {:induction false} IndexOfIs(s: string, c: char, j: nat)
    requires j < |s| && s[j] == c && c !in s[..j]
    ensures IndexOf(s, c) == j
  {
    if j > 0 {
      assert s[0] != c by { assert s[..j][0] == s[0]; }
      assert s[1..][..j - 1] == s[..j][1..];
      IndexOfIs(s[1..], c, j - 1);
    }
  }

  /** `parts.join(sep)`. */
  function Join(parts: seq<string>, sep: char): string
  {
    if |parts| == 0 then ""
    else if |parts| == 1 then parts[0]
    else parts[0] + [sep] + Join(parts[1..], sep)
  }

  /** `s.split(sep)` for a one-character separator: the pieces between
      separators, never empty as a list, none containing `sep`, and joining
      back to `s`. */
  function Split(s: string, sep: char): (parts: seq<string>)
    ensures |parts| >= 1
    ensures forall k :: 0 <= k < |parts| ==> sep !in parts[k]
    ensures Join(parts, sep) == s
    decreases |s|
  {
    if sep !in s then [s]
    else
      var i := IndexOf(s, sep);
      var rest := Split(s[i + 1..], sep);
      var parts := [s[..i]] + rest;
      assert parts[1..] == rest;
      assert s == s[..i] + [sep] + s[i + 1..];
      parts
  }

  /** The first piece of a split is the longest prefix free of the separator:
      it is followed by the separator or runs to the end. */
  lemma SplitHead(s: string, sep: char)
    ensures var h := Split(s, sep)[0];
      && |h| <= |s| && h == s[..|h|] && sep !in h
      && (|h| == |s| || s[|h|] == sep)
  {
  }

  /** Splitting a join of separator-free pieces gives the pieces back. */
  lemma {:induction false} SplitJoin(parts: seq<string>, sep: char)
    requires |parts| >= 1
    requires forall k :: 0 <= k < |parts| ==> sep !in parts[k]
    ensures Split(Join(parts, sep), sep) == parts
  {
    if |parts| == 1 {
    } else {
      var head := parts[0];
      var tail := Join(parts[1..], sep);
      var s := Join(parts, sep);
      assert s == head + [sep] + tail;
      assert sep in s by { assert s[|head|] == sep; }
      assert s[|head|] == sep;
      assert sep !in s[..|head|] by { assert s[..|head|] == head; }
      IndexOfIs(s, sep, |head|);
      assert s[..|head|] == head;
      assert s[|head| + 1..] == tail;
      SplitJoin(parts[1..], sep);
    }
  }

  // ---------------------------------------------------------------------------
  // The comma-list normaliser of the product forms
  // ---------------------------------------------------------------------------

  /** `items.map(s => s.trim())`. */
  function TrimAll(items: seq<string>): (r: seq<string>)
    ensures |r| == |items|
    ensures forall k :: 0 <= k < |r| ==> r[k] == Trim(items[k])
  {
    seq(|items|, k requires 0 <= k < |items| => Trim(items[k]))
  }

  /** `text.split(",").map(s => s.trim()).join(",")`: splitting the result
      again gives the trimmed items of the input, one for one. */
  function NormalizeList(text: string): (r: string)
    ensures Split(r, ',') == TrimAll(Split(text, ','))
  {
    var items := TrimAll(Split(text, ','));
    assert forall k :: 0 <= k < |items| ==> ',' !in items[k];
    SplitJoin(items, ',');
    Join(items, ',')
  }

  /** Normalising keeps the number of comma-separated items. */
  lemma NormalizeListKeepsCount(text: string)
    ensures |Split(NormalizeList(text), ',')| == |Split(text, ',')|
  {
  }

  /** Every item of a normalised list is already trimmed. */
  lemma NormalizeListItemsTrimmed(text: string)
    ensures forall k :: 0 <= k < |Split(NormalizeList(text), ',')| ==>
      Trim(Split(NormalizeList(text), ',')[k]) == Split(NormalizeList(text), ',')[k]
  {
    var items := Split(NormalizeList(text), ',');
    forall k | 0 <= k < |items|
      ensures Trim(items[k]) == items[k]
    {
      TrimIdempotent(Split(text, ',')[k]);
    }
  }

  /** Normalising twice is normalising once. */
  lemma {:induction false} NormalizeListIdempotent(text: string)
    ensures NormalizeList(NormalizeList(text)) == NormalizeList(text)
  {
    var once := NormalizeList(text);
    var items := TrimAll(Split(text, ','));
    assert Split(once, ',') == items;
    forall k | 0 <= k < |items|
      ensures TrimAll(items)[k] == items[k]
    {
      TrimIdempotent(Split(text, ',')[k]);
    }
    assert TrimAll(items) == items;
    assert once == Join(items, ',');
  }

  // ---------------------------------------------------------------------------
  // String length in UTF-16 code units
  // ---------------------------------------------------------------------------

  /** A character outside the Basic Multilingual Plane, which UTF-16 stores as
      a surrogate pair. */
  predicate IsAstral(c: char)
  {
    c as int >= 0x10000
  }

  /** `s.length`: JavaScript counts UTF-16 code units, two for an astral
      character and one for any other. */
  function Utf16Length(s: string): (n: nat)
    ensures |s| <= n <= 2 * |s|
    ensures n == |s| <==> forall i :: 0 <= i < |s| ==> !IsAstral(s[i])
  {
    if |s| == 0 then 0
    else
      assert forall i :: 1 <= i < |s| ==> s[1..][i - 1] == s[i];
      (if IsAstral(s[0]) then 2 else 1) + Utf16Length(s[1..])
  }

  // ---------------------------------------------------------------------------
  // Digits and integer rendering
  // ---------------------------------------------------------------------------

  predicate IsDigit(c: char) { '0' <= c <= '9' }

  predicate AllDigits(s: string)
  {
    forall k :: 0 <= k < |s| ==> IsDigit(s[k])
  }

  function DigitChar(d: nat): (c: char)
    requires d < 10
    ensures IsDigit(c)
  {
    ('0' as int + d) as char
  }

  /** The number a string of decimal digits denotes. */
  function DigitsValue(s: string): nat
    requires AllDigits(s)
  {
    if |s| == 0 then 0 else DigitsValue(s[..|s| - 1]) * 10 + (s[|s| - 1] as int - '0' as int)
  }

  /** `n.toString()` for a non-negative integer: decimal digits without leading
      zeros that denote `n`. */
  function NatToString(n: nat): (r: string)
    ensures |r| >= 1
    ensures AllDigits(r)
    ensures DigitsValue(r) == n
    ensures r[0] == '0' ==> n == 0
    decreases n
  {
    if n < 10 then [DigitChar(n)]
    else
      var prefix := NatToString(n / 10);
      var r := prefix + [DigitChar(n % 10)];
      assert r[..|r| - 1] == prefix;
      r
  }

  /** `i.toString()` for an integer: a minus sign for negatives, then digits. */
  function IntToString(i: int): (r: string)
    ensures |r| >= 1
    ensures r[0] == '-' <==> i < 0
    ensures forall k :: 0 < k < |r| ==> IsDigit(r[k])
    ensures i >= 0 ==> AllDigits(r) && DigitsValue(r) == i
  {
    if i < 0 then "-" + NatToString(-i) else NatToString(i)
  }

  /** The decimal rendering determines the integer: distinct ids render differently. */
  lemma IntToStringInjective(a: int, b: int)
    requires IntToString(a) == IntToString(b)
    ensures a == b
  {
    if a < 0 {
      assert IntToString(a)[1..] == NatToString(-a);
      assert IntToString(b)[1..] == NatToString(-b);
    }
  }

  /** `s.replace(/\D/g, "")`: the ASCII digits of `s`, in order. */
  function DigitsOnly(s: string): (r: string)
    ensures |r| <= |s|
    ensures AllDigits(r)
    ensures AllDigits(s) ==> r == s
    ensures forall c :: c in r ==> c in s
  {
    if |s| == 0 then ""
    else if IsDigit(s[0]) then [s[0]] + DigitsOnly(s[1..])
    else DigitsOnly(s[1..])
  }

  // ---------------------------------------------------------------------------
  // Relational comparison of strings
  // ---------------------------------------------------------------------------

  /** `a < b` on two strings: lexicographic on characters, a proper prefix first. */
  function LexLess(a: string, b: string): bool
  {
    if |b| == 0 then false
    else if |a| == 0 then true
    else if a[0] != b[0] then a[0] < b[0]
    else LexLess(a[1..], b[1..])
  }

  lemma {:induction false} LexLessIrreflexive(a: string)
    ensures !LexLess(a, a)
  {
    if |a| > 0 {
      LexLessIrreflexive(a[1..]);
    }
  }

  lemma {:induction false} LexLessTrichotomy(a: string, b: string)
    ensures a == b || LexLess(a, b) || LexLess(b, a)
  {
    if |a| > 0 && |b| > 0 && a[0] == b[0] {
      LexLessTrichotomy(a[1..], b[1..]);
      if a[1..] == b[1..] {
        assert a == [a[0]] + a[1..];
        assert b == [b[0]] + b[1..];
      }
    }
  }

  lemma {:induction false} LexLessAsymmetric(a: string, b: string)
    ensures !(LexLess(a, b) && LexLess(b, a))
  {
    if |a| > 0 && |b| > 0 && a[0] == b[0] {
      LexLessAsymmetric(a[1..], b[1..]);
    }
  }

  lemma {:induction false} LexLessTransitive(a: string, b: string, c: string)
    requires LexLess(a, b) && LexLess(b, c)
    ensures LexLess(a, c)
  {
    if |a| > 0 && a[0] == b[0] && b[0] == c[0] {
      LexLessTransitive(a[1..], b[1..], c[1..]);
    }
  }
}
